=== FILE: README.md ===
# Cosmos DB table storage, modelled in Dafny

This project models `CosmosStorage`, the table-storage layer of
Cloud.Core.Storage.AzureCosmos, together with the configuration classes it is
built from. The layer stores records ("entities") in the containers
("tables") of one Cosmos DB database. A caller's key is `"<partition>/<id>"`
or a bare `"<id>"`.

The model covers:

- single-record reads, existence checks, writes and deletes, and the batch
  versions of writes and deletes;
- the paging loop behind listing and counting, and the query texts the
  listing and counting overloads build;
- table creation, deletion, listing and existence;
- the client lifecycle: validation, the lazily built client with its expiry,
  and the connection string resolved through the management plane and cached
  process-wide by instance name.

Modules, one per file:

| module | file | what it holds |
|---|---|---|
| `Wrappers` | wrappers.dfy | `Option` and `Result` (a thrown exception is a `Failure`) |
| `Strings` | strings.dfy | `Split`/`Join`, `StartsWith`, `Contains`, .NET-style `Replace`, ASCII lower-casing |
| `Errors` | errors.dfy | the exceptions the layer throws or lets through |
| `KeyCodec` | keycodec.dfy | `ExtractPartitionKey` and its inverse |
| `Config` | config.dfy | the three configurations, `[Required]` validation, `ConnectionConfig.InstanceName`, `ToString` |
| `Store` | store.dfy | the document store as a map from table to container to record; the SDK calls used |
| `Records` | records.dfy | `GetEntity`, `Exists`, `UpsertEntity`, `DeleteEntity` |
| `Batch` | batch.dfy | `DeleteEntities`, `UpsertEntities` |
| `Paging` | paging.dfy | the do/while paging loop of `ListEntitiesObservable` and `Counter` |
| `Query` | query.dfy | the query texts and cancellation sources of the listing and counting overloads |
| `Tables` | tables.dfy | `CreateTable`, `DeleteTable`, `ListTableNames` and `TableExists`, as written and reading every page |
| `Client` | client.dfy | constructors, the `CosmosClient` getter, `InitializeClient`, `BuildStorageConnection` |

The store, the identity providers and the management plane are outside the
model. The model stands in for them as follows:

- The SDK behaves like a map. A missing record or container is a 404
  `CosmosException`; creating a record that exists is a 409.
- Any other failure of a store call is an injected `fault` parameter. Batches
  take one fault per item index.
- The record and batch operations first ask the `CosmosClient` getter for the
  client. Its failure is a `clientFault` parameter, checked before anything
  else; `Client.GetClient` models the getter itself.
- The current time is a parameter `now`, in seconds.
- The identity providers' and management plane's answers are an
  `Environment` value.
- A query's pages are an oracle sequence: pass `k` of the loop receives page
  `k` of the oracle.

Where the code and its documentation comments disagree, the model follows the
code:

- `UpsertEntity` and `UpsertEntities` call `CreateItemAsync`. They never
  replace an existing record: a second write of the same id and partition
  fails with a 409.
- `DeleteEntity` has no exception handler. Deleting a missing record throws
  the store's 404.
- The column-selecting `ListEntitiesObservable` keeps a filter only when its
  lower-cased text contains `"where "`. Any other non-empty filter is
  replaced by a bare `"WHERE "`.
- The overloads that take a caller's `CancellationTokenSource` but run the
  query under a new one ignore the caller's source. These are
  `ListEntities(table, token)`, `ListEntitiesObservable(table, token)` and
  the column-selecting overloads.
- `ListTableNames` reads one page of the container listing.
- `ConnectionConfig` validation counts two required fields:
  `ConnectionString` and `DatabaseName`. The unit tests expect this; the
  hidden base `InstanceName` is not counted.

## Model

The paths below are relative to the repository root. `CosmosStorage.cs` is
`src/Cloud.Core.Storage.AzureCosmos/CosmosStorage.cs`. `CosmosConfig.cs` is
`src/Cloud.Core.Storage.AzureCosmos/Config/CosmosConfig.cs`.

| member | source | states |
|---|---|---|
| KeyCodec.ExtractPartitionKey | src/Cloud.Core.Storage.AzureCosmos/CosmosStorage.cs:565-585 | Throws the "more than one /" `InvalidOperationException` exactly when the key holds two or more `/`. Otherwise the id holds no `/`, there is no partition exactly when the key holds no `/`, and partition and id encode back to the key. |
| KeyCodec.DecodeEncode | src/Cloud.Core.Storage.AzureCosmos/CosmosStorage.cs:565-585 | Decoding the key built from any partition/id pair without `/` gives that pair back. |
| KeyCodec.TwoSeparatorsRejected | src/Cloud.Core.Storage.AzureCosmos/CosmosStorage.cs:573-576 | `"a/b/c"` is rejected with the key exception. |
| Records.GetEntity | src/Cloud.Core.Storage.AzureCosmos/CosmosStorage.cs:64-77 | A failure of the client getter propagates first, before the key is parsed. Then a malformed key throws. Without a store fault the result is exactly the stored record, or null when none is stored. A `CosmosException` becomes null; any other exception propagates. |
| Records.NotFoundErrorIsNotFound | src/Cloud.Core.Storage.AzureCosmos/CosmosStorage.cs:100-104 | The store's 404 passes the `"resource not found"` exception filter. |
| Records.Exists | src/Cloud.Core.Storage.AzureCosmos/CosmosStorage.cs:85-107 | A failure of the client getter propagates first, before the key is parsed. Then a malformed key throws. Without a fault the answer is whether a record is stored. An exception whose lower-cased message contains `"resource not found"` gives false; any other propagates. |
| Records.UpsertEntity | src/Cloud.Core.Storage.AzureCosmos/CosmosStorage.cs:170-180 | A failure of the client getter propagates first and leaves the record unchanged. Then a malformed key throws and leaves the record unchanged. Otherwise the record's key is rewritten to the bare id. Without a fault: a missing table gives the 404; with the table present, the write succeeds exactly when nothing is stored under that id and partition, and then stores the rewritten record; a taken reference gives the 409. An injected fault propagates. |
| Records.DeleteEntity | src/Cloud.Core.Storage.AzureCosmos/CosmosStorage.cs:115-121 | A failure of the client getter propagates first, before the key is parsed. Then a malformed key throws. Without a fault the delete succeeds exactly when the record exists; otherwise the 404 propagates. On success the record is gone and nothing else changes. |
| Records.UpsertThenGet | src/Cloud.Core.Storage.AzureCosmos/CosmosStorage.cs:170-180 | A record written under `"<partition>/<id>"` reads back through `GetEntity` under the same key, with its `Key` rewritten to the id. |
| Records.DeleteThenNotExists | src/Cloud.Core.Storage.AzureCosmos/CosmosStorage.cs:115-121 | After a successful delete, `Exists` answers false instead of throwing. |
| Records.ExistsAgreesWithGet | src/Cloud.Core.Storage.AzureCosmos/CosmosStorage.cs:85-107 | Without faults, `Exists` is true exactly when `GetEntity` finds a record. |
| Records.UpsertTwiceConflicts | src/Cloud.Core.Storage.AzureCosmos/CosmosStorage.cs:179 | Writing the same record a second time fails with a 409 conflict: the upsert never replaces. |
| Batch.Thrown | src/Cloud.Core.Storage.AzureCosmos/CosmosStorage.cs:155-156 | A batch throws exactly when some item failed. What it throws is an `AggregateException` with at least one inner exception. |
| Batch.ThrownCollectsFailures | src/Cloud.Core.Storage.AzureCosmos/CosmosStorage.cs:144-156 | For any earlier outcomes, a failing item makes the batch throw the aggregate of the earlier failures followed by exactly its exception; the first failure gives an aggregate of that exception alone. A succeeding item changes nothing. |
| Batch.DeleteEntities | src/Cloud.Core.Storage.AzureCosmos/CosmosStorage.cs:130-157 | A failure of the client getter, asked once before the loop, is thrown as it is, not aggregated: no key is attempted and nothing changes. Otherwise every key is attempted, the result equals the item-by-item reference, and the call throws the aggregate of the failures. A malformed key fails with the key exception. A faulted key fails with its fault. Any other well-formed key fails only with the 404, and only when its record was missing before the batch or removed by an earlier key. Every key whose delete succeeded is absent at the end. No other record of the table and no other table changes. |
| Batch.DeleteAllOutcomes | src/Cloud.Core.Storage.AzureCosmos/CosmosStorage.cs:138-149 | Every delete batch, of any length, meets the per-key guarantees above: malformed keys fail with the key exception, faulted keys with their fault, and other failures are 404s for records missing or removed by an earlier key. Every successfully deleted key is absent at the end. Every record of the table that no successful key names is unchanged, and every other table is unchanged. |
| Batch.DeleteAllPresent | src/Cloud.Core.Storage.AzureCosmos/CosmosStorage.cs:130-157 | Distinct, well-formed keys of stored records, under any store faults: each item fails exactly when it is faulted, with that fault. Exactly the records of the unfaulted keys are removed; every other record is unchanged. |
| Batch.UpsertAllFresh | src/Cloud.Core.Storage.AzureCosmos/CosmosStorage.cs:194-223 | Well-formed records with distinct references not yet taken, in an existing table, under any store faults: each record fails exactly when it is faulted, with that fault. Every unfaulted record is stored with its key rewritten to the bare id. No record outside those references changes. |
| Batch.UpsertDuplicateConflicts | src/Cloud.Core.Storage.AzureCosmos/CosmosStorage.cs:194-223 | The batch never replaces a record. An unfaulted, well-formed record in an existing table fails with the 409 when its reference was taken before the batch or by an earlier record of the batch that succeeded. |
| Batch.UpsertEntities | src/Cloud.Core.Storage.AzureCosmos/CosmosStorage.cs:194-223 | A failure of the client getter, asked once before the loop, is thrown as it is, not aggregated: no record is attempted or rewritten and nothing changes. Otherwise every record is attempted, the result equals the item-by-item reference, and the call throws the aggregate of the failures. A malformed key fails with the key exception and keeps the record as given; a well-formed one has its key rewritten to the id. A faulted record fails with its fault. Any other failure is a 404 for a missing table, or a 409 for a reference taken before the batch or by an earlier record. Every record whose write succeeded is stored, as rewritten, at the end. No other record of the table and no other table changes. |
| Batch.UpsertAllOutcomes | src/Cloud.Core.Storage.AzureCosmos/CosmosStorage.cs:202-215 | Every upsert batch, of any length, meets the per-record guarantees above: malformed keys fail with the key exception, faulted records with their fault, and other failures are 404s for a missing table or 409s for a reference already taken. Each successful write is stored as rewritten at the end. Every record of the table that no successful write names is unchanged, and every other table is unchanged. |
| Paging.FreshTokenNeverCancelled | src/Cloud.Core.Storage.AzureCosmos/CosmosStorage.cs:288 | A `new CancellationTokenSource()` that nobody else holds is never cancelled. |
| Paging.Drain | src/Cloud.Core.Storage.AzureCosmos/CosmosStorage.cs:314-333 | The definition of the loop from a given pass. Its own contract says only that it reads no more pages than the oracle holds and that a completed run has no failure; `Paging.DrainRuns` states what a run does. |
| Paging.DrainRuns | src/Cloud.Core.Storage.AzureCosmos/CosmosStorage.cs:314-333 | Every run of the loop emits exactly the concatenated results of the pages it reads. It reads only on uncancelled passes whose read does not throw, and goes on only after pages that say more results follow. It completes exactly when the last page read says no more follow or the source is cancelled at the next pass. A failing read ends the loop at that pass with that read's exception and no completion. |
| Paging.Events | src/Cloud.Core.Storage.AzureCosmos/CosmosStorage.cs:326-333 | One `OnNext` per emitted result, in order. After them comes one `OnError` carrying the exception when a read threw, or else one `OnCompleted` when the loop ended. Neither appears anywhere else. |
| Paging.FreshIteratorPages | src/Cloud.Core.Storage.AzureCosmos/CosmosStorage.cs:323 | A new query iterator on every pass means every pass reads the query's first page. |
| Paging.AsWrittenRepeatsFirstPage | src/Cloud.Core.Storage.AzureCosmos/CosmosStorage.cs:314-333 | As written, an uncancelled query whose first page says more follow never completes. After `n` passes it has emitted the first page's results `n` times and nothing else. |
| Paging.AsWrittenNeverCompletes | src/Cloud.Core.Storage.AzureCosmos/CosmosStorage.cs:314-333 | As written, the observable of such a query raises only `OnNext`, `n` times the first page's size after `n` passes, and never completes or fails. |
| Paging.ResumedEmitsAllOnce | src/Cloud.Core.Storage.AzureCosmos/CosmosStorage.cs:314-333 | With one iterator kept across passes, an uncancelled loop reads every page once, emits every result exactly once in order, and completes. |
| Paging.ReadFailureStops | src/Cloud.Core.Storage.AzureCosmos/CosmosStorage.cs:314-333 | A read that throws at pass `k`, after uncancelled passes over pages that say more follow, ends the loop there. The results of the earlier pages have been emitted, the loop has not completed, and the exception is the read's. |
| Paging.ReadFailureRaisesOnError | src/Cloud.Core.Storage.AzureCosmos/CosmosStorage.cs:304-334 | The observable of such a run raises `OnNext` for each result of the pages before `k`, in order, then `OnError` with the read's exception, and nothing else. |
| Paging.CancelledBeforeStart | src/Cloud.Core.Storage.AzureCosmos/CosmosStorage.cs:316-320 | A source cancelled before the first pass yields no result and a single `OnCompleted`. |
| Paging.CancellationStops | src/Cloud.Core.Storage.AzureCosmos/CosmosStorage.cs:316-320 | A source cancelled at pass `c` stops the loop within `c` pages. The loop ends, by completing unless an earlier read threw. |
| Paging.Count | src/Cloud.Core.Storage.AzureCosmos/CosmosStorage.cs:529-550 | The count never falls below its starting value. The running totals passed to `countIncrement` never decrease, and the last one equals the returned count. |
| Paging.CountMatchesDrain | src/Cloud.Core.Storage.AzureCosmos/CosmosStorage.cs:531-548 | Over the same pages, the count equals the number of results the listing loop emits. It reports once per page read, ends when the listing loop does, and throws the same exception when a read throws. |
| Paging.CountRunningTotals | src/Cloud.Core.Storage.AzureCosmos/CosmosStorage.cs:540-546 | The `i`-th total passed to `countIncrement` is the starting count plus the number of results on the first `i + 1` pages read. |
| Paging.CountReadFailure | src/Cloud.Core.Storage.AzureCosmos/CosmosStorage.cs:529-556 | A read that throws at pass `k` makes `Counter` rethrow it without completing, after one running total per earlier page, the last being their number of results. |
| Paging.AsWrittenCountGrows | src/Cloud.Core.Storage.AzureCosmos/CosmosStorage.cs:531-548 | As written, counting a query whose first page says more follow adds the first page again on every pass: after `n` passes the count is `n` times that page's size, and the loop has neither ended nor failed. |
| Paging.ResumedCountsAll | src/Cloud.Core.Storage.AzureCosmos/CosmosStorage.cs:531-548 | With one iterator, an uncancelled count equals the number of results of the query, and the loop ends. |
| Query.ColumnList | src/Cloud.Core.Storage.AzureCosmos/CosmosStorage.cs:355-367 | The projection is `*` exactly when no column is selected; otherwise it starts with `c['`. |
| Query.Projection | src/Cloud.Core.Storage.AzureCosmos/CosmosStorage.cs:361-366 | The joined projection starts with the first column formatted as `c['<name>']`. |
| Query.SplitProjection | src/Cloud.Core.Storage.AzureCosmos/CosmosStorage.cs:361-366 | Splitting the joined projection at quotes gives every column name at the odd positions, in order. |
| Query.ColumnNamesRoundTrip | src/Cloud.Core.Storage.AzureCosmos/CosmosStorage.cs:355-367 | For column names without quotes, the quoted parts of the projection are the selected columns, in order. |
| Query.CleanFilter | src/Cloud.Core.Storage.AzureCosmos/CosmosStorage.cs:369-377 | A null or empty filter becomes empty. A filter whose lower-cased text contains `"where "` is kept verbatim. Any other filter is replaced by `"WHERE "`. |
| Query.WhereClauseContainsKeyword | src/Cloud.Core.Storage.AzureCosmos/CosmosStorage.cs:376 | The replacement clause passes the filter's own keyword test. |
| Query.CleanFilterIdempotent | src/Cloud.Core.Storage.AzureCosmos/CosmosStorage.cs:369-377 | Cleaning a cleaned filter changes nothing, and a cleaned filter is empty or contains the keyword. |
| Query.SelectText | src/Cloud.Core.Storage.AzureCosmos/CosmosStorage.cs:355-379 | The text starts with `SELECT <projection> FROM c `. The condition after it is empty or contains `where ` once lower-cased, and a caller's filter that contains `where ` ends the text verbatim. |
| Query.SelectAllText | src/Cloud.Core.Storage.AzureCosmos/CosmosStorage.cs:379 | With no columns and no filter, the built query is `SELECT * FROM c `. |
| Query.ListAll | src/Cloud.Core.Storage.AzureCosmos/CosmosStorage.cs:286-289 | The overload runs `SELECT * FROM c` under a source that is never cancelled. |
| Query.CallerCancellationHonoured | src/Cloud.Core.Storage.AzureCosmos/CosmosStorage.cs:286-320 | The filtered overload honours the caller's source: cancelled before the first pass, it reads nothing and only completes. The overload that creates its own source, given the same cancelled source, reads every page, emits every result and completes. |
| Query.ListColumns | src/Cloud.Core.Storage.AzureCosmos/CosmosStorage.cs:352-380 | The built selection runs under a source that is never cancelled. |
| Query.ListColumnsOnly | src/Cloud.Core.Storage.AzureCosmos/CosmosStorage.cs:390-394 | The column selection runs with a null filter, so the query has no condition. |
| Query.CallerTokenIgnored | src/Cloud.Core.Storage.AzureCosmos/CosmosStorage.cs:274-289 | The overloads that take a caller's source but create their own plan the same query whatever source the caller passes. |
| Query.CountKeyQuery | src/Cloud.Core.Storage.AzureCosmos/CosmosStorage.cs:434-437 | The key is spliced unescaped between two quotes at a fixed position. |
| Query.CountKeyLiteral | src/Cloud.Core.Storage.AzureCosmos/CosmosStorage.cs:436 | The key-counting query has exactly one quoted literal, equal to the key, exactly when the key holds no quote. A key with a quote breaks out of the literal. |
| Tables.ParseTableName | src/Cloud.Core.Storage.AzureCosmos/CosmosStorage.cs:480-495 | Fails with the key exception exactly when the name holds two or more `/`. A name without `/` takes `/_partitionKey`. `"<name>/<prop>"` gives the name and the path `"/<prop>"`, which together rebuild the argument. |
| Tables.ParseTableNameAgrees | src/Cloud.Core.Storage.AzureCosmos/CosmosStorage.cs:483-495 | The table-name split matches the record-key split: the name plays the partition and the property plays the id. |
| Tables.CreateTable | src/Cloud.Core.Storage.AzureCosmos/CosmosStorage.cs:478-499 | Without a fault, creation succeeds for every well-formed name. An existing table is left unchanged; a new one is empty with the parsed path. No other table changes. |
| Tables.CreateTableIdempotent | src/Cloud.Core.Storage.AzureCosmos/CosmosStorage.cs:498 | Creating a table twice is the same as creating it once. |
| Tables.DeleteTable | src/Cloud.Core.Storage.AzureCosmos/CosmosStorage.cs:467-471 | Without a fault, deletion succeeds exactly when the table exists; otherwise the 404 propagates. Only that table is removed. |
| Tables.DeleteTableForgetsRecords | src/Cloud.Core.Storage.AzureCosmos/CosmosStorage.cs:467-471 | After a table is deleted, none of its records can be found. |
| Tables.ListTableNamesAsWritten | src/Cloud.Core.Storage.AzureCosmos/CosmosStorage.cs:400-413 | As written, the names returned are the first page of a full read of the listing. |
| Tables.TableExistsAsWritten | src/Cloud.Core.Storage.AzureCosmos/CosmosStorage.cs:506-509 | As written, `TableExists` answers exactly whether the first page of the container listing names the table. |
| Tables.AsWrittenMissesLaterPages | src/Cloud.Core.Storage.AzureCosmos/CosmosStorage.cs:506-509 | As written, `TableExists` never reports a missing table. It reports an existing table as missing whenever the listing names it only after the first page. |
| Tables.AsWrittenSecondPageCounterexample | src/Cloud.Core.Storage.AzureCosmos/CosmosStorage.cs:400-413 | A database with tables `a` and `b`, listed as two pages: as written, `TableExists("b")` is false. |
| Tables.ListTableNamesAllPages | src/Cloud.Core.Storage.AzureCosmos/CosmosStorage.cs:400-413 | Reading every page with one iterator returns every name of the listing, in order. |
| Tables.TableExistsIffInDatabase | src/Cloud.Core.Storage.AzureCosmos/CosmosStorage.cs:506-509 | Over the whole listing, `TableExists` is true exactly when the database has a table of that name. |
| Tables.CreateThenExists | src/Cloud.Core.Storage.AzureCosmos/CosmosStorage.cs:478-509 | After a successful `CreateTable`, the created name exists for the corrected `TableExists` that reads every page. |
| Tables.CreateThenExistsAsWritten | src/Cloud.Core.Storage.AzureCosmos/CosmosStorage.cs:478-509 | After a successful `CreateTable`, `TableExists` as written reports the name exactly when the first page of the listing names it. |
| Tables.CreateThenMissingCounterexample | src/Cloud.Core.Storage.AzureCosmos/CosmosStorage.cs:478-509 | A database holding `a`, after `CreateTable("b")` succeeds, listed as the pages `[a]` (more follow) and `[b]`: as written, `TableExists("b")` is false. |
| Tables.DeleteThenNotExists | src/Cloud.Core.Storage.AzureCosmos/CosmosStorage.cs:467-509 | After a successful `DeleteTable`, the name no longer exists for the corrected `TableExists` that reads every page. |
| Tables.DeleteThenNotExistsAsWritten | src/Cloud.Core.Storage.AzureCosmos/CosmosStorage.cs:467-509 | After a successful `DeleteTable`, `TableExists` as written does not report the name either. |
| Config.MissingFields | src/Cloud.Core.Storage.AzureCosmos/Config/CosmosConfig.cs:20-30 | The errors name exactly the required fields that are null or blank. There are none exactly when every required field is set. |
| Config.MissingFieldsCount | src/Cloud.Core.Storage.AzureCosmos/Config/CosmosConfig.cs:20-30 | There is exactly one error per unset required field. |
| Config.SetFieldRemovesOneError | src/Cloud.Core.Storage.AzureCosmos/Config/CosmosConfig.cs:20-30 | Setting one unset required field to a non-blank value removes exactly one error. |
| Config.AllUnsetCount | src/Cloud.Core.Storage.AzureCosmos/Config/CosmosConfig.cs:20-30 | With nothing set, every required field is an error. |
| Config.MsiErrorCount | src/Cloud.Core.Storage.AzureCosmos/Config/CosmosConfig.cs:48-67 | `MsiConfig` has one error for each unset field among InstanceName, DatabaseName, TenantId and SubscriptionId. |
| Config.PrincipalErrorCount | src/Cloud.Core.Storage.AzureCosmos/Config/CosmosConfig.cs:132-168 | `ServicePrincipleConfig` has one error for each of its six required fields left unset. |
| Config.ConnectionErrorCount | src/Cloud.Core.Storage.AzureCosmos/Config/CosmosConfig.cs:81-90 | `ConnectionConfig` has one error for each unset field among ConnectionString and DatabaseName. |
| Config.MsiValidationSequence | src/Tests/Unit/CosmosConfigUnitTests.cs:15-44 | The error counts are 4, 3, 2, 1, 0 as the fields are set in the tested order. |
| Config.ConnectionValidationSequence | src/Tests/Unit/CosmosConfigUnitTests.cs:49-68 | The error counts are 2, 1, 0 as ConnectionString and then DatabaseName are set. |
| Config.PrincipalValidationSequence | src/Tests/Unit/CosmosConfigUnitTests.cs:73-112 | The error counts are 6 down to 0 as the fields are set in the tested order. |
| Config.FirstStartingWith | src/Cloud.Core.Storage.AzureCosmos/Config/CosmosConfig.cs:112-113 | Finds the first part that starts with the prefix, or none exactly when no part does. |
| Config.InstanceName | src/Cloud.Core.Storage.AzureCosmos/Config/CosmosConfig.cs:96-115 | Null exactly when the string is null, holds no `;`, or no `;`-separated part starts with `AccountEndpoint=https://`. Otherwise the result is the first such part, with the prefix and the public-cloud suffix removed. |
| Config.InstanceNameWithoutSeparator | src/Tests/Unit/CosmosConfigUnitTests.cs:143-161 | A null string and `"AB"` carry no name. |
| Config.InstanceNameWithoutEndpoint | src/Tests/Unit/CosmosConfigUnitTests.cs:143-161 | `"A;B"` carries no name. |
| Config.InstanceNameFromEndpoint | src/Tests/Unit/CosmosConfigUnitTests.cs:143-161 | `"A;AccountEndpoint=https://B;C"` carries `"B"`. |
| Config.InstanceNameSecondPart | src/Cloud.Core.Storage.AzureCosmos/Config/CosmosConfig.cs:106-113 | A later part that starts with the prefix is found when the first does not. |
| Config.AccountConnectionParts | src/Cloud.Core.Storage.AzureCosmos/CosmosStorage.cs:800 | The built connection string splits into its endpoint setting and its key setting. |
| Config.InstanceNameIgnoresKey | src/Cloud.Core.Storage.AzureCosmos/Config/CosmosConfig.cs:96-115 | The name read from a built connection string depends on the endpoint alone. |
| Config.MsiToString | src/Cloud.Core.Storage.AzureCosmos/Config/CosmosConfig.cs:74-77 | The text starts with the labelled tenant and ends with the labelled database. |
| Config.MsiToStringFields | src/Cloud.Core.Storage.AzureCosmos/Config/CosmosConfig.cs:74-77 | When no field holds a comma, splitting the text at commas gives the labelled tenant, subscription, instance name and database, in that order. |
| Config.MsiToStringOmitsFlags | src/Cloud.Core.Storage.AzureCosmos/Config/CosmosConfig.cs:74-77 | Configurations that differ only in CreateDatabaseIfNotExists or CreateTables print the same text. |
| Config.PrincipalToString | src/Cloud.Core.Storage.AzureCosmos/Config/CosmosConfig.cs:176-179 | The text starts with the labelled application id and ends with the labelled database. |
| Config.PrincipalToStringFields | src/Cloud.Core.Storage.AzureCosmos/Config/CosmosConfig.cs:176-179 | When no field holds a comma, splitting the text at commas gives the labelled application id, tenant, subscription, instance name and database, in that order. |
| Config.ConnectionToString | src/Cloud.Core.Storage.AzureCosmos/Config/CosmosConfig.cs:123-126 | The text starts with the labelled instance name derived from the connection string and ends with the labelled database. |
| Config.ConnectionToStringFields | src/Cloud.Core.Storage.AzureCosmos/Config/CosmosConfig.cs:123-126 | When neither holds a comma, splitting the text at commas gives the labelled derived instance name and the labelled database. |
| Config.PrincipalToStringOmitsSecret | src/Cloud.Core.Storage.AzureCosmos/Config/CosmosConfig.cs:176-179 | Configurations that differ only in AppSecret print the same text. |
| Config.ConnectionToStringOmitsKey | src/Cloud.Core.Storage.AzureCosmos/Config/CosmosConfig.cs:123-126 | Connection strings that differ only in the account key print the same text. |
| Client.FromConnection | src/Cloud.Core.Storage.AzureCosmos/CosmosStorage.cs:661-672 | Construction fails exactly when validation reports errors, and throws those errors. On success the instance keeps the configuration's connection string, database and creation flag, takes its name from the connection string, and has no account name, subscription, client or expiry. |
| Client.FromMsi | src/Cloud.Core.Storage.AzureCosmos/CosmosStorage.cs:679-692 | Construction fails exactly when validation reports errors, and throws those errors. On success the instance keeps the configuration's instance name (also as its name), subscription, database and creation flag, authenticates by managed identity, and has no connection string, client or expiry. |
| Client.FromPrincipal | src/Cloud.Core.Storage.AzureCosmos/CosmosStorage.cs:699-712 | Construction fails exactly when validation reports errors, and throws those errors. On success the instance keeps the configuration's instance name (also as its name), subscription, database and creation flag, authenticates with the configuration's tenant and application id, and has no connection string, client or expiry. |
| Client.ConnectionInstanceCannotResolve | src/Cloud.Core.Storage.AzureCosmos/CosmosStorage.cs:661-672 | An instance built from a `ConnectionConfig` keeps no account name, so resolving a connection string for it fails with the wrapped null-key error, whatever the collaborators answer. |
| Client.MsiInstanceUsesConfiguredAccount | src/Cloud.Core.Storage.AzureCosmos/CosmosStorage.cs:679-692 | An instance built from an `MsiConfig` resolves the configured account on first access: when authentication and that account's lookup succeed, the client is built on the account's connection string, cached under the configured name. |
| Client.FindAccount | src/Cloud.Core.Storage.AzureCosmos/CosmosStorage.cs:779 | Returns the first listed account of that name, or none exactly when no account has it. |
| Client.Authenticate | src/Cloud.Core.Storage.AzureCosmos/CosmosStorage.cs:735-763 | A managed identity whose token request returns succeeds exactly when the token is non-empty, and then expires a day after `now`; a token request that throws propagates its exception. A service principal succeeds exactly when the token request returns a result with a non-null access token, and then carries the token's own expiry; a request that throws propagates its exception. With neither configuration kept, it fails. |
| Client.AccountConnection | src/Cloud.Core.Storage.AzureCosmos/CosmosStorage.cs:776-800 | Succeeds exactly when the account list is read, an account of that name exists, and its first match has a primary key. The result is the connection string built from that account's endpoint and key. |
| Client.InsertIfAbsent | src/Cloud.Core.Storage.AzureCosmos/CosmosStorage.cs:803-806 | The key is added only when it is absent; existing entries never change. |
| Client.BuildStorageConnection | src/Cloud.Core.Storage.AzureCosmos/CosmosStorage.cs:722-817 | A cached name answers at once and changes nothing. Any failure clears the expiry and is rethrown wrapped in the method's own exception. A success leaves the returned string cached under the instance name. Earlier cache entries never change, and a null instance name fails. On a cache miss, it succeeds exactly when authentication and the account lookup both succeed. The string is then the account's connection string and the expiry is the token's; otherwise the failing step's exception is wrapped. |
| Client.CacheHitIgnoresEnvironment | src/Cloud.Core.Storage.AzureCosmos/CosmosStorage.cs:726-728 | Once a name is cached, resolution gives the same outcome whatever the collaborators answer, and leaves the cache as it was. |
| Client.ResolveTwice | src/Cloud.Core.Storage.AzureCosmos/CosmosStorage.cs:722-817 | A second resolution after a successful one returns the same string, cache and expiry. |
| Client.MsiResolutionExpiresInADay | src/Cloud.Core.Storage.AzureCosmos/CosmosStorage.cs:739-745 | A successful managed-identity resolution sets the expiry a day ahead and caches the string. |
| Client.InitializeClient | src/Cloud.Core.Storage.AzureCosmos/CosmosStorage.cs:629-654 | On success the new client is installed, built now. It is built on the instance's own connection string when it has one, and otherwise on the string `BuildStorageConnection` resolves, whose expiry and cache it keeps and whose failure it rethrows without a client. A builder fault always fails. Without faults, a resolved string always yields a client. Cache entries never change. |
| Client.GetClient | src/Cloud.Core.Storage.AzureCosmos/CosmosStorage.cs:605-616 | Without the need to rebuild, the getter returns the current client and changes nothing. Otherwise a client it returns was built now. |
| Client.FirstAccessResolves | src/Cloud.Core.Storage.AzureCosmos/CosmosStorage.cs:605-654 | The first access of an instance with no connection string and an uncached name builds its client on the account's connection string, expiring with the token and caching the string, when authentication and the account lookup succeed. When either fails it fails, with no client, no expiry and the cache unchanged. |
| Client.NeedsRebuild | src/Cloud.Core.Storage.AzureCosmos/CosmosStorage.cs:609 | A missing client is always rebuilt. An existing client with a null expiry never is, because the lifted `<=` on a null is false. Otherwise it is rebuilt exactly when the expiry is at or before `now`. |
| Client.NullExpiryNeverRebuilds | src/Cloud.Core.Storage.AzureCosmos/CosmosStorage.cs:609 | An existing client with a null expiry is never rebuilt. |
| Client.ExpiredRebuildsOnEveryAccess | src/Cloud.Core.Storage.AzureCosmos/CosmosStorage.cs:605-634 | Once the expiry has passed on an instance holding a connection string, an access builds a new client and keeps the old expiry, so every later access rebuilds too. |
| Client.ConnectionStorageIgnoresEnvironment | src/Cloud.Core.Storage.AzureCosmos/CosmosStorage.cs:629-634 | An instance built from a connection string never consults the identity providers or the management plane. |
| Client.DatabaseFailureKeepsClient | src/Cloud.Core.Storage.AzureCosmos/CosmosStorage.cs:647-653 | A failing database creation throws but leaves the new client installed, so the next access reuses it. |
| Client.StripEndpointLeavesName | src/Cloud.Core.Storage.AzureCosmos/Config/CosmosConfig.cs:103-113 | Removing the prefix and suffix from `AccountEndpoint=https://<name>.documents.azure.com:443/` leaves the name. |
| Client.EndpointInstanceRoundTrip | src/Cloud.Core.Storage.AzureCosmos/CosmosStorage.cs:797-800 | The name `ConnectionConfig.InstanceName` reads from a resolved connection string is the account's name, for a public-cloud endpoint. |
| Client.FirstAccessUsesAccount | src/Cloud.Core.Storage.AzureCosmos/CosmosStorage.cs:722-809 | A managed-identity instance's first access builds its client on the account's connection string. It expires in a day, caches the string, and the string names the account. |

## Findings

| source | as written | input that shows it | evidently intended | confidence | as-written member | corrected member |
|---|---|---|---|---|---|---|
| src/Cloud.Core.Storage.AzureCosmos/CosmosStorage.cs:314-333 | Every pass of the loop asks for a new query iterator, so every pass reads the query's first page. | Any query whose first page says more results follow, with no cancellation: the observable re-emits page 1 forever and never completes. | One iterator created before the loop, resumed on each pass, so every result is emitted once and the observable completes. | not executed | Paging.AsWrittenRepeatsFirstPage | Paging.ResumedEmitsAllOnce |
| src/Cloud.Core.Storage.AzureCosmos/CosmosStorage.cs:531-548 | `Counter` asks for a new query iterator on every pass, so every pass counts the first page again. | A two-page result whose first page holds `k` results: after `n` passes the count is `n*k`, and the loop does not end. | Count every page once with one iterator and return the number of results. | not executed | Paging.AsWrittenCountGrows | Paging.ResumedCountsAll |
| src/Cloud.Core.Storage.AzureCosmos/CosmosStorage.cs:400-413 | `ListTableNames` reads only the first page of the container listing, so `TableExists` misses tables listed later. | Tables `a` and `b`, listed as the pages `[a]` (more follow) and `[b]`: `TableExists("b")` is false. | Read every page, so `TableExists` is true exactly for the database's tables. | not executed | Tables.AsWrittenSecondPageCounterexample | Tables.TableExistsIffInDatabase |

## Left out

- The Cosmos SDK, the identity providers and the management plane are not modelled. Their answers are parameters: injected faults, an `Environment`, and page oracles.
- Network I/O, retries, throttling options, the connection mode and logging are not modelled.
- Concurrency is not modelled. `Parallel.ForEach` in the batches runs in list order, one of the interleavings the source allows. The order of the `ConcurrentQueue` of failures is taken to be item order.
- The `batchSize` argument of both batch operations is never read by the source, so it has no effect in the model.
- Paging.DrainRuns: cancellation of an in-flight `ReadNextAsync` is not modelled. The source's cancellation token is checked only at the start of each pass. A read that is cancelled while it runs would throw; in the model that is an ordinary read fault.
- Paging.ResumedCountsAll: the count is an unbounded integer. The source's `long` would overflow past 2^63-1, which is not modelled.
- Query.CleanFilter: `ToLowerInvariant` is modelled on ASCII letters only.
- Config.InstanceName: `StartsWith` is modelled as an ordinal prefix test. .NET's `string.StartsWith(string)` compares under the current culture, where ignorable characters such as a soft hyphen can still match.
- Config.MissingFields: `[Required]` treats a value as blank when it is made of white space. Only ASCII white space is recognised.
- A null `selectColumns` list, which makes the source throw `NullReferenceException`, is not modelled.
- The JSON projection of records into `T` is not modelled. A record is its key plus a map of fields.
- `CountItem` is not modelled: it is a plain DTO.
- The dependency-injection registration and the named-instance factory are not modelled.
- The `CreateTables` configuration field is carried but never read by the constructors, so nothing is created from it.
- Database creation in `InitializeClient` is modelled only by whether it throws. The database itself is not modelled.
- The builder's null-client check is not modelled: the builder either returns a client or throws (`buildFault`).
- The SDK's check that an existing container's partition path matches the requested one is not modelled. `CreateTable` on an existing name leaves it unchanged.
- A null primary key, which the source would interpolate as an empty key, is modelled as an empty string key.
- `ListEntities` returning `IEnumerable` through `ToEnumerable()` is the same event sequence as the observable. Completion ends the enumeration, and `OnError` is rethrown by it; that conversion is not modelled separately.
- Batch.UpsertEntities: records are values, so the source's in-place rewrite of `Key` on a shared object is not modelled. If the same object appears twice in a list, the source's second write reads the already rewritten bare id and lands in the no-partition bucket. The model instead rewrites each record from its own key, so the second copy conflicts with a 409.
- Records.UpsertEntity: the store's id is the record's serialized JSON `id`, not the rewritten `Key`. The model takes the two to be the same, as in records whose `Id` is derived from `Key`. Records.UpsertThenGet holds only for such records.
- KeyCodec.ExtractPartitionKey: keys are non-null strings. The `NullReferenceException` that a null `Key` raises is not modelled.
- Tables.ListTableNamesAsWritten: a failing read of the container listing would propagate its exception. It is not modelled; the listing's pages are given.
- Time: `DateTime.Now` and `DateTime.UtcNow` are the same abstract clock, `now`, in seconds.

=== FILE: batch.dfy ===
/** The batch operations `DeleteEntities` and `UpsertEntities`. Each item is
    attempted on its own; a failing item is recorded and the batch carries on;
    once every item has been attempted, the recorded failures are thrown
    together as one `AggregateException`. The `batchSize` argument is never
    read. The source runs the items concurrently; the model runs them in list
    order, which is one of the interleavings the source allows. Before the
    loop a batch asks the lifecycle manager for its client once; when that
    getter throws (`clientFault`), its exception escapes as it is, not in an
    aggregate, and no item is attempted. */
module Batch {
  import opened Wrappers
  import opened Errors
  import opened KeyCodec
  import opened Store
  import Records

  /** The failures recorded by a batch, in item order. */
  function Failures(outcomes: seq<Option<Exception>>): (fs: seq<Exception>)
    ensures |fs| <= |outcomes|
    ensures |fs| == 0 <==> forall i | 0 <= i < |outcomes| :: outcomes[i].None?
  {
    if |outcomes| == 0 then []
    else
      var rest := Failures(outcomes[1..]);
      assert forall i | 1 <= i < |outcomes| :: outcomes[i] == outcomes[1..][i - 1];
      match outcomes[0]
      case None => rest
      case Some(e) => [e] + rest
  }

  /** Appending an item's outcome appends its failure, if any. */
  lemma {:induction false} FailuresSnoc(outcomes: seq<Option<Exception>>, o: Option<Exception>)
    ensures Failures(outcomes + [o]) == Failures(outcomes) + (if o.Some? then [o.value] else [])
  {
    if |outcomes| == 0 {
      assert outcomes + [o] == [o];
      assert Failures([o][1..]) == [];
    } else {
      assert (outcomes + [o])[1..] == outcomes[1..] + [o];
      FailuresSnoc(outcomes[1..], o);
    }
  }

  /** What the batch throws after its loop: nothing when every item
      succeeded, otherwise one aggregate of all the failures. */
  function Thrown(outcomes: seq<Option<Exception>>): (t: Option<Exception>)
    ensures t.Some? <==> exists i | 0 <= i < |outcomes| :: outcomes[i].Some?
    ensures t.Some? ==> t.value.Aggregate? && |t.value.innerExceptions| > 0
  {
    var fs := Failures(outcomes);
    if |fs| == 0 then None else Some(Aggregate(fs))
  }

  /** The store fault injected for the item at `index`, if any. */
  function FaultAt(faults: map<nat, Exception>, index: nat): Option<Exception> {
    if index in faults then Some(faults[index]) else None
  }

  /** The state of a batch after some of its items. */
  datatype Progress = Progress(db: Database, outcomes: seq<Option<Exception>>)

  /** One item of `DeleteEntities`: delete the key as `DeleteEntity` would;
      a failure is recorded and leaves the database as it was. */
  function DeleteStep(p: Progress, table: string, key: string, fault: Option<Exception>): Progress {
    match Records.DeleteEntity(None, p.db, table, key, fault)
    case Success(d) => Progress(d, p.outcomes + [None])
    case Failure(e) => Progress(p.db, p.outcomes + [Some(e)])
  }

  /** Reference semantics of `DeleteEntities` on the first `|keys|` items. */
  function DeleteAll(db: Database, table: string, keys: seq<string>, faults: map<nat, Exception>): (p: Progress)
    ensures |p.outcomes| == |keys|
  {
    if |keys| == 0 then Progress(db, [])
    else DeleteStep(DeleteAll(db, table, keys[..|keys| - 1], faults), table, keys[|keys| - 1], FaultAt(faults, |keys| - 1))
  }

  /** The first `i + 1` deletes are the first `i` followed by item `i`. */
  lemma DeleteAllPrefix(db: Database, table: string, keys: seq<string>, faults: map<nat, Exception>, i: nat)
    requires i < |keys|
    ensures DeleteAll(db, table, keys[..i + 1], faults)
            == DeleteStep(DeleteAll(db, table, keys[..i], faults), table, keys[i], FaultAt(faults, i))
  {
    assert keys[..i + 1][..i] == keys[..i];
  }

  /** Each item's recorded failure: the key error for a malformed key, the
      injected store fault for a well-formed one. */
  ghost predicate KeyErrors(keys: seq<string>, faults: map<nat, Exception>, outcomes: seq<Option<Exception>>)
    requires |outcomes| == |keys|
  {
    && (forall i | 0 <= i < |keys| :: ExtractPartitionKey(keys[i]).Failure? ==> outcomes[i] == Some(MalformedKey))
    && (forall i | 0 <= i < |keys| :: ExtractPartitionKey(keys[i]).Success? && i in faults ==> outcomes[i] == Some(faults[i]))
  }

  /** Every key whose delete succeeded is well formed and absent from the table. */
  ghost predicate DeletedAbsent(db: Database, table: string, keys: seq<string>, outcomes: seq<Option<Exception>>)
    requires |outcomes| == |keys|
  {
    forall i | 0 <= i < |keys| :: outcomes[i].None? ==>
      ExtractPartitionKey(keys[i]).Success? && Lookup(db, table, RefOf(ExtractPartitionKey(keys[i]).value)).None?
  }

  /** `after` differs from `before` in `table` only. */
  ghost predicate OnlyTableChanged(before: Database, after: Database, table: string) {
    && after.Keys == before.Keys
    && forall t, r | t != table :: Lookup(after, t, r) == Lookup(before, t, r)
  }

  /** The records the items of a batch that succeeded point at. */
  ghost function Touched(keys: seq<string>, outcomes: seq<Option<Exception>>): set<ItemRef>
    requires |outcomes| == |keys|
  {
    set i | 0 <= i < |keys| && outcomes[i].None? && ExtractPartitionKey(keys[i]).Success? :: RefOf(ExtractPartitionKey(keys[i]).value)
  }

  /** Every record of `table` outside `touched` reads the same in `after` as in `before`. */
  ghost predicate Untouched(before: Database, after: Database, table: string, touched: set<ItemRef>) {
    forall r | r !in touched :: Lookup(after, table, r) == Lookup(before, table, r)
  }

  /** One more item keeps the records the earlier successful items point at,
      and adds its own when it succeeds. */
  lemma TouchedGrows(keys: seq<string>, outcomes: seq<Option<Exception>>, key: string, o: Option<Exception>)
    requires |outcomes| == |keys|
    ensures Touched(keys, outcomes) <= Touched(keys + [key], outcomes + [o])
    ensures o.None? && ExtractPartitionKey(key).Success? ==>
              RefOf(ExtractPartitionKey(key).value) in Touched(keys + [key], outcomes + [o])
  {
    var ks := keys + [key];
    var os := outcomes + [o];
    forall r | r in Touched(keys, outcomes)
      ensures r in Touched(ks, os)
    {
      var i :| 0 <= i < |keys| && outcomes[i].None? && ExtractPartitionKey(keys[i]).Success? && r == RefOf(ExtractPartitionKey(keys[i]).value);
      assert ks[i] == keys[i] && os[i] == outcomes[i];
    }
    assert ks[|keys|] == key && os[|keys|] == o;
  }

  /** A well-formed key the store did not fault fails only on its own
      account, whatever the other items did: its record was missing, before
      the batch or because an item of the batch that succeeded deleted it,
      and the failure is the store's 404. */
  ghost predicate DeleteFailuresExplained(db: Database, table: string, keys: seq<string>, faults: map<nat, Exception>, outcomes: seq<Option<Exception>>)
    requires |outcomes| == |keys|
  {
    forall i | 0 <= i < |keys| :: DeleteFailureExplained(db, table, keys[i], i in faults, outcomes[i], Touched(keys, outcomes))
  }

  /** One key's share of `DeleteFailuresExplained`, `touched` being the
      records the batch's successful items point at. */
  ghost predicate DeleteFailureExplained(db: Database, table: string, key: string, faulted: bool, outcome: Option<Exception>, touched: set<ItemRef>) {
    !faulted && ExtractPartitionKey(key).Success? && outcome.Some? ==>
      && outcome == Some(NotFoundError)
      && (Lookup(db, table, RefOf(ExtractPartitionKey(key).value)).None? || RefOf(ExtractPartitionKey(key).value) in touched)
  }

  /** What a finished delete batch guarantees about each of its keys and
      about the rest of the database. */
  ghost predicate DeleteOutcomes(db: Database, table: string, keys: seq<string>, faults: map<nat, Exception>, p: Progress) {
    && |p.outcomes| == |keys|
    && KeyErrors(keys, faults, p.outcomes)
    && DeleteFailuresExplained(db, table, keys, faults, p.outcomes)
    && DeletedAbsent(p.db, table, keys, p.outcomes)
    && OnlyTableChanged(db, p.db, table)
    && Untouched(db, p.db, table, Touched(keys, p.outcomes))
  }

  /** One more item keeps the per-item errors of the items before it and
      records its own. */
  lemma DeleteStepErrors(keys: seq<string>, faults: map<nat, Exception>, p: Progress, table: string, key: string)
    requires |p.outcomes| == |keys| && KeyErrors(keys, faults, p.outcomes)
    ensures var q := DeleteStep(p, table, key, FaultAt(faults, |keys|));
            |q.outcomes| == |keys| + 1 && KeyErrors(keys + [key], faults, q.outcomes)
  {
    var q := DeleteStep(p, table, key, FaultAt(faults, |keys|));
    var ks := keys + [key];
    forall i | 0 <= i < |keys|
      ensures ks[i] == keys[i] && q.outcomes[i] == p.outcomes[i]
    {
    }
    assert ks[|keys|] == key;
  }

  /** Deleting one more record keeps every earlier deleted key deleted. */
  lemma DeletedStayDeleted(before: Database, after: Database, table: string, gone: ItemRef, keys: seq<string>, outcomes: seq<Option<Exception>>)
    requires |outcomes| == |keys|
    requires forall t, r | (t, r) != (table, gone) :: Lookup(after, t, r) == Lookup(before, t, r)
    requires Lookup(after, table, gone).None?
    requires DeletedAbsent(before, table, keys, outcomes)
    ensures DeletedAbsent(after, table, keys, outcomes)
  {
    forall i | 0 <= i < |keys| && outcomes[i].None?
      ensures ExtractPartitionKey(keys[i]).Success? && Lookup(after, table, RefOf(ExtractPartitionKey(keys[i]).value)).None?
    {
      var r := RefOf(ExtractPartitionKey(keys[i]).value);
      if r != gone {
        assert Lookup(after, table, r) == Lookup(before, table, r);
      }
    }
  }

  /** One more item keeps earlier deleted keys deleted, and deletes its own
      key when it succeeds. */
  lemma DeleteStepAbsent(keys: seq<string>, faults: map<nat, Exception>, p: Progress, table: string, key: string)
    requires |p.outcomes| == |keys| && DeletedAbsent(p.db, table, keys, p.outcomes)
    ensures var q := DeleteStep(p, table, key, FaultAt(faults, |keys|));
            |q.outcomes| == |keys| + 1 && DeletedAbsent(q.db, table, keys + [key], q.outcomes)
  {
    var fault := FaultAt(faults, |keys|);
    var q := DeleteStep(p, table, key, fault);
    var ks := keys + [key];
    var res := Records.DeleteEntity(None, p.db, table, key, fault);
    if res.Success? {
      DeletedStayDeleted(p.db, res.value, table, RefOf(ExtractPartitionKey(key).value), keys, p.outcomes);
    }
    assert forall i | 0 <= i < |keys| :: ks[i] == keys[i] && q.outcomes[i] == p.outcomes[i];
  }

  /** One more item changes, in the table, at most the record its key points
      at, and only when its delete succeeds. */
  lemma DeleteStepUntouched(db: Database, keys: seq<string>, faults: map<nat, Exception>, p: Progress, table: string, key: string)
    requires |p.outcomes| == |keys| && Untouched(db, p.db, table, Touched(keys, p.outcomes))
    ensures var q := DeleteStep(p, table, key, FaultAt(faults, |keys|));
            |q.outcomes| == |keys| + 1 && Untouched(db, q.db, table, Touched(keys + [key], q.outcomes))
  {
    var fault := FaultAt(faults, |keys|);
    var res := Records.DeleteEntity(None, p.db, table, key, fault);
    var q := DeleteStep(p, table, key, fault);
    var o := if res.Success? then None else Some(res.error);
    assert q.outcomes == p.outcomes + [o];
    TouchedGrows(keys, p.outcomes, key, o);
    if res.Success? {
      var gone := RefOf(ExtractPartitionKey(key).value);
      forall r | r !in Touched(keys + [key], q.outcomes)
        ensures Lookup(q.db, table, r) == Lookup(db, table, r)
      {
        assert r != gone && r !in Touched(keys, p.outcomes);
      }
    }
  }

  /** A well-formed key that the store does not fault fails to delete only
      because its record is gone: it was missing before the batch, or an
      earlier item of the batch deleted it. */
  lemma DeleteOwnFailure(db: Database, keys: seq<string>, p: Progress, table: string, key: string)
    requires |p.outcomes| == |keys| && Untouched(db, p.db, table, Touched(keys, p.outcomes))
    requires ExtractPartitionKey(key).Success? && Records.DeleteEntity(None, p.db, table, key, None).Failure?
    ensures Records.DeleteEntity(None, p.db, table, key, None).error == NotFoundError
    ensures var r := RefOf(ExtractPartitionKey(key).value);
            Lookup(db, table, r).None? || r in Touched(keys, p.outcomes)
  {
    var r := RefOf(ExtractPartitionKey(key).value);
    if r !in Touched(keys, p.outcomes) {
      assert Lookup(p.db, table, r) == Lookup(db, table, r);
    }
  }

  /** One more item keeps the earlier failures explained, and a failure of
      its own, unfaulted, means its record was already gone. */
  lemma DeleteStepExplained(db: Database, keys: seq<string>, faults: map<nat, Exception>, p: Progress, table: string, key: string)
    requires |p.outcomes| == |keys| && DeleteFailuresExplained(db, table, keys, faults, p.outcomes)
    requires Untouched(db, p.db, table, Touched(keys, p.outcomes))
    ensures var q := DeleteStep(p, table, key, FaultAt(faults, |keys|));
            |q.outcomes| == |keys| + 1 && DeleteFailuresExplained(db, table, keys + [key], faults, q.outcomes)
  {
    var fault := FaultAt(faults, |keys|);
    var res := Records.DeleteEntity(None, p.db, table, key, fault);
    var q := DeleteStep(p, table, key, fault);
    var o := if res.Success? then None else Some(res.error);
    var ks := keys + [key];
    assert q.outcomes == p.outcomes + [o];
    TouchedGrows(keys, p.outcomes, key, o);
    forall i | 0 <= i < |ks|
      ensures DeleteFailureExplained(db, table, ks[i], i in faults, q.outcomes[i], Touched(ks, q.outcomes))
    {
      if i < |keys| {
        assert ks[i] == keys[i] && q.outcomes[i] == p.outcomes[i];
        assert DeleteFailureExplained(db, table, keys[i], i in faults, p.outcomes[i], Touched(keys, p.outcomes));
      } else if i !in faults && ExtractPartitionKey(key).Success? && o.Some? {
        assert ks[i] == key && fault.None?;
        DeleteOwnFailure(db, keys, p, table, key);
      }
    }
  }

  /** Every delete batch meets the delete guarantees. */
  lemma {:induction false} DeleteAllOutcomes(db: Database, table: string, keys: seq<string>, faults: map<nat, Exception>)
    ensures DeleteOutcomes(db, table, keys, faults, DeleteAll(db, table, keys, faults))
  {
    if |keys| > 0 {
      var init := keys[..|keys| - 1];
      var last := keys[|keys| - 1];
      DeleteAllOutcomes(db, table, init, faults);
      var p := DeleteAll(db, table, init, faults);
      DeleteStepErrors(init, faults, p, table, last);
      DeleteStepExplained(db, init, faults, p, table, last);
      DeleteStepAbsent(init, faults, p, table, last);
      DeleteStepUntouched(db, init, faults, p, table, last);
      assert init + [last] == keys;
    }
  }

  /** `DeleteEntities`: when the client getter throws, that exception and
      nothing else. Otherwise every key is attempted; the call throws the
      aggregate of the failures, if there were any. A malformed key fails
      with the key error; a well-formed key fails only with its store fault
      or because its record is missing; a key whose delete succeeded is gone
      from the table at the end; no other record of the table and no other
      table changes. */
  method DeleteEntities(clientFault: Option<Exception>, db: Database, table: string, keys: seq<string>, faults: map<nat, Exception>, batchSize: int)
    returns (db': Database, outcomes: seq<Option<Exception>>, thrown: Option<Exception>)
    ensures clientFault.Some? ==> db' == db && outcomes == [] && thrown == clientFault
    ensures clientFault.None? ==> Progress(db', outcomes) == DeleteAll(db, table, keys, faults)
    ensures clientFault.None? ==> thrown == Thrown(outcomes)
    ensures clientFault.None? ==> DeleteOutcomes(db, table, keys, faults, Progress(db', outcomes))
  {
    if clientFault.Some? {
      return db, [], clientFault;
    }
    db' := db;
    outcomes := [];
    var i := 0;
    while i < |keys|
      invariant 0 <= i <= |keys|
      invariant Progress(db', outcomes) == DeleteAll(db, table, keys[..i], faults)
    {
      DeleteAllPrefix(db, table, keys, faults, i);
      match Records.DeleteEntity(None, db', table, keys[i], FaultAt(faults, i)) {
        case Success(d) =>
          db' := d;
          outcomes := outcomes + [None];
        case Failure(e) =>
          outcomes := outcomes + [Some(e)];
      }
      i := i + 1;
    }
    assert keys[..i] == keys;
    DeleteAllOutcomes(db, table, keys, faults);
    thrown := Thrown(outcomes);
  }

  /** The state of an upsert batch after some of its items, with the caller's
      records as the batch has rewritten them (`d.Key = modifiedKey`). */
  datatype UpsertProgress = UpsertProgress(db: Database, items: seq<Entity>, outcomes: seq<Option<Exception>>)

  /** One item of `UpsertEntities`: write it as `UpsertEntity` would. */
  function UpsertStep(p: UpsertProgress, table: string, data: Entity, fault: Option<Exception>): UpsertProgress {
    var w := Records.UpsertEntity(None, p.db, table, data, fault);
    match w.result
    case Success(d) => UpsertProgress(d, p.items + [w.item], p.outcomes + [None])
    case Failure(e) => UpsertProgress(p.db, p.items + [w.item], p.outcomes + [Some(e)])
  }

  /** One write appends the rewritten record and its outcome, and replaces
      the database only when it succeeds. */
  lemma UpsertStepShape(p: UpsertProgress, table: string, d: Entity, fault: Option<Exception>)
    ensures var q := UpsertStep(p, table, d, fault);
            var w := Records.UpsertEntity(None, p.db, table, d, fault);
            && q.items == p.items + [w.item]
            && q.outcomes == p.outcomes + [if w.result.Success? then None else Some(w.result.error)]
            && q.db == (if w.result.Success? then w.result.value else p.db)
  {
  }

  /** Reference semantics of `UpsertEntities` on the first `|data|` records. */
  function UpsertAll(db: Database, table: string, data: seq<Entity>, faults: map<nat, Exception>): (p: UpsertProgress)
    ensures |p.items| == |data| && |p.outcomes| == |data|
  {
    if |data| == 0 then UpsertProgress(db, [], [])
    else UpsertStep(UpsertAll(db, table, data[..|data| - 1], faults), table, data[|data| - 1], FaultAt(faults, |data| - 1))
  }

  /** The first `i + 1` writes are the first `i` followed by item `i`. */
  lemma UpsertAllPrefix(db: Database, table: string, data: seq<Entity>, faults: map<nat, Exception>, i: nat)
    requires i < |data|
    ensures UpsertAll(db, table, data[..i + 1], faults)
            == UpsertStep(UpsertAll(db, table, data[..i], faults), table, data[i], FaultAt(faults, i))
  {
    assert data[..i + 1][..i] == data[..i];
  }

  /** A record as the batch rewrote it, and its injected error: a malformed
      key fails with the key error and keeps the record as given; a
      well-formed one has its key replaced by the bare id, and fails with
      its store fault when it has one. */
  ghost predicate ItemRewritten(d: Entity, fault: Option<Exception>, item: Entity, outcome: Option<Exception>) {
    match ExtractPartitionKey(d.key)
    case Failure(_) => outcome == Some(MalformedKey) && item == d
    case Success(k) => item == Entity(k.id, d.fields) && (fault.Some? ==> outcome == fault)
  }

  /** Every record of a batch as the batch rewrote it, with its injected error. */
  ghost predicate UpsertItems(data: seq<Entity>, faults: map<nat, Exception>, items: seq<Entity>, outcomes: seq<Option<Exception>>)
    requires |items| == |data| && |outcomes| == |data|
  {
    forall i | 0 <= i < |data| :: ItemRewritten(data[i], FaultAt(faults, i), items[i], outcomes[i])
  }

  /** Every record whose write succeeded is stored, as rewritten, under its
      id and partition. */
  ghost predicate UpsertWritten(db: Database, table: string, data: seq<Entity>, items: seq<Entity>, outcomes: seq<Option<Exception>>)
    requires |items| == |data| && |outcomes| == |data|
  {
    forall i | 0 <= i < |data| :: outcomes[i].None? ==>
      ExtractPartitionKey(data[i].key).Success? && Lookup(db, table, RefOf(ExtractPartitionKey(data[i].key).value)) == Some(items[i])
  }

  /** The keys of a list of records, as the caller gave them. */
  function KeysOf(data: seq<Entity>): (keys: seq<string>)
    ensures |keys| == |data| && forall i | 0 <= i < |data| :: keys[i] == data[i].key
  {
    seq(|data|, i requires 0 <= i < |data| => data[i].key)
  }

  /** A record with a well-formed key the store did not fault fails only on
      its own account, whatever the other items did: its table is missing
      (the store's 404), or its reference was taken, before the batch or by
      a record of the batch that succeeded (the store's 409). */
  ghost predicate UpsertFailuresExplained(db: Database, table: string, data: seq<Entity>, faults: map<nat, Exception>, outcomes: seq<Option<Exception>>)
    requires |outcomes| == |data|
  {
    forall i | 0 <= i < |data| :: UpsertFailureExplained(db, table, data[i], i in faults, outcomes[i], Touched(KeysOf(data), outcomes))
  }

  /** One record's share of `UpsertFailuresExplained`, `touched` being the
      records the batch's successful items point at. */
  ghost predicate UpsertFailureExplained(db: Database, table: string, d: Entity, faulted: bool, outcome: Option<Exception>, touched: set<ItemRef>) {
    !faulted && ExtractPartitionKey(d.key).Success? && outcome.Some? ==>
      if table in db then
        && outcome == Some(ConflictError)
        && (Lookup(db, table, RefOf(ExtractPartitionKey(d.key).value)).Some? || RefOf(ExtractPartitionKey(d.key).value) in touched)
      else outcome == Some(NotFoundError)
  }

  /** What a finished upsert batch guarantees about each record and about
      the rest of the database. */
  ghost predicate UpsertOutcomes(db: Database, table: string, data: seq<Entity>, faults: map<nat, Exception>, p: UpsertProgress) {
    && |p.items| == |data| && |p.outcomes| == |data|
    && UpsertItems(data, faults, p.items, p.outcomes)
    && UpsertFailuresExplained(db, table, data, faults, p.outcomes)
    && UpsertWritten(p.db, table, data, p.items, p.outcomes)
    && OnlyTableChanged(db, p.db, table)
    && Untouched(db, p.db, table, Touched(KeysOf(data), p.outcomes))
  }

  /** One more record keeps the rewrites and key errors of the records
      before it and records its own. */
  lemma UpsertStepItems(data: seq<Entity>, faults: map<nat, Exception>, p: UpsertProgress, table: string, d: Entity)
    requires |p.items| == |data| && |p.outcomes| == |data| && UpsertItems(data, faults, p.items, p.outcomes)
    ensures var q := UpsertStep(p, table, d, FaultAt(faults, |data|));
            |q.items| == |data| + 1 && |q.outcomes| == |data| + 1 && UpsertItems(data + [d], faults, q.items, q.outcomes)
  {
    var fault := FaultAt(faults, |data|);
    var q := UpsertStep(p, table, d, fault);
    var ds := data + [d];
    UpsertStepShape(p, table, d, fault);
    forall i | 0 <= i < |data|
      ensures ItemRewritten(ds[i], FaultAt(faults, i), q.items[i], q.outcomes[i])
    {
      assert ds[i] == data[i] && q.outcomes[i] == p.outcomes[i] && q.items[i] == p.items[i];
    }
    assert ds[|data|] == d;
  }

  /** Creating one more record keeps every earlier written record in place. */
  lemma WrittenStayWritten(before: Database, after: Database, table: string, added: ItemRef,
                           data: seq<Entity>, items: seq<Entity>, outcomes: seq<Option<Exception>>)
    requires |items| == |data| && |outcomes| == |data|
    requires Lookup(before, table, added).None?
    requires forall t, r | (t, r) != (table, added) :: Lookup(after, t, r) == Lookup(before, t, r)
    requires UpsertWritten(before, table, data, items, outcomes)
    ensures UpsertWritten(after, table, data, items, outcomes)
  {
    forall i | 0 <= i < |data| && outcomes[i].None?
      ensures Lookup(after, table, RefOf(ExtractPartitionKey(data[i].key).value)) == Some(items[i])
    {
      var r := RefOf(ExtractPartitionKey(data[i].key).value);
      assert r != added;
      assert Lookup(after, table, r) == Lookup(before, table, r);
    }
  }

  /** One more record keeps the earlier written records in place (a create
      never replaces) and stores itself when its write succeeds. */
  lemma UpsertStepWritten(data: seq<Entity>, faults: map<nat, Exception>, p: UpsertProgress, table: string, d: Entity)
    requires |p.items| == |data| && |p.outcomes| == |data| && UpsertWritten(p.db, table, data, p.items, p.outcomes)
    ensures var q := UpsertStep(p, table, d, FaultAt(faults, |data|));
            |q.items| == |data| + 1 && |q.outcomes| == |data| + 1 && UpsertWritten(q.db, table, data + [d], q.items, q.outcomes)
  {
    var fault := FaultAt(faults, |data|);
    var q := UpsertStep(p, table, d, fault);
    var ds := data + [d];
    var w := Records.UpsertEntity(None, p.db, table, d, fault);
    UpsertStepShape(p, table, d, fault);
    if w.result.Success? {
      WrittenStayWritten(p.db, w.result.value, table, RefOf(ExtractPartitionKey(d.key).value), data, p.items, p.outcomes);
    }
    assert forall i | 0 <= i < |data| :: ds[i] == data[i] && q.outcomes[i] == p.outcomes[i] && q.items[i] == p.items[i];
  }

  /** One more record changes nothing outside the table. */
  lemma UpsertStepFrame(db: Database, p: UpsertProgress, table: string, d: Entity, fault: Option<Exception>)
    requires OnlyTableChanged(db, p.db, table)
    ensures OnlyTableChanged(db, UpsertStep(p, table, d, fault).db, table)
  {
  }

  /** One more record changes, in the table, at most the record its key
      points at, and only when its write succeeds. */
  lemma UpsertStepUntouched(db: Database, data: seq<Entity>, faults: map<nat, Exception>, p: UpsertProgress, table: string, d: Entity)
    requires |p.outcomes| == |data| && Untouched(db, p.db, table, Touched(KeysOf(data), p.outcomes))
    ensures var q := UpsertStep(p, table, d, FaultAt(faults, |data|));
            |q.outcomes| == |data| + 1 && Untouched(db, q.db, table, Touched(KeysOf(data + [d]), q.outcomes))
  {
    var fault := FaultAt(faults, |data|);
    var w := Records.UpsertEntity(None, p.db, table, d, fault);
    var q := UpsertStep(p, table, d, fault);
    var o := if w.result.Success? then None else Some(w.result.error);
    UpsertStepShape(p, table, d, fault);
    assert KeysOf(data + [d]) == KeysOf(data) + [d.key];
    TouchedGrows(KeysOf(data), p.outcomes, d.key, o);
    if w.result.Success? {
      var added := RefOf(ExtractPartitionKey(d.key).value);
      forall r | r !in Touched(KeysOf(data + [d]), q.outcomes)
        ensures Lookup(q.db, table, r) == Lookup(db, table, r)
      {
        assert r != added && r !in Touched(KeysOf(data), p.outcomes);
      }
    }
  }

  /** One more record keeps the earlier failures explained, and a failure of
      its own, unfaulted, means its table is missing or its reference was
      already taken. */
  lemma UpsertStepExplained(db: Database, data: seq<Entity>, faults: map<nat, Exception>, p: UpsertProgress, table: string, d: Entity)
    requires |p.outcomes| == |data| && UpsertFailuresExplained(db, table, data, faults, p.outcomes)
    requires OnlyTableChanged(db, p.db, table) && Untouched(db, p.db, table, Touched(KeysOf(data), p.outcomes))
    ensures var q := UpsertStep(p, table, d, FaultAt(faults, |data|));
            |q.outcomes| == |data| + 1 && UpsertFailuresExplained(db, table, data + [d], faults, q.outcomes)
  {
    var fault := FaultAt(faults, |data|);
    var w := Records.UpsertEntity(None, p.db, table, d, fault);
    var q := UpsertStep(p, table, d, fault);
    var o := if w.result.Success? then None else Some(w.result.error);
    var ds := data + [d];
    UpsertStepShape(p, table, d, fault);
    assert KeysOf(ds) == KeysOf(data) + [d.key];
    TouchedGrows(KeysOf(data), p.outcomes, d.key, o);
    forall i | 0 <= i < |ds|
      ensures UpsertFailureExplained(db, table, ds[i], i in faults, q.outcomes[i], Touched(KeysOf(ds), q.outcomes))
    {
      if i < |data| {
        assert ds[i] == data[i] && q.outcomes[i] == p.outcomes[i];
        assert UpsertFailureExplained(db, table, data[i], i in faults, p.outcomes[i], Touched(KeysOf(data), p.outcomes));
      } else if i !in faults && ExtractPartitionKey(d.key).Success? && o.Some? {
        assert ds[i] == d;
        var r := RefOf(ExtractPartitionKey(d.key).value);
        if table in db && r !in Touched(KeysOf(data), p.outcomes) {
          assert Lookup(p.db, table, r) == Lookup(db, table, r);
        }
      }
    }
  }

  /** One more record keeps the upsert guarantees for the records before it
      and establishes them for itself. */
  lemma UpsertStepKeeps(db: Database, table: string, data: seq<Entity>, faults: map<nat, Exception>, p: UpsertProgress, d: Entity)
    requires UpsertOutcomes(db, table, data, faults, p)
    ensures UpsertOutcomes(db, table, data + [d], faults, UpsertStep(p, table, d, FaultAt(faults, |data|)))
  {
    UpsertStepItems(data, faults, p, table, d);
    UpsertStepExplained(db, data, faults, p, table, d);
    UpsertStepWritten(data, faults, p, table, d);
    UpsertStepFrame(db, p, table, d, FaultAt(faults, |data|));
    UpsertStepUntouched(db, data, faults, p, table, d);
  }

  /** Every upsert batch meets the upsert guarantees. */
  lemma {:induction false} UpsertAllOutcomes(db: Database, table: string, data: seq<Entity>, faults: map<nat, Exception>)
    ensures UpsertOutcomes(db, table, data, faults, UpsertAll(db, table, data, faults))
  {
    if |data| > 0 {
      var init := data[..|data| - 1];
      UpsertAllOutcomes(db, table, init, faults);
      UpsertStepKeeps(db, table, init, faults, UpsertAll(db, table, init, faults), data[|data| - 1]);
      assert init + [data[|data| - 1]] == data;
    }
  }

  /** `UpsertEntities`: when the client getter throws, that exception and
      nothing else. Otherwise every record is attempted; the call throws the
      aggregate of the failures, if there were any. A record with a
      well-formed key fails only with its store fault, a missing table, or a
      409 on a reference already taken. A record written by the batch is
      still there, unchanged, at the end (a later record of the same batch
      with the same id and partition fails rather than replacing it, see
      `UpsertDuplicateConflicts`). No other record of the table and no other
      table changes. */
  method UpsertEntities(clientFault: Option<Exception>, db: Database, table: string, data: seq<Entity>, faults: map<nat, Exception>, batchSize: int)
    returns (db': Database, items: seq<Entity>, outcomes: seq<Option<Exception>>, thrown: Option<Exception>)
    ensures clientFault.Some? ==> db' == db && items == data && outcomes == [] && thrown == clientFault
    ensures clientFault.None? ==> UpsertProgress(db', items, outcomes) == UpsertAll(db, table, data, faults)
    ensures clientFault.None? ==> thrown == Thrown(outcomes)
    ensures clientFault.None? ==> UpsertOutcomes(db, table, data, faults, UpsertProgress(db', items, outcomes))
  {
    if clientFault.Some? {
      return db, data, [], clientFault;
    }
    var p := UpsertProgress(db, [], []);
    var i := 0;
    while i < |data|
      invariant 0 <= i <= |data|
      invariant p == UpsertAll(db, table, data[..i], faults)
    {
      UpsertAllPrefix(db, table, data, faults, i);
      var w := Records.UpsertEntity(None, p.db, table, data[i], FaultAt(faults, i));
      match w.result {
        case Success(d) =>
          p := UpsertProgress(d, p.items + [w.item], p.outcomes + [None]);
        case Failure(e) =>
          p := UpsertProgress(p.db, p.items + [w.item], p.outcomes + [Some(e)]);
      }
      i := i + 1;
    }
    db', items, outcomes := p.db, p.items, p.outcomes;
    assert data[..i] == data;
    UpsertAllOutcomes(db, table, data, faults);
    thrown := Thrown(outcomes);
  }

  /** The aggregate a batch throws lists exactly its failures, in item order:
      one more failing item adds exactly its exception at the end, the first
      one giving an aggregate of that exception alone; one more item that
      succeeds changes nothing. */
  lemma ThrownCollectsFailures(outcomes: seq<Option<Exception>>, e: Exception)
    ensures Thrown(outcomes + [Some(e)]) == Some(Aggregate(Failures(outcomes) + [e]))
    ensures Thrown(outcomes).None? ==> Thrown(outcomes + [Some(e)]) == Some(Aggregate([e]))
    ensures Thrown(outcomes).Some? ==> Thrown(outcomes + [Some(e)]) == Some(Aggregate(Thrown(outcomes).value.innerExceptions + [e]))
    ensures Thrown(outcomes + [None]) == Thrown(outcomes)
  {
    FailuresSnoc(outcomes, Some(e));
    FailuresSnoc(outcomes, None);
    assert Failures(outcomes) + [] == Failures(outcomes);
    if Thrown(outcomes).None? {
      assert Failures(outcomes) == [] && [] + [e] == [e];
    }
  }

  /** The records the well-formed keys of a list point at, leaving out the
      items the store faults. */
  ghost function Targets(keys: seq<string>, faults: map<nat, Exception>): set<ItemRef> {
    set i | 0 <= i < |keys| && i !in faults && ExtractPartitionKey(keys[i]).Success? :: RefOf(ExtractPartitionKey(keys[i]).value)
  }

  /** The keys all decode, point at records present in the table, and point
      at pairwise different records. */
  ghost predicate DistinctPresent(db: Database, table: string, keys: seq<string>) {
    && (forall i | 0 <= i < |keys| :: ExtractPartitionKey(keys[i]).Success?)
    && (forall i | 0 <= i < |keys| :: Lookup(db, table, RefOf(ExtractPartitionKey(keys[i]).value)).Some?)
    && (forall i, j | 0 <= i < j < |keys| :: RefOf(ExtractPartitionKey(keys[i]).value) != RefOf(ExtractPartitionKey(keys[j]).value))
  }

  /** The targets of a list are those of all but its last key plus the last
      key's, unless the store faults it. */
  lemma TargetsSnoc(keys: seq<string>, faults: map<nat, Exception>)
    requires |keys| > 0 && ExtractPartitionKey(keys[|keys| - 1]).Success?
    ensures Targets(keys, faults) == Targets(keys[..|keys| - 1], faults)
              + (if |keys| - 1 in faults then {} else {RefOf(ExtractPartitionKey(keys[|keys| - 1]).value)})
  {
    var n := |keys| - 1;
    var init := keys[..n];
    var last := RefOf(ExtractPartitionKey(keys[n]).value);
    forall r | r in Targets(keys, faults)
      ensures r in Targets(init, faults) || (n !in faults && r == last)
    {
      var i :| 0 <= i < |keys| && i !in faults && ExtractPartitionKey(keys[i]).Success? && r == RefOf(ExtractPartitionKey(keys[i]).value);
      if i < n {
        assert init[i] == keys[i];
      }
    }
    forall r | r in Targets(init, faults)
      ensures r in Targets(keys, faults)
    {
      var i :| 0 <= i < |init| && i !in faults && ExtractPartitionKey(init[i]).Success? && r == RefOf(ExtractPartitionKey(init[i]).value);
      assert init[i] == keys[i];
    }
    if n !in faults {
      assert last in Targets(keys, faults);
    }
  }

  /** The keys before the last of such keys are such keys too. */
  lemma DistinctPresentPrefix(db: Database, table: string, keys: seq<string>)
    requires DistinctPresent(db, table, keys) && |keys| > 0
    ensures DistinctPresent(db, table, keys[..|keys| - 1])
  {
    assert forall i | 0 <= i < |keys| - 1 :: keys[..|keys| - 1][i] == keys[i];
  }

  /** Deleting a present record fails exactly when the store faults it, and
      removes that record and nothing else of the table when it succeeds. */
  lemma DeletePresentStep(p: Progress, table: string, key: string, fault: Option<Exception>)
    requires ExtractPartitionKey(key).Success? && Lookup(p.db, table, RefOf(ExtractPartitionKey(key).value)).Some?
    ensures var q := DeleteStep(p, table, key, fault);
            && q.outcomes == p.outcomes + [fault]
            && forall r :: Lookup(q.db, table, r)
                 == if fault.None? && r == RefOf(ExtractPartitionKey(key).value) then None else Lookup(p.db, table, r)
  {
  }

  /** Removing one more record from a table that already lacks the records
      of `before`: it lacks those of `before` and that record. */
  lemma RemovedOneMore(db: Database, prev: Database, after: Database, table: string, last: ItemRef,
                       removed: bool, before: set<ItemRef>, targets: set<ItemRef>)
    requires forall r :: Lookup(prev, table, r) == if r in before then None else Lookup(db, table, r)
    requires forall r :: Lookup(after, table, r) == if removed && r == last then None else Lookup(prev, table, r)
    requires targets == before + (if removed then {last} else {})
    ensures forall r :: Lookup(after, table, r) == if r in targets then None else Lookup(db, table, r)
  {
  }

  /** Deleting a batch of keys that are all present, well formed and
      distinct: each item fails exactly when the store faults it, with that
      fault, and the batch removes exactly the records of the other keys,
      whichever items fail. Without faults it throws nothing. */
  lemma {:induction false} DeleteAllPresent(db: Database, table: string, keys: seq<string>, faults: map<nat, Exception>)
    requires DistinctPresent(db, table, keys)
    ensures var p := DeleteAll(db, table, keys, faults);
            && (forall i | 0 <= i < |keys| :: p.outcomes[i] == FaultAt(faults, i))
            && forall r :: Lookup(p.db, table, r) == if r in Targets(keys, faults) then None else Lookup(db, table, r)
  {
    if |keys| > 0 {
      var n := |keys| - 1;
      var init := keys[..n];
      var last := RefOf(ExtractPartitionKey(keys[n]).value);
      DistinctPresentPrefix(db, table, keys);
      DeleteAllPresent(db, table, init, faults);
      assert last !in Targets(init, faults) by {
        assert forall i | 0 <= i < |init| :: init[i] == keys[i];
      }
      var prev := DeleteAll(db, table, init, faults);
      var p := DeleteAll(db, table, keys, faults);
      assert Lookup(prev.db, table, last).Some?;
      assert p.outcomes == prev.outcomes + [FaultAt(faults, n)]
             && forall r :: Lookup(p.db, table, r) == if FaultAt(faults, n).None? && r == last then None else Lookup(prev.db, table, r)
      by {
        DeletePresentStep(prev, table, keys[n], FaultAt(faults, n));
      }
      assert forall i | 0 <= i < |keys| :: p.outcomes[i] == FaultAt(faults, i) by {
        forall i | 0 <= i < n
          ensures p.outcomes[i] == FaultAt(faults, i)
        {
          assert p.outcomes[i] == prev.outcomes[i];
        }
      }
      TargetsSnoc(keys, faults);
      RemovedOneMore(db, prev.db, p.db, table, last, FaultAt(faults, n).None?, Targets(init, faults), Targets(keys, faults));
    }
  }

  /** The table exists, and the records all have well-formed keys pointing
      at pairwise different records, none stored in the table yet. */
  ghost predicate DistinctFresh(db: Database, table: string, data: seq<Entity>) {
    && table in db
    && (forall i | 0 <= i < |data| :: ExtractPartitionKey(data[i].key).Success?)
    && (forall i | 0 <= i < |data| :: Lookup(db, table, RefOf(ExtractPartitionKey(data[i].key).value)).None?)
    && (forall i, j | 0 <= i < j < |data| :: RefOf(ExtractPartitionKey(data[i].key).value) != RefOf(ExtractPartitionKey(data[j].key).value))
  }

  /** A record whose reference is free in an existing table fails exactly
      when the store faults it, with that fault. */
  lemma UpsertFreshStep(p: UpsertProgress, table: string, d: Entity, fault: Option<Exception>)
    requires ExtractPartitionKey(d.key).Success? && table in p.db
    requires Lookup(p.db, table, RefOf(ExtractPartitionKey(d.key).value)).None?
    ensures UpsertStep(p, table, d, fault).outcomes == p.outcomes + [fault]
  {
    UpsertStepShape(p, table, d, fault);
  }

  /** When the last of such records has its turn, its reference is still
      free in the table. */
  lemma FreshAtTurn(db: Database, table: string, data: seq<Entity>, faults: map<nat, Exception>)
    requires DistinctFresh(db, table, data) && |data| > 0
    ensures var prev := UpsertAll(db, table, data[..|data| - 1], faults);
            && table in prev.db
            && Lookup(prev.db, table, RefOf(ExtractPartitionKey(data[|data| - 1].key).value)).None?
  {
    var n := |data| - 1;
    var init := data[..n];
    var r := RefOf(ExtractPartitionKey(data[n].key).value);
    var prev := UpsertAll(db, table, init, faults);
    UpsertAllOutcomes(db, table, init, faults);
    forall j | 0 <= j < |init| && ExtractPartitionKey(KeysOf(init)[j]).Success?
      ensures RefOf(ExtractPartitionKey(KeysOf(init)[j]).value) != r
    {
      assert KeysOf(init)[j] == data[j].key;
    }
    assert r !in Touched(KeysOf(init), prev.outcomes);
  }

  /** The records before the last of such records are such records too. */
  lemma DistinctFreshPrefix(db: Database, table: string, data: seq<Entity>)
    requires DistinctFresh(db, table, data) && |data| > 0
    ensures DistinctFresh(db, table, data[..|data| - 1])
  {
    assert forall i | 0 <= i < |data| - 1 :: data[..|data| - 1][i] == data[i];
  }

  /** The last of such records fails exactly when the store faults it. */
  lemma UpsertFreshSnoc(db: Database, table: string, data: seq<Entity>, faults: map<nat, Exception>)
    requires DistinctFresh(db, table, data) && |data| > 0
    ensures UpsertAll(db, table, data, faults).outcomes
              == UpsertAll(db, table, data[..|data| - 1], faults).outcomes + [FaultAt(faults, |data| - 1)]
  {
    var n := |data| - 1;
    FreshAtTurn(db, table, data, faults);
    UpsertFreshStep(UpsertAll(db, table, data[..n], faults), table, data[n], FaultAt(faults, n));
  }

  /** Writing such records, each fails exactly when the store faults it,
      with that fault. */
  lemma {:induction false} UpsertFreshOutcomes(db: Database, table: string, data: seq<Entity>, faults: map<nat, Exception>)
    requires DistinctFresh(db, table, data)
    ensures var p := UpsertAll(db, table, data, faults);
            forall i | 0 <= i < |data| :: p.outcomes[i] == FaultAt(faults, i)
  {
    if |data| > 0 {
      var n := |data| - 1;
      DistinctFreshPrefix(db, table, data);
      UpsertFreshOutcomes(db, table, data[..n], faults);
      UpsertFreshSnoc(db, table, data, faults);
    }
  }

  /** Writing such records: each fails exactly when the store faults it,
      with that fault; each of the others is stored, with its key rewritten
      to the bare id, whichever items fail; no record outside those changes. */
  lemma {:induction false} UpsertAllFresh(db: Database, table: string, data: seq<Entity>, faults: map<nat, Exception>)
    requires DistinctFresh(db, table, data)
    ensures var p := UpsertAll(db, table, data, faults);
            && (forall i | 0 <= i < |data| :: p.outcomes[i] == FaultAt(faults, i))
            && (forall i | 0 <= i < |data| && i !in faults ::
                  Lookup(p.db, table, RefOf(ExtractPartitionKey(data[i].key).value))
                    == Some(Entity(ExtractPartitionKey(data[i].key).value.id, data[i].fields)))
            && forall r | r !in Targets(KeysOf(data), faults) :: Lookup(p.db, table, r) == Lookup(db, table, r)
  {
    var p := UpsertAll(db, table, data, faults);
    UpsertFreshOutcomes(db, table, data, faults);
    UpsertAllOutcomes(db, table, data, faults);
    assert Touched(KeysOf(data), p.outcomes) == Targets(KeysOf(data), faults);
  }

  /** The outcomes of all but the last record of a batch are those of the
      batch without it. */
  lemma UpsertAllSnoc(db: Database, table: string, data: seq<Entity>, faults: map<nat, Exception>)
    requires |data| > 0
    ensures UpsertAll(db, table, data, faults).outcomes[..|data| - 1] == UpsertAll(db, table, data[..|data| - 1], faults).outcomes
  {
    var n := |data| - 1;
    UpsertStepShape(UpsertAll(db, table, data[..n], faults), table, data[n], FaultAt(faults, n));
  }

  /** The outcomes of the first `i` records of a batch are those of the
      batch of just those records. */
  lemma {:induction false} UpsertAllStable(db: Database, table: string, data: seq<Entity>, faults: map<nat, Exception>, i: nat)
    requires i <= |data|
    ensures UpsertAll(db, table, data, faults).outcomes[..i] == UpsertAll(db, table, data[..i], faults).outcomes
  {
    if i < |data| {
      var n := |data| - 1;
      var init := data[..n];
      var all := UpsertAll(db, table, data, faults).outcomes;
      UpsertAllSnoc(db, table, data, faults);
      UpsertAllStable(db, table, init, faults, i);
      assert init[..i] == data[..i] && all[..i] == all[..n][..i];
    } else {
      assert data[..i] == data;
    }
  }

  /** A record the batch has stored, or one stored before it, is still there
      when the batch moves on. */
  lemma StoredBeforeTurn(db: Database, table: string, data: seq<Entity>, faults: map<nat, Exception>, r: ItemRef)
    requires || Lookup(db, table, r).Some?
             || exists j | 0 <= j < |data| :: && UpsertAll(db, table, data, faults).outcomes[j].None?
                                             && ExtractPartitionKey(data[j].key).Success?
                                             && RefOf(ExtractPartitionKey(data[j].key).value) == r
    ensures Lookup(UpsertAll(db, table, data, faults).db, table, r).Some?
  {
    var p := UpsertAll(db, table, data, faults);
    UpsertAllOutcomes(db, table, data, faults);
    if Lookup(db, table, r).None? {
      var j :| 0 <= j < |data| && p.outcomes[j].None? && ExtractPartitionKey(data[j].key).Success?
               && RefOf(ExtractPartitionKey(data[j].key).value) == r;
    } else if r in Touched(KeysOf(data), p.outcomes) {
      var j :| 0 <= j < |data| && p.outcomes[j].None? && ExtractPartitionKey(KeysOf(data)[j]).Success?
               && r == RefOf(ExtractPartitionKey(KeysOf(data)[j]).value);
      assert KeysOf(data)[j] == data[j].key;
    }
  }

  /** The batch never replaces a record: a record the store does not fault,
      whose reference was taken before the batch or by an earlier record of
      the batch that succeeded, fails with the 409. */
  lemma {:induction false} UpsertDuplicateConflicts(db: Database, table: string, data: seq<Entity>, faults: map<nat, Exception>, i: nat)
    requires i < |data| && i !in faults && table in db && ExtractPartitionKey(data[i].key).Success?
    requires var r := RefOf(ExtractPartitionKey(data[i].key).value);
             || Lookup(db, table, r).Some?
             || exists j | 0 <= j < i :: && UpsertAll(db, table, data, faults).outcomes[j].None?
                                        && ExtractPartitionKey(data[j].key).Success?
                                        && RefOf(ExtractPartitionKey(data[j].key).value) == r
    ensures UpsertAll(db, table, data, faults).outcomes[i] == Some(ConflictError)
  {
    var r := RefOf(ExtractPartitionKey(data[i].key).value);
    var full := UpsertAll(db, table, data, faults);
    var prev := UpsertAll(db, table, data[..i], faults);
    UpsertAllStable(db, table, data, faults, i);
    UpsertAllStable(db, table, data, faults, i + 1);
    UpsertAllPrefix(db, table, data, faults, i);
    if Lookup(db, table, r).None? {
      var j :| 0 <= j < i && full.outcomes[j].None? && ExtractPartitionKey(data[j].key).Success?
               && RefOf(ExtractPartitionKey(data[j].key).value) == r;
      assert full.outcomes[..i][j] == full.outcomes[j] && data[..i][j] == data[j];
      StoredBeforeTurn(db, table, data[..i], faults, r);
    } else {
      StoredBeforeTurn(db, table, data[..i], faults, r);
    }
    UpsertAllOutcomes(db, table, data[..i], faults);
    UpsertStepShape(prev, table, data[i], None);
    assert full.outcomes[..i + 1][i] == full.outcomes[i];
  }
}

=== FILE: client.dfy ===
/** The storage instance's client lifecycle: construction from one of the
    three configurations, the lazily built document-store client and when it
    is rebuilt, and the connection string resolved through the management
    plane for managed-identity and service-principal configurations, cached
    process-wide by instance name.

    The clock, the identity providers, the management plane and the SDK's
    client builder are outside the model: the current time is a parameter
    `now` (seconds), and what the collaborators answer is an `Environment`
    or an explicit fault parameter. */
module Client {
  import opened Wrappers
  import opened Strings
  import opened Errors
  import opened Config

  /** How the instance authenticates against the management plane: the
      configuration the constructor kept (`MsiConfig`, `ServicePrincipleConfig`)
      or neither (built from a connection string). */
  datatype Auth =
    | ManagedIdentity
    | ServicePrincipal(tenantId: Option<string>, appId: Option<string>)
    | ConnectionOnly

  /** A built document-store client: the connection string it was built
      from and the time it was built. */
  datatype ClientHandle = ClientHandle(connectionString: string, builtAt: int)

  /** The state of a storage instance (`CosmosStorageBase`). */
  datatype Storage = Storage(
    auth: Auth,
    name: Option<string>,
    databaseName: Option<string>,
    instanceName: Option<string>,
    subscriptionId: Option<string>,
    createIfNotExists: bool,
    connectionString: Option<string>,
    client: Option<ClientHandle>,
    expiry: Option<int>)

  /** The process-wide `ConnectionStrings` cache: instance name to connection string. */
  type Cache = map<string, string>

  /** `ConnectionConfig` constructor: validates, then keeps the connection
      string; the instance name is derived from it, and no management-plane
      account name is kept. */
  function FromConnection(c: ConnectionConfig): (r: Result<Storage, Exception>)
    ensures r.Failure? <==> |ValidateConnection(c)| > 0
    ensures r.Failure? ==> r.error == Validation(ValidateConnection(c))
    ensures r.Success? ==> && IsSet(r.value.connectionString) && IsSet(r.value.databaseName)
                           && r.value.client.None? && r.value.expiry.None?
                           && r.value.name == InstanceName(c.connectionString)
    ensures r.Success? ==> && r.value.auth == ConnectionOnly
                           && r.value.connectionString == c.connectionString && r.value.databaseName == c.databaseName
                           && r.value.createIfNotExists == c.createDatabaseIfNotExists
                           && r.value.instanceName.None? && r.value.subscriptionId.None?
  {
    var errors := ValidateConnection(c);
    if |errors| > 0 then Failure(Validation(errors))
    else
      var fs := ConnectionFields(c);
      assert IsSet(fs[0].value) && IsSet(fs[1].value);
      Success(Storage(ConnectionOnly, InstanceName(c.connectionString), c.databaseName, None, None,
                      c.createDatabaseIfNotExists, c.connectionString, None, None))
  }

  /** `MsiConfig` constructor: validates, then keeps the account name and
      subscription to resolve a connection string with on first use. */
  function FromMsi(c: MsiConfig): (r: Result<Storage, Exception>)
    ensures r.Failure? <==> |ValidateMsi(c)| > 0
    ensures r.Failure? ==> r.error == Validation(ValidateMsi(c))
    ensures r.Success? ==> && IsSet(r.value.instanceName) && IsSet(r.value.subscriptionId) && IsSet(r.value.databaseName)
                           && r.value.connectionString.None? && r.value.client.None? && r.value.expiry.None?
    ensures r.Success? ==> && r.value.auth == ManagedIdentity
                           && r.value.name == c.instanceName && r.value.instanceName == c.instanceName
                           && r.value.subscriptionId == c.subscriptionId && r.value.databaseName == c.databaseName
                           && r.value.createIfNotExists == c.createDatabaseIfNotExists
  {
    var errors := ValidateMsi(c);
    if |errors| > 0 then Failure(Validation(errors))
    else
      var fs := MsiFields(c);
      assert IsSet(fs[0].value) && IsSet(fs[1].value) && IsSet(fs[3].value);
      Success(Storage(ManagedIdentity, c.instanceName, c.databaseName, c.instanceName, c.subscriptionId,
                      c.createDatabaseIfNotExists, None, None, None))
  }

  /** `ServicePrincipleConfig` constructor: as for a managed identity, keeping
      the tenant and application id to authenticate with. */
  function FromPrincipal(c: ServicePrincipleConfig): (r: Result<Storage, Exception>)
    ensures r.Failure? <==> |ValidatePrincipal(c)| > 0
    ensures r.Failure? ==> r.error == Validation(ValidatePrincipal(c))
    ensures r.Success? ==> && IsSet(r.value.instanceName) && IsSet(r.value.subscriptionId) && IsSet(r.value.databaseName)
                           && r.value.connectionString.None? && r.value.client.None? && r.value.expiry.None?
    ensures r.Success? ==> && r.value.auth == ServicePrincipal(c.tenantId, c.appId)
                           && r.value.name == c.instanceName && r.value.instanceName == c.instanceName
                           && r.value.subscriptionId == c.subscriptionId && r.value.databaseName == c.databaseName
                           && r.value.createIfNotExists == c.createDatabaseIfNotExists
  {
    var errors := ValidatePrincipal(c);
    if |errors| > 0 then Failure(Validation(errors))
    else
      var fs := PrincipalFields(c);
      assert IsSet(fs[0].value) && IsSet(fs[1].value) && IsSet(fs[5].value);
      Success(Storage(ServicePrincipal(c.tenantId, c.appId), c.instanceName, c.databaseName, c.instanceName,
                      c.subscriptionId, c.createDatabaseIfNotExists, None, None, None))
  }

  /** A service-principal token (`AuthenticationResult`): its access token,
      possibly null, and when it expires. */
  datatype AccessToken = AccessToken(accessToken: Option<string>, expiresOn: int)

  /** A document-store account the management plane lists: its name, its
      document endpoint, and what listing its keys answers (a primary key, or
      `None` for a null key set). */
  datatype Account = Account(name: string, documentEndpoint: string, primaryKey: Result<Option<string>, Exception>)

  /** What the collaborators answer: the managed-identity token provider
      (`None` for a null token), the service-principal authority (`None` for
      a null result), and the subscription's account list. */
  datatype Environment = Environment(
    msiToken: Result<Option<string>, Exception>,
    principalToken: Result<Option<AccessToken>, Exception>,
    accounts: Result<seq<Account>, Exception>)

  const OneDay: int := 86400

  const MsiAuthFailedMessage: string :=
    "Could not authenticate using Managed Service Identity, ensure the application is running in a secure context"

  const ConnectionFailedMessage: string :=
    "An exception occurred during service connection, see inner exception for more detail"

  /** What `BuildStorageConnection` throws: its own exception around the cause. */
  function ConnectionFailed(cause: Exception): Exception {
    InvalidOperation(ConnectionFailedMessage, Some(cause))
  }

  /** The first listed account with the given name (`FirstOrDefault`). */
  function FindAccount(accounts: seq<Account>, name: string): (r: Option<Account>)
    ensures r.None? <==> forall i | 0 <= i < |accounts| :: accounts[i].name != name
    ensures r.Some? ==> exists i | 0 <= i < |accounts| :: accounts[i] == r.value && r.value.name == name
                          && forall j | 0 <= j < i :: accounts[j].name != name
  {
    if |accounts| == 0 then None
    else if accounts[0].name == name then Some(accounts[0])
    else
      var r := FindAccount(accounts[1..], name);
      assert forall i | 1 <= i < |accounts| :: accounts[i] == accounts[1..][i - 1];
      if r.Some? then
        var i :| 0 <= i < |accounts[1..]| && accounts[1..][i] == r.value && r.value.name == name
                 && forall j | 0 <= j < i :: accounts[1..][j].name != name;
        assert accounts[i + 1] == r.value;
        r
      else r
  }

  /** The management token step: the token's expiry, or why authentication
      failed. A managed-identity token is taken to expire a day after it was
      obtained; a service-principal token carries its own expiry. */
  function Authenticate(auth: Auth, now: int, env: Environment): (r: Result<int, Exception>)
    ensures auth.ManagedIdentity? && r.Success? ==> r.value == now + OneDay
    ensures auth.ManagedIdentity? && env.msiToken.Success? ==>
              (r.Success? <==> env.msiToken.value.Some? && |env.msiToken.value.value| > 0)
    ensures auth.ManagedIdentity? && env.msiToken.Failure? ==> r == Failure(env.msiToken.error)
    ensures auth.ServicePrincipal? && env.principalToken.Failure? ==> r == Failure(env.principalToken.error)
    ensures auth.ServicePrincipal? ==>
              (r.Success? <==> env.principalToken.Success? && env.principalToken.value.Some?
                               && env.principalToken.value.value.accessToken.Some?)
    ensures auth.ServicePrincipal? && r.Success? ==> r.value == env.principalToken.value.value.expiresOn
    ensures auth.ConnectionOnly? ==> r.Failure?
  {
    match auth
    case ManagedIdentity =>
      (match env.msiToken
       case Failure(e) => Failure(e)
       case Success(t) =>
         if t.None? || |t.value| == 0 then Failure(InvalidOperation(MsiAuthFailedMessage, None))
         else Success(now + OneDay))
    case ServicePrincipal(tenantId, appId) =>
      (match env.principalToken
       case Failure(e) => Failure(e)
       case Success(t) =>
         if t.None? || t.value.accessToken.None? then
           Failure(InvalidOperation("Could not authenticate to https://login.windows.net/" + Text(tenantId)
                                    + " using supplied AppId: " + Text(appId), None))
         else Success(t.value.expiresOn))
    case ConnectionOnly =>
      // Neither configuration was kept: reading the tenant throws.
      Failure(Other("Object reference not set to an instance of an object."))
  }

  /** The account lookup step: the connection string built from the named
      account's endpoint and primary key, or why it could not be built. */
  function AccountConnection(name: string, env: Environment): (r: Result<string, Exception>)
    ensures r.Success? <==> && env.accounts.Success?
                            && var a := FindAccount(env.accounts.value, name);
                               a.Some? && a.value.primaryKey.Success? && a.value.primaryKey.value.Some?
    ensures r.Success? ==> var a := FindAccount(env.accounts.value, name).value;
                           r.value == AccountConnectionString(a.documentEndpoint, a.primaryKey.value.value)
  {
    var accounts :- env.accounts;
    match FindAccount(accounts, name)
    case None =>
      Failure(InvalidOperation("Could not find the storage instance " + name + " in the subscription Id specified", None))
    case Some(a) =>
      match a.primaryKey
      case Failure(e) => Failure(e)
      case Success(k) =>
        if k.None? then Failure(InvalidOperation("Could not find access keys for the storage instance " + name, None))
        else Success(AccountConnectionString(a.documentEndpoint, k.value))
  }

  /** Adds an entry only when the key is not yet cached (`TryAdd`). */
  function InsertIfAbsent(cache: Cache, key: string, value: string): (r: Cache)
    ensures r.Keys == cache.Keys + {key}
    ensures forall k | k in cache :: r[k] == cache[k]
    ensures key !in cache ==> r[key] == value
  {
    if key in cache then cache else cache[key := value]
  }

  /** What `BuildStorageConnection` leaves behind: the instance's expiry, the
      cache, and the connection string or the exception it throws. */
  datatype Built = Built(expiry: Option<int>, cache: Cache, result: Result<string, Exception>)

  /** `BuildStorageConnection`: a cached string for the instance name is
      returned at once; otherwise authenticate, find the account, read its
      primary key, build the connection string and cache it unless an entry
      appeared meanwhile. Any failure clears the expiry and is rethrown
      wrapped in the method's own exception. */
  function BuildStorageConnection(s: Storage, cache: Cache, now: int, env: Environment): (b: Built)
    ensures forall k | k in cache :: k in b.cache && b.cache[k] == cache[k]
    ensures b.result.Failure? ==> && b.expiry.None? && b.cache == cache
                                  && b.result.error.InvalidOperation?
                                  && b.result.error.message == ConnectionFailedMessage
                                  && b.result.error.innerException.Some?
    ensures b.result.Success? ==> s.instanceName.Some? && s.instanceName.value in b.cache
                                  && b.cache[s.instanceName.value] == b.result.value
    ensures s.instanceName.Some? && s.instanceName.value in cache ==>
              b == Built(s.expiry, cache, Success(cache[s.instanceName.value]))
    ensures s.instanceName.None? ==> b.result == Failure(ConnectionFailed(ArgumentNull("key")))
    ensures s.instanceName.Some? && s.instanceName.value !in cache ==>
              var name := s.instanceName.value;
              var token := Authenticate(s.auth, now, env);
              && (b.result.Success? <==> token.Success? && AccountConnection(name, env).Success?)
              && (b.result.Success? ==> && b.result == AccountConnection(name, env)
                                        && b.expiry == Some(token.value)
                                        && b.cache == cache[name := b.result.value])
              && (token.Failure? ==> b.result == Failure(ConnectionFailed(token.error)))
              && (token.Success? && AccountConnection(name, env).Failure? ==>
                    b.result == Failure(ConnectionFailed(AccountConnection(name, env).error)))
  {
    if s.instanceName.None? then
      Built(None, cache, Failure(ConnectionFailed(ArgumentNull("key"))))
    else
      var name := s.instanceName.value;
      if name in cache then Built(s.expiry, cache, Success(cache[name]))
      else
        match Authenticate(s.auth, now, env)
        case Failure(e) => Built(None, cache, Failure(ConnectionFailed(e)))
        case Success(expiresOn) =>
          match AccountConnection(name, env)
          case Failure(e) => Built(None, cache, Failure(ConnectionFailed(e)))
          case Success(cs) => Built(Some(expiresOn), InsertIfAbsent(cache, name, cs), Success(cs))
  }

  /** Once an instance name is cached, resolving it again answers the cached
      string without consulting any collaborator: whatever they would answer,
      the outcome is the same and nothing changes. */
  lemma CacheHitIgnoresEnvironment(s: Storage, cache: Cache, now: int, env1: Environment, env2: Environment)
    requires s.instanceName.Some? && s.instanceName.value in cache
    ensures BuildStorageConnection(s, cache, now, env1) == BuildStorageConnection(s, cache, now, env2)
    ensures BuildStorageConnection(s, cache, now, env1).cache == cache
  {
  }

  /** Resolving twice gives the same connection string: the second call is
      answered from the cache the first call filled, whatever the
      collaborators would answer the second time. */
  lemma ResolveTwice(s: Storage, cache: Cache, now1: int, now2: int, env1: Environment, env2: Environment)
    requires BuildStorageConnection(s, cache, now1, env1).result.Success?
    ensures var b1 := BuildStorageConnection(s, cache, now1, env1);
            var b2 := BuildStorageConnection(s.(expiry := b1.expiry), b1.cache, now2, env2);
            b2.result == b1.result && b2.cache == b1.cache && b2.expiry == b1.expiry
  {
  }

  /** A managed-identity resolution that succeeds without a cache entry sets
      the expiry a day ahead and caches the account's connection string. */
  lemma MsiResolutionExpiresInADay(s: Storage, cache: Cache, now: int, env: Environment)
    requires s.auth.ManagedIdentity? && s.instanceName.Some? && s.instanceName.value !in cache
    requires BuildStorageConnection(s, cache, now, env).result.Success?
    ensures var b := BuildStorageConnection(s, cache, now, env);
            b.expiry == Some(now + OneDay) && b.cache == cache[s.instanceName.value := b.result.value]
  {
  }

  /** The client must be (re)built: none yet, or its expiry has passed. A
      null expiry never passes. */
  predicate NeedsRebuild(s: Storage, now: int)
    ensures s.client.None? ==> NeedsRebuild(s, now)
    ensures s.client.Some? && s.expiry.None? ==> !NeedsRebuild(s, now)
    ensures s.client.Some? && s.expiry.Some? ==> (NeedsRebuild(s, now) <==> s.expiry.value <= now)
  {
    s.client.None? || (s.expiry.Some? && s.expiry.value <= now)
  }

  /** The instance holds a connection string (`!ConnectionString.IsNullOrEmpty()`). */
  predicate HasConnectionString(s: Storage) {
    s.connectionString.Some? && |s.connectionString.value| > 0
  }

  /** What an access to the client leaves behind. */
  datatype Access = Access(state: Storage, cache: Cache, result: Result<ClientHandle, Exception>)

  /** `InitializeClient`: resolves a connection string when the instance has
      none, builds a client from it (the builder may throw, `buildFault`),
      installs the client, then creates the database when configured to
      (which may throw, `databaseFault`, after the client is installed). */
  function InitializeClient(s: Storage, cache: Cache, now: int, env: Environment,
                            buildFault: Option<Exception>, databaseFault: Option<Exception>): (a: Access)
    ensures a.result.Success? ==> && a.state.client == Some(a.result.value)
                                  && a.result.value.builtAt == now
                                  && a.state.connectionString == Some(a.result.value.connectionString)
    ensures IsSet(s.connectionString) ==> a.state.expiry == s.expiry && a.cache == cache
    ensures forall k | k in cache :: k in a.cache && a.cache[k] == cache[k]
    ensures HasConnectionString(s) && a.result.Success? ==> a.result.value.connectionString == s.connectionString.value
    ensures !HasConnectionString(s) ==>
              var b := BuildStorageConnection(s, cache, now, env);
              && a.cache == b.cache && a.state.expiry == b.expiry
              && (b.result.Failure? ==> a.result == Failure(b.result.error) && a.state.client == s.client)
              && (a.result.Success? ==> a.result.value.connectionString == b.result.value)
    ensures buildFault.Some? ==> a.result.Failure?
    ensures (HasConnectionString(s) || BuildStorageConnection(s, cache, now, env).result.Success?) ==>
              (buildFault.None? && (!s.createIfNotExists || databaseFault.None?) ==> a.result.Success?)
  {
    var (s1, cache1, cs) :=
      if !HasConnectionString(s) then
        var b := BuildStorageConnection(s, cache, now, env);
        (s.(expiry := b.expiry), b.cache, b.result)
      else (s, cache, Success(s.connectionString.value));
    match cs
    case Failure(e) => Access(s1, cache1, Failure(e))
    case Success(c) =>
      var s2 := s1.(connectionString := Some(c));
      if buildFault.Some? then Access(s2, cache1, Failure(buildFault.value))
      else
        var handle := ClientHandle(c, now);
        var s3 := s2.(client := Some(handle));
        if s3.createIfNotExists && databaseFault.Some? then Access(s3, cache1, Failure(databaseFault.value))
        else Access(s3, cache1, Success(handle))
  }

  /** The `CosmosClient` getter: rebuilds when needed, otherwise hands out the
      client it has. */
  function GetClient(s: Storage, cache: Cache, now: int, env: Environment,
                     buildFault: Option<Exception>, databaseFault: Option<Exception>): (a: Access)
    ensures !NeedsRebuild(s, now) ==> a == Access(s, cache, Success(s.client.value))
    ensures NeedsRebuild(s, now) && a.result.Success? ==> a.result.value.builtAt == now
  {
    if NeedsRebuild(s, now) then InitializeClient(s, cache, now, env, buildFault, databaseFault)
    else Access(s, cache, Success(s.client.value))
  }

  /** The first access of an instance without a connection string, whose
      instance name is not cached, resolves the name whatever the
      collaborators answer: when authentication and the account lookup both
      succeed, the client is built on that account's connection string,
      expires when the token does, and the string is cached; when either
      fails, the access fails, no client is installed, the expiry is
      cleared and the cache is unchanged. */
  lemma FirstAccessResolves(s: Storage, cache: Cache, now: int, env: Environment, databaseFault: Option<Exception>)
    requires s.client.None? && !HasConnectionString(s) && s.instanceName.Some? && s.instanceName.value !in cache
    ensures var a := GetClient(s, cache, now, env, None, databaseFault);
            var name := s.instanceName.value;
            var token := Authenticate(s.auth, now, env);
            var account := AccountConnection(name, env);
            && (token.Success? && account.Success? ==>
                  && a.state.client == Some(ClientHandle(account.value, now))
                  && a.state.expiry == Some(token.value)
                  && a.cache == cache[name := account.value])
            && (token.Failure? || account.Failure? ==>
                  a.result.Failure? && a.state.client.None? && a.state.expiry.None? && a.cache == cache)
  {
  }

  /** An instance built from a `ConnectionConfig` keeps no management-plane
      account name, so resolving a connection string for it always fails
      with the cache's null-key error, whatever the collaborators answer. */
  lemma ConnectionInstanceCannotResolve(c: ConnectionConfig, cache: Cache, now: int, env: Environment)
    requires FromConnection(c).Success?
    ensures BuildStorageConnection(FromConnection(c).value, cache, now, env).result == Failure(ConnectionFailed(ArgumentNull("key")))
  {
  }

  /** An instance built from an `MsiConfig` resolves the configured account
      on its first access: when authentication and the lookup of that
      account succeed, the client is built on the account's connection
      string and the string is cached under the configured name. */
  lemma MsiInstanceUsesConfiguredAccount(c: MsiConfig, cache: Cache, now: int, env: Environment)
    requires FromMsi(c).Success? && c.instanceName.Some? && c.instanceName.value !in cache
    ensures var a := GetClient(FromMsi(c).value, cache, now, env, None, None);
            var account := AccountConnection(c.instanceName.value, env);
            Authenticate(ManagedIdentity, now, env).Success? && account.Success? ==>
              a.result == Success(ClientHandle(account.value, now)) && a.cache == cache[c.instanceName.value := account.value]
  {
    FirstAccessResolves(FromMsi(c).value, cache, now, env, None);
  }

  /** A client built under a null expiry is never rebuilt, however much time passes. */
  lemma NullExpiryNeverRebuilds(s: Storage, now: int)
    requires s.client.Some? && s.expiry.None?
    ensures !NeedsRebuild(s, now)
  {
  }

  /** Once the expiry has passed on an instance that holds a connection
      string, every access builds a new client and leaves the expiry as it
      was, so every later access builds again: the expiry is only ever
      renewed by resolving a connection string, which such an instance never
      does again. */
  lemma ExpiredRebuildsOnEveryAccess(s: Storage, cache: Cache, now: int, later: int, env: Environment)
    requires IsSet(s.connectionString) && s.expiry.Some? && s.expiry.value <= now <= later
    ensures var a := GetClient(s, cache, now, env, None, None);
            && a.result == Success(ClientHandle(s.connectionString.value, now))
            && a.state.expiry == s.expiry
            && NeedsRebuild(a.state, later)
  {
  }

  /** An instance built from a connection string never consults the identity
      providers or the management plane: every access has the same outcome
      whatever they would answer. */
  lemma ConnectionStorageIgnoresEnvironment(c: ConnectionConfig, cache: Cache, now: int, env1: Environment, env2: Environment,
                                            buildFault: Option<Exception>, databaseFault: Option<Exception>)
    requires FromConnection(c).Success?
    ensures GetClient(FromConnection(c).value, cache, now, env1, buildFault, databaseFault)
         == GetClient(FromConnection(c).value, cache, now, env2, buildFault, databaseFault)
  {
  }

  /** A failing database creation leaves the new client installed: the next
      access before the expiry reuses it instead of retrying. */
  lemma DatabaseFailureKeepsClient(s: Storage, cache: Cache, now: int, env: Environment, e: Exception)
    requires NeedsRebuild(s, now) && s.createIfNotExists && IsSet(s.connectionString)
    requires s.expiry.None? || s.expiry.value > now
    ensures var a := GetClient(s, cache, now, env, None, Some(e));
            && a.result == Failure(e)
            && a.state.client == Some(ClientHandle(s.connectionString.value, now))
            && GetClient(a.state, a.cache, now, env, None, Some(e)).result == Success(ClientHandle(s.connectionString.value, now))
  {
  }

  /** A text lacking one of a pattern's characters does not contain the pattern. */
  lemma AbsentCharNotContained(s: string, pat: string, c: char)
    requires |pat| > 0 && c in pat && c !in s
    ensures !Contains(s, pat)
  {
  }

  /** Facts about the endpoint suffix's characters. */
  lemma EndpointSuffixChars()
    ensures ';' !in EndpointSuffix && '=' !in EndpointSuffix && EndpointSuffix[0] == '.'
  {
    assert EndpointSuffix == ".documents" + ".azure" + ".com:443/";
    assert ';' !in ".documents" && ';' !in ".azure" && ';' !in ".com:443/";
    assert '=' !in ".documents" && '=' !in ".azure" && '=' !in ".com:443/";
  }

  /** Stripping the endpoint decoration from `AccountEndpoint=https://<name>.documents.azure.com:443/`
      leaves the name, for names without `=` or `.`. */
  lemma StripEndpointLeavesName(name: string)
    requires '=' !in name && '.' !in name
    ensures StripEndpoint(EndpointPrefix + (name + EndpointSuffix)) == name
  {
    EndpointSuffixChars();
    var rest := name + EndpointSuffix;
    ReplaceLeading(EndpointPrefix, rest, "");
    assert EndpointPrefix[15] == '=';
    assert '=' !in rest;
    AbsentCharNotContained(rest, EndpointPrefix, '=');
    ReplaceAbsent(rest, EndpointPrefix, "");
    assert ReplaceAll(EndpointPrefix + rest, EndpointPrefix, "") == rest;
    OnlyTrailingWithoutHead(name, EndpointSuffix);
    ReplaceTrailing(name, EndpointSuffix, "");
    assert name + "" == name;
  }

  /** The account name read back from the connection string that
      `BuildStorageConnection` builds for an account whose document endpoint
      has the public-cloud shape is that account's name (for names without
      `;`, `=` or `.`, as account names are). */
  lemma EndpointInstanceRoundTrip(name: string, key: string)
    requires ';' !in name && '=' !in name && '.' !in name && ';' !in key
    ensures InstanceName(Some(AccountConnectionString("https://" + name + EndpointSuffix, key))) == Some(name)
  {
    var endpoint := "https://" + name + EndpointSuffix;
    var first := EndpointSetting + endpoint;
    assert first == EndpointPrefix + (name + EndpointSuffix);
    EndpointSuffixChars();
    assert ';' !in "https://";
    assert ';' !in endpoint;
    InstanceNameIgnoresKey(endpoint, key);
    assert StartsWith(first, EndpointPrefix);
    StripEndpointLeavesName(name);
  }

  /** A managed-identity instance whose first access resolves its account
      builds a client on the connection string the account yields, and any
      `ConnectionConfig` holding that string names the same account. */
  lemma FirstAccessUsesAccount(s: Storage, cache: Cache, now: int, env: Environment, name: string, key: string)
    requires s.auth.ManagedIdentity? && s.instanceName == Some(name) && name !in cache
    requires s.connectionString.None? && s.client.None? && !s.createIfNotExists
    requires ';' !in name && '=' !in name && '.' !in name && ';' !in key
    requires env.msiToken == Success(Some("token"))
    requires env.accounts == Success([Account(name, "https://" + name + EndpointSuffix, Success(Some(key)))])
    ensures var a := GetClient(s, cache, now, env, None, None);
            && a.result.Success?
            && a.state.expiry == Some(now + OneDay)
            && a.cache == cache[name := a.result.value.connectionString]
            && InstanceName(Some(a.result.value.connectionString)) == Some(name)
  {
    var accounts := env.accounts.value;
    assert FindAccount(accounts, name) == Some(accounts[0]);
    assert AccountConnection(name, env) == Success(AccountConnectionString("https://" + name + EndpointSuffix, key));
    FirstAccessResolves(s, cache, now, env, None);
    EndpointInstanceRoundTrip(name, key);
  }
}

=== FILE: config.dfy ===
/** The three configuration variants a storage instance is built from, their
    required-field validation, the account name read out of a connection
    string, and their `ToString` texts. A field the caller never set is `None`
    (C#'s `null`). */
module Config {
  import opened Wrappers
  import opened Strings

  /** Managed-identity settings (`MsiConfig`). */
  datatype MsiConfig = MsiConfig(
    instanceName: Option<string>,
    databaseName: Option<string>,
    createDatabaseIfNotExists: bool,
    createTables: Option<seq<string>>,
    tenantId: Option<string>,
    subscriptionId: Option<string>)

  /** Application id and secret settings (`ServicePrincipleConfig`). */
  datatype ServicePrincipleConfig = ServicePrincipleConfig(
    instanceName: Option<string>,
    databaseName: Option<string>,
    createDatabaseIfNotExists: bool,
    createTables: Option<seq<string>>,
    appId: Option<string>,
    appSecret: Option<string>,
    tenantId: Option<string>,
    subscriptionId: Option<string>)

  /** Connection-string settings (`ConnectionConfig`); its instance name is
      derived from the connection string, see `InstanceName`. */
  datatype ConnectionConfig = ConnectionConfig(
    databaseName: Option<string>,
    createDatabaseIfNotExists: bool,
    createTables: Option<seq<string>>,
    connectionString: Option<string>)

  /** A `[Required]` property together with its current value. */
  datatype Field = Field(name: string, value: Option<string>)

  /** What `[Required]` accepts: a value that is present and not blank. */
  predicate IsSet(v: Option<string>) {
    v.Some? && !IsBlank(v.value)
  }

  /** The names of the required fields left unset, in declaration order:
      one validation error per such field. */
  function MissingFields(fields: seq<Field>): (errors: seq<string>)
    ensures |errors| <= |fields|
    ensures forall n :: n in errors <==> exists i :: 0 <= i < |fields| && fields[i].name == n && !IsSet(fields[i].value)
    ensures |errors| == 0 <==> forall i :: 0 <= i < |fields| ==> IsSet(fields[i].value)
  {
    if |fields| == 0 then []
    else
      var rest := MissingFields(fields[1..]);
      assert forall i :: 1 <= i < |fields| ==> fields[i] == fields[1..][i - 1];
      if IsSet(fields[0].value) then rest else [fields[0].name] + rest
  }

  /** The number of required fields left unset. */
  function UnsetCount(fields: seq<Field>): nat {
    if |fields| == 0 then 0
    else (if IsSet(fields[0].value) then 0 else 1) + UnsetCount(fields[1..])
  }

  /** There is exactly one validation error per unset required field. */
  lemma {:induction false} MissingFieldsCount(fields: seq<Field>)
    ensures |MissingFields(fields)| == UnsetCount(fields)
  {
    if |fields| > 0 {
      MissingFieldsCount(fields[1..]);
    }
  }

  /** Setting one unset required field to a non-blank value removes exactly one error. */
  lemma {:induction false} SetFieldRemovesOneError(fields: seq<Field>, i: nat, v: string)
    requires i < |fields| && !IsSet(fields[i].value) && !IsBlank(v)
    ensures UnsetCount(fields[i := Field(fields[i].name, Some(v))]) == UnsetCount(fields) - 1
  {
    var fields' := fields[i := Field(fields[i].name, Some(v))];
    if i > 0 {
      assert fields'[1..] == fields[1..][i - 1 := Field(fields[i].name, Some(v))];
      SetFieldRemovesOneError(fields[1..], i - 1, v);
    } else {
      assert fields'[1..] == fields[1..];
    }
  }

  /** With no field set, every required field is an error. */
  lemma {:induction false} AllUnsetCount(fields: seq<Field>)
    requires forall i :: 0 <= i < |fields| ==> fields[i].value.None?
    ensures UnsetCount(fields) == |fields|
  {
    if |fields| > 0 {
      AllUnsetCount(fields[1..]);
    }
  }

  /** `MsiConfig` requires InstanceName, DatabaseName, TenantId and SubscriptionId. */
  function MsiFields(c: MsiConfig): seq<Field> {
    [Field("InstanceName", c.instanceName), Field("DatabaseName", c.databaseName),
     Field("TenantId", c.tenantId), Field("SubscriptionId", c.subscriptionId)]
  }

  /** `ServicePrincipleConfig` requires six fields. */
  function PrincipalFields(c: ServicePrincipleConfig): seq<Field> {
    [Field("InstanceName", c.instanceName), Field("DatabaseName", c.databaseName),
     Field("AppId", c.appId), Field("AppSecret", c.appSecret),
     Field("TenantId", c.tenantId), Field("SubscriptionId", c.subscriptionId)]
  }

  /** `ConnectionConfig` requires only ConnectionString and DatabaseName: its
      `new InstanceName` is derived and carries no `[Required]`. */
  function ConnectionFields(c: ConnectionConfig): seq<Field> {
    [Field("ConnectionString", c.connectionString), Field("DatabaseName", c.databaseName)]
  }

  function ValidateMsi(c: MsiConfig): seq<string> { MissingFields(MsiFields(c)) }
  function ValidatePrincipal(c: ServicePrincipleConfig): seq<string> { MissingFields(PrincipalFields(c)) }
  function ValidateConnection(c: ConnectionConfig): seq<string> { MissingFields(ConnectionFields(c)) }

  /** One error for an unset field, none for a set one. */
  function ErrorFor(v: Option<string>): nat {
    if IsSet(v) then 0 else 1
  }

  /** `UnsetCount` peels off its first field. */
  lemma UnsetCountHead(fields: seq<Field>)
    requires |fields| > 0
    ensures UnsetCount(fields) == ErrorFor(fields[0].value) + UnsetCount(fields[1..])
  {
  }

  /** `MsiConfig` has one error for each of its four required fields left unset. */
  lemma MsiErrorCount(c: MsiConfig)
    ensures |ValidateMsi(c)| == ErrorFor(c.instanceName) + ErrorFor(c.databaseName)
                                + ErrorFor(c.tenantId) + ErrorFor(c.subscriptionId)
  {
    var f := MsiFields(c);
    MissingFieldsCount(f);
    UnsetCountHead(f);
    UnsetCountHead(f[1..]);
    assert f[1..][1..] == f[2..];
    UnsetCountHead(f[2..]);
    assert f[2..][1..] == f[3..];
    UnsetCountHead(f[3..]);
    assert f[3..][1..] == [];
  }

  /** `ServicePrincipleConfig` has one error for each of its six required fields left unset. */
  lemma PrincipalErrorCount(c: ServicePrincipleConfig)
    ensures |ValidatePrincipal(c)| == ErrorFor(c.instanceName) + ErrorFor(c.databaseName)
                                      + ErrorFor(c.appId) + ErrorFor(c.appSecret)
                                      + ErrorFor(c.tenantId) + ErrorFor(c.subscriptionId)
  {
    var f := PrincipalFields(c);
    MissingFieldsCount(f);
    UnsetCountHead(f);
    UnsetCountHead(f[1..]);
    assert f[1..][1..] == f[2..];
    UnsetCountHead(f[2..]);
    assert f[2..][1..] == f[3..];
    UnsetCountHead(f[3..]);
    assert f[3..][1..] == f[4..];
    UnsetCountHead(f[4..]);
    assert f[4..][1..] == f[5..];
    UnsetCountHead(f[5..]);
    assert f[5..][1..] == [];
  }

  /** `ConnectionConfig` has one error for each of its two required fields left unset. */
  lemma ConnectionErrorCount(c: ConnectionConfig)
    ensures |ValidateConnection(c)| == ErrorFor(c.connectionString) + ErrorFor(c.databaseName)
  {
    var f := ConnectionFields(c);
    MissingFieldsCount(f);
    UnsetCountHead(f);
    UnsetCountHead(f[1..]);
    assert f[1..][1..] == [];
  }

  /** The test sequence for `MsiConfig`: 4 errors when empty, one fewer for each
      of InstanceName, TenantId, DatabaseName and SubscriptionId set in turn;
      the optional fields never contribute. */
  lemma MsiValidationSequence(v: string, create: bool, tables: Option<seq<string>>)
    requires !IsBlank(v)
    ensures var c0 := MsiConfig(None, None, create, tables, None, None);
            var c1 := c0.(instanceName := Some(v));
            var c2 := c1.(tenantId := Some(v));
            var c3 := c2.(databaseName := Some(v));
            var c4 := c3.(subscriptionId := Some(v));
            && |ValidateMsi(c0)| == 4 && |ValidateMsi(c1)| == 3 && |ValidateMsi(c2)| == 2
            && |ValidateMsi(c3)| == 1 && |ValidateMsi(c4)| == 0
  {
    var c0 := MsiConfig(None, None, create, tables, None, None);
    var c1 := c0.(instanceName := Some(v));
    var c2 := c1.(tenantId := Some(v));
    var c3 := c2.(databaseName := Some(v));
    var c4 := c3.(subscriptionId := Some(v));
    MsiErrorCount(c0);
    MsiErrorCount(c1);
    MsiErrorCount(c2);
    MsiErrorCount(c3);
    MsiErrorCount(c4);
  }

  /** The test sequence for `ServicePrincipleConfig`: errors run 6, 5, 4, 3, 2, 1, 0
      as InstanceName, AppId, AppSecret, TenantId, DatabaseName and
      SubscriptionId are set in turn. */
  lemma PrincipalValidationSequence(v: string, create: bool, tables: Option<seq<string>>)
    requires !IsBlank(v)
    ensures var c0 := ServicePrincipleConfig(None, None, create, tables, None, None, None, None);
            var c1 := c0.(instanceName := Some(v));
            var c2 := c1.(appId := Some(v));
            var c3 := c2.(appSecret := Some(v));
            var c4 := c3.(tenantId := Some(v));
            var c5 := c4.(databaseName := Some(v));
            var c6 := c5.(subscriptionId := Some(v));
            && |ValidatePrincipal(c0)| == 6 && |ValidatePrincipal(c1)| == 5
            && |ValidatePrincipal(c2)| == 4 && |ValidatePrincipal(c3)| == 3
            && |ValidatePrincipal(c4)| == 2 && |ValidatePrincipal(c5)| == 1
            && |ValidatePrincipal(c6)| == 0
  {
    var c0 := ServicePrincipleConfig(None, None, create, tables, None, None, None, None);
    var c1 := c0.(instanceName := Some(v));
    var c2 := c1.(appId := Some(v));
    var c3 := c2.(appSecret := Some(v));
    var c4 := c3.(tenantId := Some(v));
    var c5 := c4.(databaseName := Some(v));
    var c6 := c5.(subscriptionId := Some(v));
    PrincipalErrorCount(c0);
    PrincipalErrorCount(c1);
    PrincipalErrorCount(c2);
    PrincipalErrorCount(c3);
    PrincipalErrorCount(c4);
    PrincipalErrorCount(c5);
    PrincipalErrorCount(c6);
  }

  /** The test sequence for `ConnectionConfig`: 2 errors when empty, then 1 with
      a connection string, then 0 with a database name as well. */
  lemma ConnectionValidationSequence(v: string, create: bool, tables: Option<seq<string>>)
    requires !IsBlank(v)
    ensures var c0 := ConnectionConfig(None, create, tables, None);
            var c1 := c0.(connectionString := Some(v));
            var c2 := c1.(databaseName := Some(v));
            && |ValidateConnection(c0)| == 2 && |ValidateConnection(c1)| == 1
            && |ValidateConnection(c2)| == 0
  {
    var c0 := ConnectionConfig(None, create, tables, None);
    var c1 := c0.(connectionString := Some(v));
    var c2 := c1.(databaseName := Some(v));
    ConnectionErrorCount(c0);
    ConnectionErrorCount(c1);
    ConnectionErrorCount(c2);
  }

  /** The setting names of an account connection string. */
  const EndpointSetting: string := "AccountEndpoint="
  const KeySetting: string := "AccountKey="

  /** The start of the endpoint setting of a public-cloud account. */
  const EndpointPrefix: string := EndpointSetting + "https://"
  const EndpointSuffix: string := ".documents.azure.com:443/"

  /** The endpoint prefix holds no `;`, and its setting ends in `=` at position 15. */
  lemma EndpointPrefixChars()
    ensures ';' !in EndpointPrefix && EndpointPrefix[15] == '='
  {
    assert ';' !in EndpointSetting && ';' !in "https://";
    assert EndpointPrefix[15] == EndpointSetting[15];
  }

  /** The first part that starts with `prefix` (`FirstOrDefault`). */
  function FirstStartingWith(parts: seq<string>, prefix: string): (r: Option<string>)
    ensures r.None? <==> forall i :: 0 <= i < |parts| ==> !StartsWith(parts[i], prefix)
    ensures r.Some? ==> exists i :: 0 <= i < |parts| && parts[i] == r.value && StartsWith(parts[i], prefix)
                                 && forall j :: 0 <= j < i ==> !StartsWith(parts[j], prefix)
  {
    if |parts| == 0 then None
    else if StartsWith(parts[0], prefix) then Some(parts[0])
    else
      var r := FirstStartingWith(parts[1..], prefix);
      assert forall i :: 1 <= i < |parts| ==> parts[i] == parts[1..][i - 1];
      if r.Some? then
        var i :| 0 <= i < |parts[1..]| && parts[1..][i] == r.value && StartsWith(parts[1..][i], prefix)
                 && forall j :: 0 <= j < i ==> !StartsWith(parts[1..][j], prefix);
        assert parts[i + 1] == r.value && forall j :: 0 <= j < i + 1 ==> !StartsWith(parts[j], prefix);
        r
      else r
  }

  /** The account endpoint part with every copy of the endpoint prefix and
      suffix removed. */
  function StripEndpoint(part: string): string {
    ReplaceAll(ReplaceAll(part, EndpointPrefix, ""), EndpointSuffix, "")
  }

  /** The account name carried by a connection string (`ConnectionConfig.InstanceName`):
      `None` for a missing or empty string, for one without a `;`, or when no
      `;`-separated part starts with the endpoint prefix; otherwise the first
      such part with the prefix and suffix removed. */
  function InstanceName(connectionString: Option<string>): (r: Option<string>)
    ensures r.None? <==> (|| connectionString.None?
                          || ';' !in connectionString.value
                          || forall i :: 0 <= i < |Split(connectionString.value, ';')| ==>
                               !StartsWith(Split(connectionString.value, ';')[i], EndpointPrefix))
    ensures r.Some? ==> exists i :: 0 <= i < |Split(connectionString.value, ';')|
                           && StartsWith(Split(connectionString.value, ';')[i], EndpointPrefix)
                           && r.value == StripEndpoint(Split(connectionString.value, ';')[i])
                           && forall j :: 0 <= j < i ==> !StartsWith(Split(connectionString.value, ';')[j], EndpointPrefix)
  {
    if connectionString.None? || |connectionString.value| == 0 then None
    else
      var parts := Split(connectionString.value, ';');
      SplitCount(connectionString.value, ';');
      if |parts| <= 1 then None
      else
        match FirstStartingWith(parts, EndpointPrefix)
        case None => None
        case Some(p) => Some(StripEndpoint(p))
  }

  /** The connection-string shape built from an account's endpoint and key. */
  function AccountConnectionString(endpoint: string, key: string): string {
    EndpointSetting + endpoint + [';'] + KeySetting + key
  }

  /** Unit-test examples: no connection string, and `"AB"` (no `;`), carry no name. */
  lemma InstanceNameWithoutSeparator()
    ensures InstanceName(None) == None
    ensures InstanceName(Some("AB")) == None
  {
    assert ';' !in "AB";
  }

  /** Unit-test example: in `"A;B"` no part starts with the endpoint prefix. */
  lemma InstanceNameWithoutEndpoint()
    ensures InstanceName(Some("A;B")) == None
  {
    assert "A;B" == "A" + [';'] + "B";
    SplitAround("A", ';', "B");
    SplitWithoutSeparator("A", ';');
    SplitWithoutSeparator("B", ';');
    assert !StartsWith("A", EndpointPrefix) && !StartsWith("B", EndpointPrefix);
  }

  /** A connection string whose first part lacks the endpoint prefix and whose
      second part is the endpoint prefix followed by a name. */
  lemma InstanceNameSecondPart(a: string, name: string, c: string)
    requires ';' !in a && ';' !in name && !StartsWith(a, EndpointPrefix)
    ensures InstanceName(Some(a + [';'] + (EndpointPrefix + name) + [';'] + c)) == Some(StripEndpoint(EndpointPrefix + name))
  {
    var mid := EndpointPrefix + name;
    EndpointPrefixChars();
    assert ';' !in mid;
    SplitTwoFirst(a, mid, ';', c);
    var parts := Split(a + [';'] + mid + [';'] + c, ';');
    assert mid[..|EndpointPrefix|] == EndpointPrefix;
    assert FirstStartingWith(parts, EndpointPrefix) == Some(mid) by {
      assert parts[1..][0] == mid;
    }
  }

  /** Unit-test example: `"A;AccountEndpoint=https://B;C"`, written here as a
      concatenation, carries `"B"`. */
  lemma InstanceNameFromEndpoint()
    ensures InstanceName(Some("A" + [';'] + (EndpointPrefix + "B") + [';'] + "C")) == Some("B")
  {
    assert !StartsWith("A", EndpointPrefix);
    InstanceNameSecondPart("A", "B", "C");
    ReplaceLeading(EndpointPrefix, "B", "");
    assert ReplaceAll("B", EndpointPrefix, "") == "B";
    assert ReplaceAll("B", EndpointSuffix, "") == "B";
    assert StripEndpoint(EndpointPrefix + "B") == "B";
  }

  /** The text a `ToString` interpolation prints for a possibly-null string. */
  function Text(v: Option<string>): string {
    v.GetOr("")
  }

  /** `MsiConfig.ToString`: the tenant, subscription, account name and
      database, each after its label. */
  function MsiToString(c: MsiConfig): (r: string)
    ensures StartsWith(r, "TenantId: " + Text(c.tenantId) + ",")
    ensures EndsWith(r, ", Database: " + Text(c.databaseName))
  {
    "TenantId: " + Text(c.tenantId) + [','] + " SubscriptionId: " + Text(c.subscriptionId)
    + [','] + " Cosmos InstanceName: " + Text(c.instanceName) + [','] + " Database: " + Text(c.databaseName)
  }

  /** `ServicePrincipleConfig.ToString`: the application, tenant,
      subscription, account name and database, each after its label. */
  function PrincipalToString(c: ServicePrincipleConfig): (r: string)
    ensures StartsWith(r, "AppId: " + Text(c.appId) + ",")
    ensures EndsWith(r, ", Database: " + Text(c.databaseName))
  {
    "AppId: " + Text(c.appId) + [','] + " TenantId: " + Text(c.tenantId)
    + [','] + " SubscriptionId: " + Text(c.subscriptionId)
    + [','] + " Cosmos InstanceName: " + Text(c.instanceName) + [','] + " Database: " + Text(c.databaseName)
  }

  /** `ConnectionConfig.ToString`: prints the derived instance name, never the
      connection string itself. */
  function ConnectionToString(c: ConnectionConfig): (r: string)
    ensures StartsWith(r, "Cosmos InstanceName: " + Text(InstanceName(c.connectionString)) + ",")
    ensures EndsWith(r, ", Database: " + Text(c.databaseName))
  {
    "Cosmos InstanceName: " + Text(InstanceName(c.connectionString)) + [','] + " Database: " + Text(c.databaseName)
  }

  /** Fields without a comma can be read back from `MsiConfig.ToString`:
      splitting the text at commas gives each labelled field, in order. */
  lemma MsiToStringFields(c: MsiConfig)
    requires ',' !in Text(c.tenantId) && ',' !in Text(c.subscriptionId)
    requires ',' !in Text(c.instanceName) && ',' !in Text(c.databaseName)
    ensures Split(MsiToString(c), ',') == ["TenantId: " + Text(c.tenantId), " SubscriptionId: " + Text(c.subscriptionId),
                                           " Cosmos InstanceName: " + Text(c.instanceName), " Database: " + Text(c.databaseName)]
  {
    var a, b := "TenantId: " + Text(c.tenantId), " SubscriptionId: " + Text(c.subscriptionId);
    var n, d := " Cosmos InstanceName: " + Text(c.instanceName), " Database: " + Text(c.databaseName);
    assert ',' !in a && ',' !in b && ',' !in n && ',' !in d by {
      assert ',' !in "TenantId: " && ',' !in " SubscriptionId: ";
      assert ',' !in " Cosmos InstanceName: " && ',' !in " Database: ";
    }
    assert MsiToString(c) == a + [','] + b + [','] + (n + [','] + d);
    SplitFour(a, b, n, d, ',');
  }

  /** The flags never reach `MsiConfig.ToString`: configurations that differ
      only in CreateDatabaseIfNotExists or CreateTables print the same text. */
  lemma MsiToStringOmitsFlags(c: MsiConfig, create: bool, tables: Option<seq<string>>)
    ensures MsiToString(c.(createDatabaseIfNotExists := create, createTables := tables)) == MsiToString(c)
  {
  }

  /** Fields without a comma can be read back from
      `ServicePrincipleConfig.ToString`: splitting the text at commas gives
      each labelled field, in order, and no secret. */
  lemma PrincipalToStringFields(c: ServicePrincipleConfig)
    requires ',' !in Text(c.appId) && ',' !in Text(c.tenantId) && ',' !in Text(c.subscriptionId)
    requires ',' !in Text(c.instanceName) && ',' !in Text(c.databaseName)
    ensures Split(PrincipalToString(c), ',') == ["AppId: " + Text(c.appId), " TenantId: " + Text(c.tenantId),
                                                 " SubscriptionId: " + Text(c.subscriptionId),
                                                 " Cosmos InstanceName: " + Text(c.instanceName), " Database: " + Text(c.databaseName)]
  {
    var p, a, b := "AppId: " + Text(c.appId), " TenantId: " + Text(c.tenantId), " SubscriptionId: " + Text(c.subscriptionId);
    var n, d := " Cosmos InstanceName: " + Text(c.instanceName), " Database: " + Text(c.databaseName);
    assert ',' !in p && ',' !in a && ',' !in b && ',' !in n && ',' !in d by {
      assert ',' !in "AppId: " && ',' !in " TenantId: " && ',' !in " SubscriptionId: ";
      assert ',' !in " Cosmos InstanceName: " && ',' !in " Database: ";
    }
    assert PrincipalToString(c) == p + [','] + (a + [','] + b + [','] + (n + [','] + d));
    SplitFive(p, a, b, n, d, ',');
  }

  /** The account name and database can be read back from
      `ConnectionConfig.ToString` when neither holds a comma. */
  lemma ConnectionToStringFields(c: ConnectionConfig)
    requires ',' !in Text(InstanceName(c.connectionString)) && ',' !in Text(c.databaseName)
    ensures Split(ConnectionToString(c), ',') == ["Cosmos InstanceName: " + Text(InstanceName(c.connectionString)),
                                                  " Database: " + Text(c.databaseName)]
  {
    var n, d := "Cosmos InstanceName: " + Text(InstanceName(c.connectionString)), " Database: " + Text(c.databaseName);
    assert ConnectionToString(c) == n + [','] + d;
    SplitPair(n, d, ',');
  }

  /** The secret never reaches `ServicePrincipleConfig.ToString`: configurations
      that differ only in AppSecret print the same text. */
  lemma PrincipalToStringOmitsSecret(c: ServicePrincipleConfig, secret: Option<string>)
    ensures PrincipalToString(c.(appSecret := secret)) == PrincipalToString(c)
  {
  }

  /** The account key never reaches `ConnectionConfig.ToString`: connection
      strings that differ only in their account key print the same text. */
  lemma {:induction false} ConnectionToStringOmitsKey(c: ConnectionConfig, endpoint: string, key1: string, key2: string)
    requires ';' !in endpoint && ';' !in key1 && ';' !in key2
    ensures ConnectionToString(c.(connectionString := Some(AccountConnectionString(endpoint, key1))))
         == ConnectionToString(c.(connectionString := Some(AccountConnectionString(endpoint, key2))))
  {
    InstanceNameIgnoresKey(endpoint, key1);
    InstanceNameIgnoresKey(endpoint, key2);
  }

  /** `AccountEndpoint=<e>;AccountKey=<k>` splits at `;` into its two
      settings, and the key setting does not start with the endpoint prefix. */
  lemma AccountConnectionParts(endpoint: string, key: string)
    requires ';' !in endpoint && ';' !in key
    ensures Split(AccountConnectionString(endpoint, key), ';') == [EndpointSetting + endpoint, KeySetting + key]
    ensures !StartsWith(KeySetting + key, EndpointPrefix)
  {
    var first := EndpointSetting + endpoint;
    var second := KeySetting + key;
    assert AccountConnectionString(endpoint, key) == first + [';'] + second;
    SplitAround(first, ';', second);
    assert ';' !in EndpointSetting && ';' !in KeySetting;
    assert ';' !in first && ';' !in second;
    SplitWithoutSeparator(first, ';');
    SplitWithoutSeparator(second, ';');
    assert KeySetting[7] == 'K' && EndpointSetting[7] == 'E';
    assert second[7] == KeySetting[7] && EndpointPrefix[7] == EndpointSetting[7];
  }

  /** The account name read from `AccountEndpoint=<e>;AccountKey=<k>` depends on
      the endpoint alone. */
  lemma InstanceNameIgnoresKey(endpoint: string, key: string)
    requires ';' !in endpoint && ';' !in key
    ensures var first := EndpointSetting + endpoint;
            InstanceName(Some(AccountConnectionString(endpoint, key)))
              == if StartsWith(first, EndpointPrefix) then Some(StripEndpoint(first)) else None
  {
    AccountConnectionParts(endpoint, key);
    var parts := Split(AccountConnectionString(endpoint, key), ';');
    assert ';' in AccountConnectionString(endpoint, key) by {
      assert AccountConnectionString(endpoint, key)[|EndpointSetting + endpoint|] == ';';
    }
  }
}

=== FILE: errors.dfy ===
/** The exceptions the storage layer throws or lets through, as values. */
module Errors {
  import opened Wrappers

  datatype Exception =
      /** `InvalidOperationException`, optionally wrapping the exception that caused it. */
    | InvalidOperation(message: string, innerException: Option<Exception>)
      /** `CosmosException` raised by the document store, with its HTTP status code. */
    | Cosmos(status: int, message: string)
      /** `AggregateException` carrying every failure of a batch. */
    | Aggregate(innerExceptions: seq<Exception>)
      /** The validation exception `ThrowIfInvalid` raises, listing the unset fields. */
    | Validation(fields: seq<string>)
      /** `ArgumentNullException` for the named parameter. */
    | ArgumentNull(param: string)
      /** Any other exception escaping a collaborator (network, identity provider, ...). */
    | Other(message: string)

  /** The `Message` text of an exception. */
  function Message(e: Exception): string {
    match e
    case InvalidOperation(m, _) => m
    case Cosmos(_, m) => m
    case Aggregate(_) => "One or more errors occurred."
    case Validation(_) => "Validation failed."
    case ArgumentNull(p) => "Value cannot be null. (Parameter '" + p + "')"
    case Other(m) => m
  }
}

=== FILE: keycodec.dfy ===
/** The record-key convention: a caller's key is `"<partition>/<id>"` or a bare
    `"<id>"`; a key with more than one `/` is rejected. */
module KeyCodec {
  import opened Wrappers
  import opened Strings
  import opened Errors

  const Separator: char := '/'

  const MalformedKeyMessage: string :=
    "Key and partition key cannot be parsed because there is more than one /"

  /** What `ExtractPartitionKey` (and `CreateTable`) throw for a key with two or more `/`. */
  const MalformedKey: Exception := InvalidOperation(MalformedKeyMessage, None)

  /** The store's partition key: `PartitionKey.None` or a partition value. */
  datatype PartitionKey = NoPartition | Partition(value: string)

  /** A decoded key: the partition it names and the bare record id. */
  datatype ParsedKey = ParsedKey(partition: PartitionKey, id: string)

  /** Splits a caller's key into partition and id (`ExtractPartitionKey`).
      No `/` leaves the key whole with no partition; one `/` gives
      (left, right); more than one throws `InvalidOperationException`. */
  function ExtractPartitionKey(key: string): (r: Result<ParsedKey, Exception>)
    ensures r.Failure? <==> multiset(key)[Separator] >= 2
    ensures r.Failure? ==> r.error == MalformedKey
    ensures r.Success? ==> Separator !in r.value.id && WellFormed(r.value)
    ensures r.Success? ==> Encode(r.value) == key
    ensures r.Success? ==> (r.value.partition.NoPartition? <==> Separator !in key)
  {
    if Separator in key then
      var parts := Split(key, Separator);
      SplitCount(key, Separator);
      JoinSplit(key, Separator);
      if |parts| > 2 then Failure(MalformedKey)
      else
        assert Join(parts, Separator) == parts[0] + [Separator] + parts[1];
        Success(ParsedKey(Partition(parts[0]), parts[1]))
    else
      Success(ParsedKey(NoPartition, key))
  }

  /** Neither the partition value nor the id contains the separator. */
  predicate WellFormed(k: ParsedKey) {
    Separator !in k.id && (k.partition.Partition? ==> Separator !in k.partition.value)
  }

  /** The caller-facing key for a partition and id: the inverse of `ExtractPartitionKey`. */
  function Encode(k: ParsedKey): string {
    match k.partition
    case NoPartition => k.id
    case Partition(p) => p + [Separator] + k.id
  }

  /** Decoding an encoded well-formed key gives back its partition and id. */
  lemma DecodeEncode(k: ParsedKey)
    requires WellFormed(k)
    ensures ExtractPartitionKey(Encode(k)) == Success(k)
  {
    match k.partition
    case NoPartition =>
    case Partition(p) =>
      var key := Encode(k);
      SplitAround(p, Separator, k.id);
      SplitWithoutSeparator(p, Separator);
      SplitWithoutSeparator(k.id, Separator);
      assert key[|p|] == Separator;
  }

  /** `"a/b/c"` is rejected. */
  lemma TwoSeparatorsRejected()
    ensures ExtractPartitionKey("a/b/c") == Failure(MalformedKey)
  {
    assert "a/b/c" == ['a', Separator, 'b', Separator, 'c'];
    assert multiset("a/b/c")[Separator] == 2;
  }
}

=== FILE: paging.dfy ===
/** The paging loop shared by `ListEntitiesObservable` and `Counter`.

    The document store answers a query page by page; a page carries its
    results and whether more follow. The loop checks the caller's
    cancellation source at the start of every pass; if it has been
    cancelled the loop stops, otherwise it reads a page, emits its results,
    and goes round again while more results follow. When the loop ends the
    observable completes, whether it ended by cancellation or by reaching
    the last page. When a read throws (a missing table, a store error), the
    exception escapes the loop: the observable raises `OnError` after the
    results already emitted and never completes, and `Counter` rethrows it
    after the running totals it has already reported.

    The loop is modelled over an oracle `served`: the page the pass numbered
    `k` receives is `served[k]`, unless `k in faults`, in which case the read
    of pass `k` throws `faults[k]`. Which page a pass receives depends on how
    the iterator is obtained: the source asks the container for a NEW
    iterator on every pass, so every pass receives the query's first page
    again (`FreshIteratorPages`); one iterator created before the loop would
    receive the pages in order (`ResumedIteratorPages`). When the oracle runs
    out before the loop ends, the result says so (`completed == false` and no
    failure): the loop would still be running. */
module Paging {
  import opened Wrappers
  import opened Errors

  /** One response of `ReadNextAsync`: its results and `HasMoreResults` after it. */
  datatype Page<T> = Page(items: seq<T>, hasMore: bool)

  /** The caller's `CancellationTokenSource`: absent (`null`), or a source
      whose cancellation state at the start of pass `k` is `cancelled[k]`
      (not cancelled beyond the end of the list). */
  datatype Token = NoToken | Source(cancelled: seq<bool>)

  /** The source the loop checks has been cancelled when pass `pass` starts. */
  predicate Cancelled(tok: Token, pass: nat) {
    tok.Source? && pass < |tok.cancelled| && tok.cancelled[pass]
  }

  /** `new CancellationTokenSource()`: a source nobody else holds, so never cancelled. */
  const FreshToken: Token := Source([])

  lemma FreshTokenNeverCancelled(pass: nat)
    ensures !Cancelled(FreshToken, pass)
  {
  }

  /** All results of a run of pages, in order. */
  function Flatten<T>(pages: seq<Page<T>>): (r: seq<T>)
  {
    if |pages| == 0 then [] else pages[0].items + Flatten(pages[1..])
  }

  /** The pages a query answers with, as one iterator reads them: at least
      one page, every page but the last saying more results follow. */
  predicate Complete<T>(pages: seq<Page<T>>) {
    && |pages| > 0
    && (forall k | 0 <= k < |pages| - 1 :: pages[k].hasMore)
    && !pages[|pages| - 1].hasMore
  }

  /** What a run of the loop did: the results it emitted, the number of pages
      it read, whether the loop ended normally within the oracle, and the
      exception a read threw, if one did. */
  datatype Drained<T> = Drained(emitted: seq<T>, fetches: nat, completed: bool, failure: Option<Exception>)

  /** The pages a run from pass `pass` read: they lie within the oracle, no
      pass reading them was cancelled or threw, each but the last says more
      results follow, and the results emitted are theirs, in order. */
  ghost predicate ReadPages<T>(served: seq<Page<T>>, tok: Token, faults: map<nat, Exception>, pass: nat, d: Drained<T>) {
    && pass + d.fetches <= |served|
    && d.emitted == Flatten(served[pass..pass + d.fetches])
    && (forall k | pass <= k < pass + d.fetches :: !Cancelled(tok, k) && k !in faults)
    && (forall k | pass <= k < pass + d.fetches - 1 :: served[k].hasMore)
  }

  /** How a run from pass `pass` ended: it completed exactly when the last
      page read says no more follow or the next pass is cancelled; a failure
      is the exception of the read right after the pages read; otherwise the
      oracle ran out. */
  ghost predicate EndedAs<T>(served: seq<Page<T>>, tok: Token, faults: map<nat, Exception>, pass: nat, d: Drained<T>)
    requires pass + d.fetches <= |served|
  {
    && (d.completed <==> (d.fetches > 0 && !served[pass + d.fetches - 1].hasMore) || Cancelled(tok, pass + d.fetches))
    && (d.failure.Some? ==> && !d.completed && pass + d.fetches < |served|
                            && !Cancelled(tok, pass + d.fetches)
                            && pass + d.fetches in faults && d.failure.value == faults[pass + d.fetches])
    && (!d.completed && d.failure.None? ==> pass + d.fetches == |served|)
  }

  /** A pass that reads a page saying more follow, in front of a run from
      the next pass, reads that page and then the run's pages. */
  lemma ReadPagesCons<T>(served: seq<Page<T>>, tok: Token, faults: map<nat, Exception>, pass: nat, rest: Drained<T>)
    requires pass < |served| && !Cancelled(tok, pass) && pass !in faults && served[pass].hasMore
    requires ReadPages(served, tok, faults, pass + 1, rest)
    ensures ReadPages(served, tok, faults, pass, Drained(served[pass].items + rest.emitted, rest.fetches + 1, rest.completed, rest.failure))
  {
    assert served[pass..pass + 1 + rest.fetches][1..] == served[pass + 1..pass + 1 + rest.fetches];
  }

  /** Such a pass ends the way the run from the next pass ends. */
  lemma EndedAsCons<T>(served: seq<Page<T>>, tok: Token, faults: map<nat, Exception>, pass: nat, rest: Drained<T>)
    requires pass < |served| && !Cancelled(tok, pass) && pass !in faults && served[pass].hasMore
    requires pass + 1 + rest.fetches <= |served| && EndedAs(served, tok, faults, pass + 1, rest)
    ensures EndedAs(served, tok, faults, pass, Drained(served[pass].items + rest.emitted, rest.fetches + 1, rest.completed, rest.failure))
  {
  }

  /** The paging loop from pass `pass` on. */
  function Drain<T>(served: seq<Page<T>>, tok: Token, faults: map<nat, Exception>, pass: nat): (d: Drained<T>)
    requires pass <= |served|
    ensures pass + d.fetches <= |served|
    ensures d.completed ==> d.failure.None?
    decreases |served| - pass
  {
    if Cancelled(tok, pass) then Drained([], 0, true, None)
    else if pass == |served| then Drained([], 0, false, None)
    else if pass in faults then Drained([], 0, false, Some(faults[pass]))
    else if !served[pass].hasMore then Drained(served[pass].items, 1, true, None)
    else
      var rest := Drain(served, tok, faults, pass + 1);
      Drained(served[pass].items + rest.emitted, rest.fetches + 1, rest.completed, rest.failure)
  }

  /** A pass that is cancelled, finds the oracle exhausted or throws reads
      nothing and ends the run there. */
  lemma DrainStops<T>(served: seq<Page<T>>, tok: Token, faults: map<nat, Exception>, pass: nat)
    requires pass <= |served| && (Cancelled(tok, pass) || pass == |served| || pass in faults)
    ensures ReadPages(served, tok, faults, pass, Drain(served, tok, faults, pass))
    ensures EndedAs(served, tok, faults, pass, Drain(served, tok, faults, pass))
  {
  }

  /** A pass that reads a last page emits its results and completes the run. */
  lemma DrainLastPage<T>(served: seq<Page<T>>, tok: Token, faults: map<nat, Exception>, pass: nat)
    requires pass < |served| && !Cancelled(tok, pass) && pass !in faults && !served[pass].hasMore
    ensures ReadPages(served, tok, faults, pass, Drain(served, tok, faults, pass))
    ensures EndedAs(served, tok, faults, pass, Drain(served, tok, faults, pass))
  {
    assert served[pass..pass + 1] == [served[pass]];
  }

  /** A pass that reads a page saying more follow reads and ends as the run
      from the next pass does, with that page in front. */
  lemma DrainRunsStep<T>(served: seq<Page<T>>, tok: Token, faults: map<nat, Exception>, pass: nat)
    requires pass < |served| && !Cancelled(tok, pass) && pass !in faults && served[pass].hasMore
    requires ReadPages(served, tok, faults, pass + 1, Drain(served, tok, faults, pass + 1))
    requires EndedAs(served, tok, faults, pass + 1, Drain(served, tok, faults, pass + 1))
    ensures ReadPages(served, tok, faults, pass, Drain(served, tok, faults, pass))
    ensures EndedAs(served, tok, faults, pass, Drain(served, tok, faults, pass))
  {
    var rest := Drain(served, tok, faults, pass + 1);
    DrainUnfold(served, tok, faults, pass);
    ReadPagesCons(served, tok, faults, pass, rest);
    EndedAsCons(served, tok, faults, pass, rest);
  }

  /** Every run of the loop reads and ends as described: it emits exactly the
      results of the pages it read, reads only on uncancelled passes whose
      read does not throw, goes on only after pages saying more follow, and
      ends by completing, by a failing read, or at the end of the oracle. */
  lemma {:induction false} DrainRuns<T>(served: seq<Page<T>>, tok: Token, faults: map<nat, Exception>, pass: nat)
    requires pass <= |served|
    ensures ReadPages(served, tok, faults, pass, Drain(served, tok, faults, pass))
    ensures EndedAs(served, tok, faults, pass, Drain(served, tok, faults, pass))
    decreases |served| - pass
  {
    if Cancelled(tok, pass) || pass == |served| || pass in faults {
      DrainStops(served, tok, faults, pass);
    } else if !served[pass].hasMore {
      DrainLastPage(served, tok, faults, pass);
    } else {
      DrainRuns(served, tok, faults, pass + 1);
      DrainRunsStep(served, tok, faults, pass);
    }
  }

  /** A notification the observable raises. */
  datatype Event<T> = OnNext(item: T) | OnError(error: Exception) | OnCompleted

  /** The notifications of a run: one `OnNext` per emitted result, in order,
      then `OnError` once if a read threw, or else `OnCompleted` once if the
      loop ended. */
  function Events<T>(d: Drained<T>): (es: seq<Event<T>>)
    ensures |es| == |d.emitted| + (if d.completed || d.failure.Some? then 1 else 0)
    ensures forall i | 0 <= i < |d.emitted| :: es[i] == OnNext(d.emitted[i])
    ensures forall i | 0 <= i < |es| :: es[i].OnError? <==> d.failure.Some? && i == |es| - 1
    ensures forall i | 0 <= i < |es| :: es[i].OnCompleted? <==> d.completed && d.failure.None? && i == |es| - 1
    ensures d.failure.Some? ==> es[|es| - 1] == OnError(d.failure.value)
  {
    seq(|d.emitted|, i requires 0 <= i < |d.emitted| => OnNext(d.emitted[i]))
      + (if d.failure.Some? then [OnError(d.failure.value)] else if d.completed then [OnCompleted] else [])
  }

  /** The first `n` passes of the loop as written: each pass builds a new
      iterator and so reads the query's first page. */
  function FreshIteratorPages<T>(pages: seq<Page<T>>, n: nat): (served: seq<Page<T>>)
    requires |pages| > 0
    ensures |served| == n && forall k | 0 <= k < n :: served[k] == pages[0]
  {
    seq(n, k => pages[0])
  }

  /** The passes of a loop that keeps one iterator: pass `k` reads page `k`. */
  function ResumedIteratorPages<T>(pages: seq<Page<T>>): seq<Page<T>>
  {
    pages
  }

  /** `ListEntitiesObservable(tableName, filterQuery, token)` as written,
      followed for `n` passes. */
  function ListEntitiesAsWritten<T>(pages: seq<Page<T>>, tok: Token, faults: map<nat, Exception>, n: nat): seq<Event<T>>
    requires |pages| > 0
  {
    Events(Drain(FreshIteratorPages(pages, n), tok, faults, 0))
  }

  /** `ListEntitiesObservable(tableName, filterQuery, token)` with the query
      iterator created once, before the loop, so that it reads every page. */
  function ListEntitiesAllPages<T>(pages: seq<Page<T>>, tok: Token, faults: map<nat, Exception>): seq<Event<T>>
  {
    Events(Drain(ResumedIteratorPages(pages), tok, faults, 0))
  }

  /** `n` copies of a list, one after the other. */
  function Repeat<T>(xs: seq<T>, n: nat): (r: seq<T>)
    ensures |r| == n * |xs|
  {
    if n == 0 then [] else xs + Repeat(xs, n - 1)
  }

  /** As written, a query whose first page says more results follow never
      completes while nobody cancels it and no read throws, and every pass
      emits the first page's results again: after `n` passes they have been
      emitted `n` times and the later pages never. */
  lemma {:induction false} AsWrittenRepeatsFirstPage<T>(pages: seq<Page<T>>, tok: Token, faults: map<nat, Exception>, n: nat, pass: nat)
    requires |pages| > 0 && pages[0].hasMore && pass <= n
    requires forall k | pass <= k <= n :: !Cancelled(tok, k)
    requires forall k | pass <= k < n :: k !in faults
    ensures Drain(FreshIteratorPages(pages, n), tok, faults, pass) == Drained(Repeat(pages[0].items, n - pass), n - pass, false, None)
    decreases n - pass
  {
    if pass < n {
      AsWrittenRepeatsFirstPage(pages, tok, faults, n, pass + 1);
      DrainUnfold(FreshIteratorPages(pages, n), tok, faults, pass);
    }
  }

  /** As written, the observable of such a query raises only `OnNext`, one
      per result of the first page on each pass: after `n` passes it has
      neither completed nor failed. */
  lemma AsWrittenNeverCompletes<T>(pages: seq<Page<T>>, tok: Token, faults: map<nat, Exception>, n: nat)
    requires |pages| > 0 && pages[0].hasMore
    requires forall k | 0 <= k <= n :: !Cancelled(tok, k)
    requires forall k | 0 <= k < n :: k !in faults
    ensures var es := ListEntitiesAsWritten(pages, tok, faults, n);
            |es| == n * |pages[0].items| && forall i | 0 <= i < |es| :: es[i].OnNext?
  {
    AsWrittenRepeatsFirstPage(pages, tok, faults, n, 0);
  }

  /** With one iterator, a loop nobody cancels and whose reads all succeed
      emits every result of the query exactly once, in order, reads each
      page once, and completes. */
  lemma {:induction false} ResumedEmitsAllOnce<T>(pages: seq<Page<T>>, tok: Token, faults: map<nat, Exception>, pass: nat)
    requires Complete(pages) && pass < |pages|
    requires forall k | pass <= k < |pages| :: !Cancelled(tok, k) && k !in faults
    ensures Drain(ResumedIteratorPages(pages), tok, faults, pass) == Drained(Flatten(pages[pass..]), |pages| - pass, true, None)
    decreases |pages| - pass
  {
    if pass < |pages| - 1 {
      ResumedEmitsAllOnce(pages, tok, faults, pass + 1);
    } else {
      assert pages[pass..] == [pages[pass]];
    }
  }

  /** A read that throws at pass `k`, after uncancelled passes that each read
      a page saying more results follow, ends the loop there: the results of
      the pages before `k` have been emitted, and the exception escapes. */
  lemma {:induction false} ReadFailureStops<T>(served: seq<Page<T>>, tok: Token, faults: map<nat, Exception>, pass: nat, k: nat)
    requires pass <= k < |served| && k in faults
    requires forall j | pass <= j <= k :: !Cancelled(tok, j)
    requires forall j | pass <= j < k :: j !in faults && served[j].hasMore
    ensures var d := Drain(served, tok, faults, pass);
            d.fetches == k - pass && d.emitted == Flatten(served[pass..k]) && !d.completed && d.failure == Some(faults[k])
    decreases k - pass
  {
    if pass < k {
      ReadFailureStops(served, tok, faults, pass + 1, k);
    }
  }

  /** The observable of such a run raises `OnNext` for each result of the
      pages before `k`, in order, then `OnError` with the read's exception,
      and never `OnCompleted`. */
  lemma ReadFailureRaisesOnError<T>(pages: seq<Page<T>>, tok: Token, faults: map<nat, Exception>, k: nat)
    requires k < |pages| && k in faults
    requires forall j | 0 <= j <= k :: !Cancelled(tok, j)
    requires forall j | 0 <= j < k :: j !in faults && pages[j].hasMore
    ensures var es := ListEntitiesAllPages(pages, tok, faults);
            var before := Flatten(pages[..k]);
            && |es| == |before| + 1
            && (forall i | 0 <= i < |before| :: es[i] == OnNext(before[i]))
            && es[|before|] == OnError(faults[k])
  {
    ReadFailureStops(pages, tok, faults, 0, k);
    assert pages[0..k] == pages[..k];
  }

  /** A caller who cancels before the first pass gets no result and one completion. */
  lemma CancelledBeforeStart<T>(pages: seq<Page<T>>, tok: Token, faults: map<nat, Exception>)
    requires Cancelled(tok, 0)
    ensures ListEntitiesAllPages(pages, tok, faults) == [OnCompleted]
  {
  }

  /** Cancelling stops the loop at the next pass: a loop cancelled at pass
      `c` reads no page from pass `c` on, and it ends, by completing unless
      an earlier read threw. */
  lemma CancellationStops<T>(served: seq<Page<T>>, tok: Token, faults: map<nat, Exception>, c: nat)
    requires c <= |served| && Cancelled(tok, c)
    ensures var d := Drain(served, tok, faults, 0);
            d.fetches <= c && (d.completed || d.failure.Some?)
  {
    DrainRuns(served, tok, faults, 0);
  }

  /** What the counting loop (`Counter`) produced: the count, the running
      totals handed to the `countIncrement` callback, one per page read,
      whether it ended normally within the oracle, and the exception it
      rethrows, if a read threw. */
  datatype Counted = Counted(count: int, totals: seq<int>, completed: bool, failure: Option<Exception>)

  /** `Counter` from pass `pass` on, having counted `acc` so far: the same
      loop, adding each page's number of results and reporting the total. */
  function Count<T>(served: seq<Page<T>>, tok: Token, faults: map<nat, Exception>, pass: nat, acc: int): (c: Counted)
    requires pass <= |served|
    ensures acc <= c.count
    ensures |c.totals| > 0 ==> c.totals[|c.totals| - 1] == c.count
    ensures forall i | 0 <= i < |c.totals| :: acc <= c.totals[i]
    ensures forall i, j | 0 <= i <= j < |c.totals| :: c.totals[i] <= c.totals[j]
    decreases |served| - pass
  {
    if Cancelled(tok, pass) then Counted(acc, [], true, None)
    else if pass == |served| then Counted(acc, [], false, None)
    else if pass in faults then Counted(acc, [], false, Some(faults[pass]))
    else
      var total := acc + |served[pass].items|;
      if !served[pass].hasMore then Counted(total, [total], true, None)
      else
        var rest := Count(served, tok, faults, pass + 1, total);
        var ts := [total] + rest.totals;
        assert forall i | 1 <= i < |ts| :: ts[i] == rest.totals[i - 1];
        Counted(rest.count, ts, rest.completed, rest.failure)
  }

  /** A pass that is cancelled, finds the oracle exhausted or throws reads
      nothing, and both loops stop there in the same way. */
  lemma StopUnfold<T>(served: seq<Page<T>>, tok: Token, faults: map<nat, Exception>, pass: nat, acc: int)
    requires pass <= |served| && (Cancelled(tok, pass) || pass == |served| || pass in faults)
    ensures var d := Drain(served, tok, faults, pass);
            var c := Count(served, tok, faults, pass, acc);
            && d.emitted == [] && d.fetches == 0 && c.count == acc && c.totals == []
            && c.completed == d.completed && c.failure == d.failure
  {
  }

  /** A pass that reads a last page emits its results, counts them, and ends both loops. */
  lemma LastPageUnfold<T>(served: seq<Page<T>>, tok: Token, faults: map<nat, Exception>, pass: nat, acc: int)
    requires pass < |served| && !Cancelled(tok, pass) && pass !in faults && !served[pass].hasMore
    ensures var total := acc + |served[pass].items|;
            && Drain(served, tok, faults, pass) == Drained(served[pass].items, 1, true, None)
            && Count(served, tok, faults, pass, acc) == Counted(total, [total], true, None)
  {
  }

  /** A pass that reads a page saying more follow emits that page's results
      in front of the rest of the run. */
  lemma DrainUnfold<T>(served: seq<Page<T>>, tok: Token, faults: map<nat, Exception>, pass: nat)
    requires pass < |served| && !Cancelled(tok, pass) && pass !in faults && served[pass].hasMore
    ensures var rest := Drain(served, tok, faults, pass + 1);
            Drain(served, tok, faults, pass) == Drained(served[pass].items + rest.emitted, rest.fetches + 1, rest.completed, rest.failure)
  {
  }

  /** Such a pass adds that page's size and reports the new total in front of
      the rest of the count. */
  lemma CountUnfold<T>(served: seq<Page<T>>, tok: Token, faults: map<nat, Exception>, pass: nat, acc: int)
    requires pass < |served| && !Cancelled(tok, pass) && pass !in faults && served[pass].hasMore
    ensures var total := acc + |served[pass].items|;
            var rest := Count(served, tok, faults, pass + 1, total);
            Count(served, tok, faults, pass, acc) == Counted(rest.count, [total] + rest.totals, rest.completed, rest.failure)
  {
  }

  /** The results of a non-empty run of pages are the first page's followed by the rest's. */
  lemma FlattenFront<T>(served: seq<Page<T>>, pass: nat, n: nat)
    requires pass < n <= |served|
    ensures |Flatten(served[pass..n])| == |served[pass].items| + |Flatten(served[pass + 1..n])|
  {
    assert served[pass..n][1..] == served[pass + 1..n];
  }

  /** `total` is `acc` plus the results of the first `i + 1` pages from pass `pass`. */
  ghost predicate TotalAfter<T>(served: seq<Page<T>>, pass: nat, acc: int, i: int, total: int) {
    0 <= i && pass + i < |served| && total == acc + |Flatten(served[pass..pass + i + 1])|
  }

  /** Each `totals[i]` is the total after the first `i + 1` pages from pass `pass`. */
  ghost predicate RunningTotals<T>(served: seq<Page<T>>, pass: nat, acc: int, totals: seq<int>) {
    forall i | 0 <= i < |totals| :: TotalAfter(served, pass, acc, i, totals[i])
  }

  /** One of the running totals. */
  lemma RunningTotalAt<T>(served: seq<Page<T>>, pass: nat, acc: int, totals: seq<int>, i: nat)
    requires RunningTotals(served, pass, acc, totals) && i < |totals|
    ensures pass + i < |served| && totals[i] == acc + |Flatten(served[pass..pass + i + 1])|
  {
    assert TotalAfter(served, pass, acc, i, totals[i]);
  }

  /** The `i`-th of one page's total followed by the running totals of the
      rest is a running total from that page on. */
  lemma RunningTotalsConsAt<T>(served: seq<Page<T>>, pass: nat, acc: int, rest: seq<int>, i: nat)
    requires pass < |served| && RunningTotals(served, pass + 1, acc + |served[pass].items|, rest)
    requires i < 1 + |rest|
    ensures TotalAfter(served, pass, acc, i, ([acc + |served[pass].items|] + rest)[i])
  {
    if i == 0 {
      FlattenFront(served, pass, pass + 1);
      assert served[pass + 1..pass + 1] == [];
    } else {
      RunningTotalAt(served, pass + 1, acc + |served[pass].items|, rest, i - 1);
      assert served[pass + 1..pass + 1 + (i - 1) + 1] == served[pass + 1..pass + i + 1];
      FlattenFront(served, pass, pass + i + 1);
    }
  }

  /** Reporting one page's total in front of the running totals of the rest
      keeps them running totals. */
  lemma RunningTotalsCons<T>(served: seq<Page<T>>, pass: nat, acc: int, rest: seq<int>)
    requires pass < |served| && RunningTotals(served, pass + 1, acc + |served[pass].items|, rest)
    ensures RunningTotals(served, pass, acc, [acc + |served[pass].items|] + rest)
  {
    var ts := [acc + |served[pass].items|] + rest;
    forall i | 0 <= i < |ts|
      ensures TotalAfter(served, pass, acc, i, ts[i])
    {
      RunningTotalsConsAt(served, pass, acc, rest, i);
    }
  }

  /** The report after the `i`-th page read is the results counted so far
      plus those of the first `i + 1` pages read. */
  lemma {:induction false} CountRunningTotals<T>(served: seq<Page<T>>, tok: Token, faults: map<nat, Exception>, pass: nat, acc: int)
    requires pass <= |served|
    ensures RunningTotals(served, pass, acc, Count(served, tok, faults, pass, acc).totals)
    decreases |served| - pass
  {
    var totals := Count(served, tok, faults, pass, acc).totals;
    if Cancelled(tok, pass) || pass == |served| || pass in faults {
      assert totals == [] by {
        StopUnfold(served, tok, faults, pass, acc);
      }
    } else if !served[pass].hasMore {
      var total := acc + |served[pass].items|;
      assert RunningTotals(served, pass, acc, totals) by {
        LastPageUnfold(served, tok, faults, pass, acc);
        assert totals == [total] + [];
        RunningTotalsCons(served, pass, acc, []);
      }
    } else {
      var total := acc + |served[pass].items|;
      assert RunningTotals(served, pass, acc, totals) by {
        var rest := Count(served, tok, faults, pass + 1, total).totals;
        CountUnfold(served, tok, faults, pass, acc);
        assert totals == [total] + rest;
        CountRunningTotals(served, tok, faults, pass + 1, total);
        RunningTotalsCons(served, pass, acc, rest);
      }
    }
  }

  /** The counting loop counts exactly the results the listing loop emits
      over the same pages, reports once per page read, and ends, or throws,
      when it does. */
  lemma {:induction false} CountMatchesDrain<T>(served: seq<Page<T>>, tok: Token, faults: map<nat, Exception>, pass: nat, acc: int)
    requires pass <= |served|
    ensures var c := Count(served, tok, faults, pass, acc);
            var d := Drain(served, tok, faults, pass);
            && c.count == acc + |d.emitted| && |c.totals| == d.fetches
            && c.completed == d.completed && c.failure == d.failure
    decreases |served| - pass
  {
    if Cancelled(tok, pass) || pass == |served| || pass in faults {
      StopUnfold(served, tok, faults, pass, acc);
    } else if !served[pass].hasMore {
      LastPageUnfold(served, tok, faults, pass, acc);
    } else {
      var total := acc + |served[pass].items|;
      var c, d := Count(served, tok, faults, pass + 1, total), Drain(served, tok, faults, pass + 1);
      CountMatchesDrain(served, tok, faults, pass + 1, total);
      assert Drain(served, tok, faults, pass) == Drained(served[pass].items + d.emitted, d.fetches + 1, d.completed, d.failure) by {
        DrainUnfold(served, tok, faults, pass);
      }
      assert Count(served, tok, faults, pass, acc) == Counted(c.count, [total] + c.totals, c.completed, c.failure) by {
        CountUnfold(served, tok, faults, pass, acc);
      }
    }
  }

  /** A read that throws at pass `k` makes `Counter` rethrow it after it has
      reported one running total for each of the `k` pages before, the last
      being their number of results. */
  lemma CountReadFailure<T>(pages: seq<Page<T>>, tok: Token, faults: map<nat, Exception>, k: nat)
    requires 0 < k < |pages| && k in faults
    requires forall j | 0 <= j <= k :: !Cancelled(tok, j)
    requires forall j | 0 <= j < k :: j !in faults && pages[j].hasMore
    ensures var c := Count(ResumedIteratorPages(pages), tok, faults, 0, 0);
            && c.failure == Some(faults[k]) && !c.completed
            && |c.totals| == k && c.totals[k - 1] == |Flatten(pages[..k])|
  {
    ReadFailureStops(pages, tok, faults, 0, k);
    CountMatchesDrain(pages, tok, faults, 0, 0);
    assert pages[0..k] == pages[..k];
  }

  /** As written, counting a query whose first page says more results follow
      adds the first page again on every pass: after `n` uncancelled passes
      without a failing read, the count is `n` times the first page's size. */
  lemma AsWrittenCountGrows<T>(pages: seq<Page<T>>, tok: Token, faults: map<nat, Exception>, n: nat)
    requires |pages| > 0 && pages[0].hasMore
    requires forall k | 0 <= k <= n :: !Cancelled(tok, k)
    requires forall k | 0 <= k < n :: k !in faults
    ensures var c := Count(FreshIteratorPages(pages, n), tok, faults, 0, 0);
            c.count == n * |pages[0].items| && !c.completed && c.failure.None?
  {
    AsWrittenRepeatsFirstPage(pages, tok, faults, n, 0);
    CountMatchesDrain(FreshIteratorPages(pages, n), tok, faults, 0, 0);
  }

  /** With one iterator, an uncancelled count whose reads all succeed is the
      number of results of the query. */
  lemma ResumedCountsAll<T>(pages: seq<Page<T>>, tok: Token, faults: map<nat, Exception>)
    requires Complete(pages)
    requires forall k | 0 <= k < |pages| :: !Cancelled(tok, k) && k !in faults
    ensures var c := Count(ResumedIteratorPages(pages), tok, faults, 0, 0);
            c.count == |Flatten(pages)| && c.completed && c.failure.None?
  {
    ResumedEmitsAllOnce(pages, tok, faults, 0);
    CountMatchesDrain(ResumedIteratorPages(pages), tok, faults, 0, 0);
    assert pages[0..] == pages;
  }
}

=== FILE: query.dfy ===
/** The query texts the listing and counting overloads build, and which
    cancellation source each overload hands to the paging loop. */
module Query {
  import opened Wrappers
  import opened Strings
  import opened Errors
  import opened Paging

  const Quote: char := '\''

  /** One selected column, `c['<column>']`. */
  function Column(name: string): string {
    "c[" + [Quote] + name + [Quote] + "]"
  }

  /** The projection of `SELECT <cols> FROM c`: `*` when no column is
      selected, otherwise the formatted columns joined by `", "`. */
  function ColumnList(columns: seq<string>): (r: string)
    ensures |columns| == 0 <==> r == "*"
    ensures |columns| > 0 ==> StartsWith(r, "c[" + [Quote])
  {
    if |columns| == 0 then "*" else Projection(columns)
  }

  /** `string.Join(", ", formattedColumns)` for a non-empty list. */
  function Projection(columns: seq<string>): (r: string)
    requires |columns| > 0
    ensures |r| >= |Column(columns[0])|
    ensures r[..|Column(columns[0])|] == Column(columns[0])
  {
    if |columns| == 1 then Column(columns[0])
    else Column(columns[0]) + ", " + Projection(columns[1..])
  }

  /** The elements at odd positions: the text between the 1st and 2nd
      quote, the 3rd and 4th, and so on, when a text is split at quotes. */
  function Odds<T>(xs: seq<T>): (r: seq<T>)
    ensures |r| == |xs| / 2
  {
    if |xs| < 2 then [] else [xs[1]] + Odds(xs[2..])
  }

  /** Reading the column names back out of a projection: the quoted parts. */
  function ColumnNames(projection: string): seq<string> {
    Odds(Split(projection, Quote))
  }

  /** A quoted part between two quote-free texts splits off as its own element. */
  lemma SplitQuoted(head: string, name: string, tail: string)
    requires Quote !in head && Quote !in name
    ensures Split(head + [Quote] + name + [Quote] + tail, Quote) == [head, name] + Split(tail, Quote)
  {
    assert head + [Quote] + name + [Quote] + tail == head + [Quote] + (name + [Quote] + tail);
    SplitAround(head, Quote, name + [Quote] + tail);
    SplitAround(name, Quote, tail);
    SplitWithoutSeparator(head, Quote);
    SplitWithoutSeparator(name, Quote);
  }

  /** A formatted column between two texts, regrouped around its two quotes. */
  lemma ColumnParts(prefix: string, name: string, tail: string)
    ensures prefix + (Column(name) + tail) == (prefix + "c[") + [Quote] + name + [Quote] + ("]" + tail)
  {
  }

  /** What splitting `prefix + Projection(columns)` at quotes gives: the
      prefix followed by `c[`, then each column name, each followed by the
      text up to the next quote. */
  ghost predicate SplitsIntoColumns(prefix: string, columns: seq<string>)
    requires |columns| > 0
  {
    var parts := Split(prefix + Projection(columns), Quote);
    |parts| >= 2 && parts[0] == prefix + "c[" && Odds(parts) == columns
  }

  /** A single column splits into the prefix, the name and the closing bracket. */
  lemma SplitOneColumn(prefix: string, name: string)
    requires Quote !in prefix && Quote !in name
    ensures SplitsIntoColumns(prefix, [name])
  {
    var head := prefix + "c[";
    var tail := "]";
    ColumnParts(prefix, name, "");
    assert Column(name) + "" == Projection([name]);
    assert "]" + "" == tail;
    SplitQuoted(head, name, tail);
    SplitWithoutSeparator(tail, Quote);
    var parts := Split(prefix + Projection([name]), Quote);
    assert parts == [head, name, tail];
    assert Odds(parts) == [name] + Odds([tail]);
  }

  /** A first column in front of columns that split correctly after `"], "`
      splits correctly. */
  lemma SplitMoreColumns(prefix: string, columns: seq<string>)
    requires |columns| > 1 && Quote !in prefix && Quote !in columns[0]
    requires SplitsIntoColumns("], ", columns[1..])
    ensures SplitsIntoColumns(prefix, columns)
  {
    var name := columns[0];
    var head := prefix + "c[";
    var rest := columns[1..];
    var tail := "], " + Projection(rest);
    ColumnParts(prefix, name, ", " + Projection(rest));
    assert Column(name) + (", " + Projection(rest)) == Projection(columns);
    assert "]" + (", " + Projection(rest)) == tail;
    SplitQuoted(head, name, tail);
    var parts := Split(prefix + Projection(columns), Quote);
    assert parts[2..] == Split(tail, Quote);
    assert columns == [name] + rest;
  }

  /** Column names without quotes split back out of the projection, in order. */
  lemma {:induction false} SplitProjection(prefix: string, columns: seq<string>)
    requires |columns| > 0 && Quote !in prefix
    requires forall i | 0 <= i < |columns| :: Quote !in columns[i]
    ensures SplitsIntoColumns(prefix, columns)
    decreases |columns|
  {
    if |columns| == 1 {
      SplitOneColumn(prefix, columns[0]);
      assert columns == [columns[0]];
    } else {
      var rest := columns[1..];
      assert forall i | 0 <= i < |rest| :: rest[i] == columns[i + 1];
      SplitProjection("], ", rest);
      SplitMoreColumns(prefix, columns);
    }
  }

  /** The projection round-trips: for column names without quotes, reading
      the quoted parts of the projection gives back the columns, in order. */
  lemma ColumnNamesRoundTrip(columns: seq<string>)
    requires |columns| > 0
    requires forall i | 0 <= i < |columns| :: Quote !in columns[i]
    ensures ColumnNames(ColumnList(columns)) == columns
  {
    SplitProjection("", columns);
    assert "" + Projection(columns) == Projection(columns);
  }

  const WhereKeyword: string := "where "

  /** The filter clause appended after `FROM c`: empty for a null or empty
      filter, the filter itself when its lower-cased form contains
      `"where "`, and otherwise a bare `"WHERE "` (the caller's filter is
      dropped). */
  function CleanFilter(filter: Option<string>): (r: string)
    ensures filter.None? || |filter.value| == 0 ==> r == ""
    ensures filter.Some? && |filter.value| > 0 && Contains(ToLower(filter.value), WhereKeyword) ==> r == filter.value
    ensures filter.Some? && |filter.value| > 0 && !Contains(ToLower(filter.value), WhereKeyword) ==> r == "WHERE "
  {
    if filter.None? || |filter.value| == 0 then ""
    else if Contains(ToLower(filter.value), WhereKeyword) then filter.value
    else "WHERE "
  }

  /** The replacement clause itself contains the keyword. */
  lemma WhereClauseContainsKeyword()
    ensures Contains(ToLower("WHERE "), WhereKeyword)
  {
    assert ToLower("WHERE ")[0..|WhereKeyword|] == WhereKeyword;
    assert OccursAt(ToLower("WHERE "), WhereKeyword, 0);
  }

  /** Cleaning is idempotent, and a cleaned clause is empty or mentions `where`. */
  lemma CleanFilterIdempotent(filter: Option<string>)
    ensures CleanFilter(Some(CleanFilter(filter))) == CleanFilter(filter)
    ensures CleanFilter(filter) == "" || Contains(ToLower(CleanFilter(filter)), WhereKeyword)
  {
    WhereClauseContainsKeyword();
  }

  /** The query `ListEntitiesObservable(tableName, selectColumns, filterQuery, token)`
      runs: the projection, then a condition that is empty or mentions
      `where`, and that is the caller's own filter whenever that one does. */
  function SelectText(columns: seq<string>, filter: Option<string>): (r: string)
    ensures StartsWith(r, "SELECT " + ColumnList(columns) + " FROM c ")
    ensures var condition := r[|"SELECT " + ColumnList(columns) + " FROM c "|..];
            condition == "" || Contains(ToLower(condition), WhereKeyword)
    ensures filter.Some? && Contains(ToLower(filter.value), WhereKeyword) ==> EndsWith(r, filter.value)
  {
    CleanFilterIdempotent(filter);
    var head := "SELECT " + ColumnList(columns) + " FROM c ";
    assert (head + CleanFilter(filter))[|head|..] == CleanFilter(filter);
    head + CleanFilter(filter)
  }

  /** A selection without columns or filter reads every column of every record. */
  lemma SelectAllText()
    ensures SelectText([], None) == "SELECT * FROM c "
  {
  }

  /** What a listing overload hands to the paging loop: the query text and
      the cancellation source the loop checks. */
  datatype Plan = Plan(query: string, token: Token)

  const SelectAll: string := "SELECT * FROM c"

  /** `ListEntities(tableName, token)` and `ListEntitiesObservable(tableName,
      token)`: every record, under a new cancellation source; the caller's
      source is not used. */
  function ListAll(token: Token): (p: Plan)
    ensures p.query == SelectAll && forall pass: nat :: !Cancelled(p.token, pass)
  {
    Plan(SelectAll, FreshToken)
  }

  /** `ListEntitiesObservable(tableName, filterQuery, token)` runs the
      caller's query, verbatim, under the caller's source:
      `Plan(filterQuery, token)`. It is the listing a caller can stop: under
      a source cancelled before the first pass it reads nothing and only
      completes.
      The overload that replaces the caller's source, given the same
      cancelled source, reads every page and emits every result. */
  lemma CallerCancellationHonoured<T>(filterQuery: string, tok: Token, pages: seq<Page<T>>, faults: map<nat, Exception>)
    requires Cancelled(tok, 0)
    ensures ListEntitiesAllPages(pages, Plan(filterQuery, tok).token, faults) == [OnCompleted]
    ensures Complete(pages) && (forall k | 0 <= k < |pages| :: k !in faults) ==>
              Drain(ResumedIteratorPages(pages), ListAll(tok).token, faults, 0) == Drained(Flatten(pages), |pages|, true, None)
  {
    if Complete(pages) && forall k | 0 <= k < |pages| :: k !in faults {
      ResumedEmitsAllOnce(pages, ListAll(tok).token, faults, 0);
      assert pages[0..] == pages;
    }
  }

  /** `ListEntitiesObservable(tableName, selectColumns, filterQuery, token)`:
      the built selection under a new cancellation source; the caller's
      source is not used. */
  function ListColumns(columns: seq<string>, filter: Option<string>, token: Token): (p: Plan)
    ensures p.query == SelectText(columns, filter) && forall pass: nat :: !Cancelled(p.token, pass)
  {
    Plan(SelectText(columns, filter), FreshToken)
  }

  /** `ListEntitiesObservable(tableName, selectColumns, token)`: the column
      selection with a null filter. */
  function ListColumnsOnly(columns: seq<string>, token: Token): (p: Plan)
    ensures p.query == "SELECT " + ColumnList(columns) + " FROM c "
  {
    ListColumns(columns, None, token)
  }

  /** The overloads that take a caller's cancellation source but run under a
      new one behave the same whatever source the caller passes: cancelling
      it has no effect. */
  lemma CallerTokenIgnored(columns: seq<string>, filter: Option<string>, t1: Token, t2: Token)
    ensures ListAll(t1) == ListAll(t2)
    ensures ListColumns(columns, filter, t1) == ListColumns(columns, filter, t2)
    ensures ListColumnsOnly(columns, t1) == ListColumnsOnly(columns, t2)
  {
  }

  const CountAll: string := "SELECT c.id FROM c"

  /** The condition the key-counting query adds to `CountAll`, up to the key's opening quote. */
  const ContainsCondition: string := " WHERE CONTAINS(ToString(c), "

  /** The text before the key in the key-counting query, up to its opening quote. */
  const CountKeyHead: string := CountAll + ContainsCondition

  /** `CountItems(tableName, key)`'s query: the key is spliced into a quoted
      literal unescaped. */
  function CountKeyQuery(key: string): (q: string)
    ensures |q| == |CountKeyHead| + |key| + 3
    ensures q[|CountKeyHead| + 1..|CountKeyHead| + 1 + |key|] == key
  {
    CountKeyHead + [Quote] + key + [Quote] + ")"
  }

  lemma CountKeyHeadUnquoted()
    ensures Quote !in CountKeyHead
  {
    assert Quote !in CountAll;
    assert Quote !in ContainsCondition;
  }

  /** A text with two quotes of its own around `key` splits into more than
      three parts exactly when the key holds a quote. */
  lemma QuotedPartCount(head: string, key: string, tail: string)
    requires Quote !in head && Quote !in tail
    ensures |Split(head + [Quote] + key + [Quote] + tail, Quote)| == 3 + multiset(key)[Quote]
  {
    var q := head + [Quote] + key + [Quote] + tail;
    SplitCount(q, Quote);
    assert multiset(q) == multiset(head) + multiset{Quote} + multiset(key) + multiset{Quote} + multiset(tail);
    assert multiset(head)[Quote] == 0 && multiset(tail)[Quote] == 0;
  }

  /** The key-counting query holds exactly one quoted literal, namely the key,
      if and only if the key contains no quote; a key with a quote breaks out
      of the literal. */
  lemma CountKeyLiteral(key: string)
    ensures var parts := Split(CountKeyQuery(key), Quote);
            (|parts| == 3 <==> Quote !in key) && (Quote !in key ==> parts[1] == key)
  {
    CountKeyHeadUnquoted();
    assert Quote !in ")";
    QuotedPartCount(CountKeyHead, key, ")");
    if Quote !in key {
      SplitQuoted(CountKeyHead, key, ")");
    }
  }
}

=== FILE: records.dfy ===
/** Single-record operations of `CosmosStorage`: `GetEntity`, `Exists`,
    `UpsertEntity` and `DeleteEntity`. Each first asks the lifecycle manager
    for its client (the `CosmosClient` getter, module `Client`); when the
    getter has to build a client and cannot, it throws, and that exception,
    `clientFault`, escapes before anything else happens. Each then decodes
    the caller's key outside any exception handler, so a key with two or
    more `/` always throws. */
module Records {
  import opened Wrappers
  import opened Strings
  import opened Errors
  import opened KeyCodec
  import opened Store

  /** `GetEntity`: the stored record, or `None` (null) when the read throws any
      `CosmosException` (not found, or any other store error); a malformed key
      and any non-store exception propagate. */
  function GetEntity(clientFault: Option<Exception>, db: Database, table: string, key: string, fault: Option<Exception>): (r: Result<Option<Entity>, Exception>)
    ensures clientFault.Some? ==> r == Failure(clientFault.value)
    ensures clientFault.None? && ExtractPartitionKey(key).Failure? ==> r == Failure(MalformedKey)
    ensures clientFault.None? && ExtractPartitionKey(key).Success? && fault.None? ==>
              r == Success(Lookup(db, table, RefOf(ExtractPartitionKey(key).value)))
    ensures clientFault.None? && ExtractPartitionKey(key).Success? && fault.Some? ==>
              r == if fault.value.Cosmos? then Success(None) else Failure(fault.value)
  {
    if clientFault.Some? then Failure(clientFault.value) else
    var k :- ExtractPartitionKey(key);
    match ReadItem(db, table, RefOf(k), fault)
    case Success(e) => Success(Some(e))
    case Failure(ex) => if ex.Cosmos? then Success(None) else Failure(ex)
  }

  /** The lower-cased text `Exists` looks for in an exception's message. */
  const ResourceNotFound: string := "resource not found"

  /** `Exists`'s exception filter: the message, lower-cased, mentions a missing resource. */
  predicate IsNotFound(e: Exception) {
    Contains(ToLower(Message(e)), ResourceNotFound)
  }

  /** The store's 404 passes the `Exists` filter. */
  lemma NotFoundErrorIsNotFound()
    ensures IsNotFound(NotFoundError)
  {
    var lower := ToLower(NotFoundMessage);
    assert lower[0..|ResourceNotFound|] == ResourceNotFound;
    assert OccursAt(lower, ResourceNotFound, 0);
  }

  /** `Exists`: true when the read returns a record; false when it throws an
      exception whose message mentions "resource not found" in any case; any
      other exception propagates, and so does a malformed key. */
  function Exists(clientFault: Option<Exception>, db: Database, table: string, key: string, fault: Option<Exception>): (r: Result<bool, Exception>)
    ensures clientFault.Some? ==> r == Failure(clientFault.value)
    ensures clientFault.None? && ExtractPartitionKey(key).Failure? ==> r == Failure(MalformedKey)
    ensures clientFault.None? && ExtractPartitionKey(key).Success? && fault.None? ==>
              r == Success(Lookup(db, table, RefOf(ExtractPartitionKey(key).value)).Some?)
    ensures clientFault.None? && ExtractPartitionKey(key).Success? && fault.Some? ==>
              r == if IsNotFound(fault.value) then Success(false) else Failure(fault.value)
  {
    if clientFault.Some? then Failure(clientFault.value) else
    var k :- ExtractPartitionKey(key);
    NotFoundErrorIsNotFound();
    match ReadItem(db, table, RefOf(k), fault)
    case Success(_) => Success(true)
    case Failure(ex) => if IsNotFound(ex) then Success(false) else Failure(ex)
  }

  /** What `UpsertEntity` leaves behind: the caller's record, whose `Key` it
      may have rewritten, and the outcome of the write. */
  datatype Written = Written(item: Entity, result: Result<Database, Exception>)

  /** `UpsertEntity`: decodes `data.Key`, rewrites it to the bare id, then
      CREATES the record under (id, partition). Despite its name it never
      replaces: a record already stored under that reference is a 409
      conflict, a missing table a 404. A malformed key throws before the
      rewrite. */
  function UpsertEntity(clientFault: Option<Exception>, db: Database, table: string, data: Entity, fault: Option<Exception>): (w: Written)
    ensures clientFault.Some? ==> w == Written(data, Failure(clientFault.value))
    ensures clientFault.None? && ExtractPartitionKey(data.key).Failure? ==> w == Written(data, Failure(MalformedKey))
    ensures clientFault.None? && ExtractPartitionKey(data.key).Success? ==>
              var k := ExtractPartitionKey(data.key).value;
              && w.item == Entity(k.id, data.fields)
              && (fault.None? && table in db ==> (w.result.Success? <==> RefOf(k) !in db[table].items))
              && (fault.None? && table in db && RefOf(k) in db[table].items ==> w.result == Failure(ConflictError))
              && (fault.None? && table !in db ==> w.result == Failure(NotFoundError))
              && (w.result.Success? ==> Lookup(db, table, RefOf(k)).None? && Lookup(w.result.value, table, RefOf(k)) == Some(w.item))
              && (fault.Some? ==> w.result == Failure(fault.value))
    ensures w.result.Success? ==> w.result.value.Keys == db.Keys
  {
    if clientFault.Some? then Written(data, Failure(clientFault.value)) else
    match ExtractPartitionKey(data.key)
    case Failure(e) => Written(data, Failure(e))
    case Success(k) =>
      var item := data.(key := k.id);
      Written(item, CreateItem(db, table, RefOf(k), item, fault))
  }

  /** `DeleteEntity`: decodes the key and deletes. It has no exception
      handler, so deleting a missing record throws the store's 404. */
  function DeleteEntity(clientFault: Option<Exception>, db: Database, table: string, key: string, fault: Option<Exception>): (r: Result<Database, Exception>)
    ensures clientFault.Some? ==> r == Failure(clientFault.value)
    ensures clientFault.None? && ExtractPartitionKey(key).Failure? ==> r == Failure(MalformedKey)
    ensures clientFault.None? && ExtractPartitionKey(key).Success? && fault.None? ==>
              var ref := RefOf(ExtractPartitionKey(key).value);
              (r.Success? <==> Lookup(db, table, ref).Some?) && (r.Failure? ==> r.error == NotFoundError)
    ensures clientFault.None? && ExtractPartitionKey(key).Success? && fault.Some? ==> r == Failure(fault.value)
    ensures r.Success? ==> var ref := RefOf(ExtractPartitionKey(key).value);
              && Lookup(r.value, table, ref).None?
              && r.value.Keys == db.Keys
              && forall t, r' :: (t, r') != (table, ref) ==> Lookup(r.value, t, r') == Lookup(db, t, r')
  {
    if clientFault.Some? then Failure(clientFault.value) else
    var k :- ExtractPartitionKey(key);
    DeleteItem(db, table, RefOf(k), fault)
  }

  /** A record written under `"<partition>/<id>"` reads back under the same key
      with its `Key` rewritten to the bare id. */
  lemma UpsertThenGet(db: Database, table: string, k: ParsedKey, fields: map<string, string>)
    requires WellFormed(k) && table in db && RefOf(k) !in db[table].items
    ensures var w := UpsertEntity(None, db, table, Entity(Encode(k), fields), None);
            && w.result.Success?
            && GetEntity(None, w.result.value, table, Encode(k), None) == Success(Some(Entity(k.id, fields)))
  {
    DecodeEncode(k);
  }

  /** Once a record is deleted, `Exists` reports false for its key rather than throwing. */
  lemma DeleteThenNotExists(db: Database, table: string, key: string)
    requires DeleteEntity(None, db, table, key, None).Success?
    ensures Exists(None, DeleteEntity(None, db, table, key, None).value, table, key, None) == Success(false)
  {
  }

  /** Without store faults, `Exists` answers exactly whether `GetEntity` finds a record. */
  lemma ExistsAgreesWithGet(db: Database, table: string, key: string)
    requires ExtractPartitionKey(key).Success?
    ensures Exists(None, db, table, key, None) == Success(GetEntity(None, db, table, key, None).value.Some?)
  {
  }

  /** Writing the same record twice fails the second time with a 409 and
      leaves the database as the first write left it: the upsert never replaces. */
  lemma UpsertTwiceConflicts(db: Database, table: string, data: Entity)
    requires UpsertEntity(None, db, table, data, None).result.Success?
    ensures var db1 := UpsertEntity(None, db, table, data, None).result.value;
            UpsertEntity(None, db1, table, data, None).result == Failure(ConflictError)
  {
  }
}

=== FILE: store.dfy ===
/** The document store the access layer talks to, reduced to its observable
    state: a database maps table (container) names to containers, and a
    container maps (id, partition key) pairs to stored records. Each SDK call
    takes a `fault`: when present, the call throws it instead of acting
    (network failure, throttling, a store-side rejection the model does not
    derive). */
module Store {
  import opened Wrappers
  import opened Errors
  import opened KeyCodec

  /** Where a record lives: its id and the partition key it was written with. */
  datatype ItemRef = ItemRef(id: string, partition: PartitionKey)

  /** A caller's record (`ITableItem`): its `Key` and the rest of its properties. */
  datatype Entity = Entity(key: string, fields: map<string, string>)

  /** A container with its declared partition-key path. */
  datatype Container = Container(partitionPath: string, items: map<ItemRef, Entity>)

  type Database = map<string, Container>

  const NotFoundMessage: string := "Resource Not Found"

  /** The store's answer for a missing container or record (HTTP 404). */
  const NotFoundError: Exception := Cosmos(404, NotFoundMessage)

  /** The store's answer when creating a record whose id is taken (HTTP 409). */
  const ConflictError: Exception := Cosmos(409, "Resource with specified id or name already exists.")

  /** The reference a decoded key points at. */
  function RefOf(k: ParsedKey): ItemRef {
    ItemRef(k.id, k.partition)
  }

  /** The record stored at `r` in `table`, if both exist. */
  function Lookup(db: Database, table: string, r: ItemRef): Option<Entity> {
    if table in db && r in db[table].items then Some(db[table].items[r]) else None
  }

  /** `ReadItemAsync`: the stored record, or the 404 `CosmosException`. */
  function ReadItem(db: Database, table: string, r: ItemRef, fault: Option<Exception>): (res: Result<Entity, Exception>)
    ensures fault.None? ==> (res.Success? <==> Lookup(db, table, r).Some?)
    ensures res.Success? ==> Lookup(db, table, r) == Some(res.value)
    ensures fault.None? && res.Failure? ==> res.error == NotFoundError
  {
    if fault.Some? then Failure(fault.value)
    else match Lookup(db, table, r)
      case Some(e) => Success(e)
      case None => Failure(NotFoundError)
  }

  /** `CreateItemAsync`: adds a record under a reference that is not yet taken;
      a taken reference is a 409 conflict, a missing container a 404. Nothing
      else in the database changes. */
  function CreateItem(db: Database, table: string, r: ItemRef, e: Entity, fault: Option<Exception>): (res: Result<Database, Exception>)
    ensures fault.None? && table in db ==> (res.Success? <==> r !in db[table].items)
    ensures fault.None? && table in db && r in db[table].items ==> res == Failure(ConflictError)
    ensures res.Success? ==> Lookup(db, table, r).None? && Lookup(res.value, table, r) == Some(e)
    ensures res.Success? ==> res.value.Keys == db.Keys
    ensures res.Success? ==> forall t, r' :: (t, r') != (table, r) ==> Lookup(res.value, t, r') == Lookup(db, t, r')
    ensures res.Success? ==> db[table].partitionPath == res.value[table].partitionPath
    ensures fault.Some? ==> res == Failure(fault.value)
  {
    if fault.Some? then Failure(fault.value)
    else if table !in db then Failure(NotFoundError)
    else if r in db[table].items then Failure(ConflictError)
    else
      var c := db[table];
      Success(db[table := c.(items := c.items[r := e])])
  }

  /** `DeleteItemAsync`: removes an existing record; a missing record or
      container is a 404. Nothing else in the database changes. */
  function DeleteItem(db: Database, table: string, r: ItemRef, fault: Option<Exception>): (res: Result<Database, Exception>)
    ensures fault.None? ==> (res.Success? <==> Lookup(db, table, r).Some?)
    ensures fault.None? && res.Failure? ==> res.error == NotFoundError
    ensures res.Success? ==> Lookup(db, table, r).Some? && Lookup(res.value, table, r).None?
    ensures res.Success? ==> res.value.Keys == db.Keys
    ensures res.Success? ==> forall t, r' :: (t, r') != (table, r) ==> Lookup(res.value, t, r') == Lookup(db, t, r')
    ensures res.Success? ==> db[table].partitionPath == res.value[table].partitionPath
    ensures fault.Some? ==> res == Failure(fault.value)
  {
    if fault.Some? then Failure(fault.value)
    else if table !in db || r !in db[table].items then Failure(NotFoundError)
    else
      var c := db[table];
      Success(db[table := c.(items := c.items - {r})])
  }
}

=== FILE: strings.dfy ===
/** The few .NET string operations the storage layer relies on: `Split` on one
    character, `StartsWith`, `Contains`, `Replace`, `ToLowerInvariant` and the
    blank test behind the `Required` validation attribute. */
module Strings {

  /** Splits `s` at every occurrence of `sep`, keeping empty segments, as .NET's
      `String.Split(sep)` does with no options. */
  function Split(s: string, sep: char): (parts: seq<string>)
    ensures |parts| >= 1
    ensures forall i :: 0 <= i < |parts| ==> sep !in parts[i]
    decreases |s|
  {
    if |s| == 0 then [""]
    else
      var rest := Split(s[1..], sep);
      if s[0] == sep then [""] + rest
      else [[s[0]] + rest[0]] + rest[1..]
  }

  /** `n` separators give `n + 1` parts. */
  lemma {:induction false} SplitCount(s: string, sep: char)
    ensures |Split(s, sep)| == multiset(s)[sep] + 1
    decreases |s|
  {
    if |s| > 0 {
      SplitCount(s[1..], sep);
      assert s == [s[0]] + s[1..];
      assert multiset(s) == multiset([s[0]]) + multiset(s[1..]);
    }
  }

  /** Joining the parts with the separator gives the original string back. */
  lemma {:induction false} JoinSplit(s: string, sep: char)
    ensures Join(Split(s, sep), sep) == s
    decreases |s|
  {
    if |s| > 0 {
      var rest := Split(s[1..], sep);
      JoinSplit(s[1..], sep);
      assert s == [s[0]] + s[1..];
      if s[0] == sep {
        assert Join([""] + rest, sep) == [sep] + Join(rest, sep);
      } else if |rest| >= 2 {
        var parts := [[s[0]] + rest[0]] + rest[1..];
        assert Join(rest, sep) == rest[0] + [sep] + Join(rest[1..], sep);
        assert parts[1..] == rest[1..];
        assert Join(parts, sep) == parts[0] + [sep] + Join(rest[1..], sep);
      }
    }
  }

  /** Glues `parts` back together with `sep` between neighbours (.NET's `String.Join`). */
  function Join(parts: seq<string>, sep: char): string
    decreases |parts|
  {
    if |parts| == 0 then ""
    else if |parts| == 1 then parts[0]
    else parts[0] + [sep] + Join(parts[1..], sep)
  }

  /** A string without the separator splits into itself alone. */
  lemma {:induction false} SplitWithoutSeparator(s: string, sep: char)
    requires sep !in s
    ensures Split(s, sep) == [s]
    decreases |s|
  {
    if |s| > 0 {
      assert s[0] != sep;
      assert sep !in s[1..];
      SplitWithoutSeparator(s[1..], sep);
      assert [s[0]] + s[1..] == s;
    }
  }

  /** Splitting at a separator between `x` and `y` splits the two halves separately. */
  lemma {:induction false} SplitAround(x: string, sep: char, y: string)
    ensures Split(x + [sep] + y, sep) == Split(x, sep) + Split(y, sep)
    decreases |x|
  {
    var s := x + [sep] + y;
    if |x| == 0 {
      assert s[1..] == y;
    } else {
      assert s[1..] == x[1..] + [sep] + y;
      SplitAround(x[1..], sep, y);
    }
  }

  /** Two separator-free texts in front of the rest split off as its first two segments. */
  lemma SplitTwoFirst(a: string, b: string, sep: char, rest: string)
    requires sep !in a && sep !in b
    ensures Split(a + [sep] + b + [sep] + rest, sep) == [a, b] + Split(rest, sep)
  {
    assert a + [sep] + b + [sep] + rest == a + [sep] + (b + [sep] + rest);
    SplitAround(a, sep, b + [sep] + rest);
    SplitAround(b, sep, rest);
    SplitWithoutSeparator(a, sep);
    SplitWithoutSeparator(b, sep);
  }

  /** Two separator-free texts joined by the separator split back into them. */
  lemma SplitPair(a: string, b: string, sep: char)
    requires sep !in a && sep !in b
    ensures Split(a + [sep] + b, sep) == [a, b]
  {
    SplitAround(a, sep, b);
    SplitWithoutSeparator(a, sep);
    SplitWithoutSeparator(b, sep);
  }

  /** Four separator-free texts joined by the separator split back into them. */
  lemma SplitFour(a: string, b: string, c: string, d: string, sep: char)
    requires sep !in a && sep !in b && sep !in c && sep !in d
    ensures Split(a + [sep] + b + [sep] + (c + [sep] + d), sep) == [a, b, c, d]
  {
    SplitTwoFirst(a, b, sep, c + [sep] + d);
    SplitPair(c, d, sep);
  }

  /** Five separator-free texts joined by the separator split back into them. */
  lemma SplitFive(p: string, a: string, b: string, c: string, d: string, sep: char)
    requires sep !in p && sep !in a && sep !in b && sep !in c && sep !in d
    ensures Split(p + [sep] + (a + [sep] + b + [sep] + (c + [sep] + d)), sep) == [p, a, b, c, d]
  {
    var rest := a + [sep] + b + [sep] + (c + [sep] + d);
    SplitFour(a, b, c, d, sep);
    SplitAround(p, sep, rest);
    SplitWithoutSeparator(p, sep);
    assert [p] + [a, b, c, d] == [p, a, b, c, d];
  }

  /** Splitting joined segments that do not contain the separator gives the segments back. */
  lemma {:induction false} SplitJoin(parts: seq<string>, sep: char)
    requires |parts| >= 1
    requires forall i :: 0 <= i < |parts| ==> sep !in parts[i]
    ensures Split(Join(parts, sep), sep) == parts
    decreases |parts|
  {
    if |parts| == 1 {
      SplitWithoutSeparator(parts[0], sep);
    } else {
      SplitJoin(parts[1..], sep);
      SplitWithoutSeparator(parts[0], sep);
      SplitAround(parts[0], sep, Join(parts[1..], sep));
      assert [parts[0]] + parts[1..] == parts;
    }
  }

  /** `s` begins with `prefix` (.NET's ordinal `StartsWith`). */
  predicate StartsWith(s: string, prefix: string) {
    |prefix| <= |s| && s[..|prefix|] == prefix
  }

  /** `s` ends with `suffix` (.NET's ordinal `EndsWith`). */
  predicate EndsWith(s: string, suffix: string) {
    |suffix| <= |s| && s[|s| - |suffix|..] == suffix
  }

  /** `pat` occurs in `s` starting at index `i`. */
  predicate OccursAt(s: string, pat: string, i: int) {
    0 <= i && i + |pat| <= |s| && s[i..i + |pat|] == pat
  }

  /** `pat` occurs somewhere in `s` (.NET's ordinal `Contains`). */
  predicate Contains(s: string, pat: string) {
    exists i | 0 <= i <= |s| - |pat| :: OccursAt(s, pat, i)
  }

  /** Replaces every occurrence of `pat`, scanning left to right without
      overlaps, as .NET's `String.Replace` does; .NET rejects an empty `pat`. */
  function ReplaceAll(s: string, pat: string, rep: string): (r: string)
    requires |pat| > 0
    ensures |rep| == 0 ==> |r| <= |s|
    decreases |s|
  {
    if |s| < |pat| then s
    else if s[..|pat|] == pat then
      assert OccursAt(s, pat, 0);
      rep + ReplaceAll(s[|pat|..], pat, rep)
    else
      var tail := ReplaceAll(s[1..], pat, rep);
      assert s == [s[0]] + s[1..];
      [s[0]] + tail
  }

  /** An occurrence in the tail of `s` is an occurrence in `s`. */
  lemma ContainsTail(s: string, pat: string)
    requires |s| > 0
    ensures Contains(s[1..], pat) ==> Contains(s, pat)
  {
    if Contains(s[1..], pat) {
      var i :| 0 <= i <= |s[1..]| - |pat| && OccursAt(s[1..], pat, i);
      assert s[i + 1..i + 1 + |pat|] == s[1..][i..i + |pat|];
      assert OccursAt(s, pat, i + 1);
    }
  }

  /** A string in which `pat` never occurs is left as it is. */
  lemma {:induction false} ReplaceAbsent(s: string, pat: string, rep: string)
    requires |pat| > 0 && !Contains(s, pat)
    ensures ReplaceAll(s, pat, rep) == s
    decreases |s|
  {
    if |s| >= |pat| {
      assert !OccursAt(s, pat, 0);
      ReplaceSkip(s, pat, rep);
      if Contains(s[1..], pat) {
        ContainsTail(s, pat);
      }
      ReplaceAbsent(s[1..], pat, rep);
      assert s == [s[0]] + s[1..];
    }
  }

  /** A leading occurrence is replaced and scanning resumes after it. */
  lemma ReplaceLeading(pat: string, s: string, rep: string)
    requires |pat| > 0
    ensures ReplaceAll(pat + s, pat, rep) == rep + ReplaceAll(s, pat, rep)
  {
    assert (pat + s)[..|pat|] == pat;
    assert (pat + s)[|pat|..] == s;
  }

  /** Occurrences in the tail of `s` are the occurrences in `s` shifted by one. */
  lemma OccursShift(s: string, pat: string, i: int)
    requires |s| > 0 && 0 <= i
    ensures OccursAt(s[1..], pat, i) <==> OccursAt(s, pat, i + 1)
  {
    if i + |pat| <= |s[1..]| {
      var a, b := s[i + 1..i + 1 + |pat|], s[1..][i..i + |pat|];
      assert forall k :: 0 <= k < |a| ==> a[k] == b[k];
      assert a == b;
    }
  }

  /** A position where `pat` does not start is copied and scanning moves on. */
  lemma ReplaceSkip(s: string, pat: string, rep: string)
    requires |pat| > 0 && |s| >= |pat| && !OccursAt(s, pat, 0)
    ensures ReplaceAll(s, pat, rep) == [s[0]] + ReplaceAll(s[1..], pat, rep)
  {
    assert s[..|pat|] == s[0..|pat|];
  }

  /** `pat` starts nowhere in `x + pat` before the trailing copy. */
  predicate OnlyTrailing(x: string, pat: string) {
    forall i :: 0 <= i < |x| ==> !OccursAt(x + pat, pat, i)
  }

  /** When `x` lacks the first character of `pat`, no occurrence of `pat` in
      `x + pat` starts inside `x`. */
  lemma OnlyTrailingWithoutHead(x: string, pat: string)
    requires |pat| > 0 && pat[0] !in x
    ensures OnlyTrailing(x, pat)
  {
    forall i | 0 <= i < |x|
      ensures !OccursAt(x + pat, pat, i)
    {
      var s := x + pat;
      assert s[i] == x[i] != pat[0];
      assert i + |pat| <= |s| ==> s[i..i + |pat|][0] == s[i];
    }
  }

  lemma OnlyTrailingTail(x: string, pat: string)
    requires |x| > 0 && OnlyTrailing(x, pat)
    ensures OnlyTrailing(x[1..], pat)
  {
    var s := x + pat;
    assert s[1..] == x[1..] + pat;
    forall i | 0 <= i < |x[1..]|
      ensures !OccursAt(x[1..] + pat, pat, i)
    {
      OccursShift(s, pat, i);
    }
  }

  /** When the only occurrence of `pat` in `x + pat` is the trailing one, only
      that one is replaced. */
  lemma {:induction false} ReplaceTrailing(x: string, pat: string, rep: string)
    requires |pat| > 0
    requires OnlyTrailing(x, pat)
    ensures ReplaceAll(x + pat, pat, rep) == x + rep
    decreases |x|
  {
    if |x| == 0 {
      assert x + pat == pat + "";
      ReplaceLeading(pat, "", rep);
    } else {
      var s := x + pat;
      ReplaceSkip(s, pat, rep);
      OnlyTrailingTail(x, pat);
      ReplaceTrailing(x[1..], pat, rep);
      assert s[1..] == x[1..] + pat;
      assert x == [x[0]] + x[1..];
    }
  }

  /** ASCII upper-case letters map to lower case; every other character is kept. */
  function LowerChar(c: char): char {
    if 'A' <= c <= 'Z' then (c as int + 32) as char else c
  }

  /** Lower-cases `s` character by character (`ToLowerInvariant` on ASCII letters). */
  function ToLower(s: string): (r: string)
    ensures |r| == |s|
    ensures forall i :: 0 <= i < |s| ==> r[i] == LowerChar(s[i])
  {
    seq(|s|, i requires 0 <= i < |s| => LowerChar(s[i]))
  }

  /** The white-space characters the model recognises. */
  predicate IsWhiteSpace(c: char) {
    c == ' ' || c == '\t' || c == '\n' || c == '\r' || c == '\U{000B}' || c == '\U{000C}'
  }

  /** Empty or made only of white space: what a `[Required]` string may not be. */
  predicate IsBlank(s: string) {
    forall i :: 0 <= i < |s| ==> IsWhiteSpace(s[i])
  }
}

=== FILE: tables.dfy ===
/** Table (container) management: `CreateTable`, `DeleteTable`,
    `ListTableNames` and `TableExists`, over the containers of the
    configured database. */
module Tables {
  import opened Wrappers
  import opened Strings
  import opened Errors
  import opened KeyCodec
  import opened Store
  import opened Paging

  /** The partition-key path a table gets when its name does not declare one. */
  const DefaultPartitionKeyPath: string := "/_partitionKey"

  /** What a `CreateTable` argument asks for: the container name and its
      partition-key path. */
  datatype TableSpec = TableSpec(name: string, partitionPath: string)

  /** `CreateTable`'s reading of its argument: `"<name>"` takes the default
      path; `"<name>/<property>"` declares the path `"/<property>"`; more than
      one `/` throws the same exception as a malformed record key. */
  function ParseTableName(tableName: string): (r: Result<TableSpec, Exception>)
    ensures r.Failure? <==> multiset(tableName)[Separator] >= 2
    ensures r.Failure? ==> r.error == MalformedKey
    ensures r.Success? && Separator !in tableName ==> r.value == TableSpec(tableName, DefaultPartitionKeyPath)
    ensures r.Success? && Separator in tableName ==>
              && Separator !in r.value.name
              && |r.value.partitionPath| > 0 && r.value.partitionPath[0] == Separator
              && r.value.name + r.value.partitionPath == tableName
  {
    if Separator in tableName then
      var parts := Split(tableName, Separator);
      SplitCount(tableName, Separator);
      JoinSplit(tableName, Separator);
      if |parts| > 2 then Failure(MalformedKey)
      else
        assert Join(parts, Separator) == parts[0] + [Separator] + parts[1];
        Success(TableSpec(parts[0], [Separator] + parts[1]))
    else
      Success(TableSpec(tableName, DefaultPartitionKeyPath))
  }

  /** The table-name reading splits exactly as the record-key reading does:
      the name plays the part of the partition and the property that of the id. */
  lemma ParseTableNameAgrees(tableName: string)
    ensures ParseTableName(tableName).Failure? <==> ExtractPartitionKey(tableName).Failure?
    ensures ParseTableName(tableName).Success? ==>
              var k := ExtractPartitionKey(tableName).value;
              ParseTableName(tableName).value ==
                match k.partition
                case NoPartition => TableSpec(k.id, DefaultPartitionKeyPath)
                case Partition(p) => TableSpec(p, [Separator] + k.id)
  {
  }

  /** `CreateTable`: creates the container with its partition-key path unless
      a container of that name exists, in which case nothing changes.
      No other container changes. */
  function CreateTable(db: Database, tableName: string, fault: Option<Exception>): (r: Result<Database, Exception>)
    ensures ParseTableName(tableName).Failure? ==> r == Failure(MalformedKey)
    ensures ParseTableName(tableName).Success? && fault.None? ==> r.Success?
    ensures r.Success? ==>
              var spec := ParseTableName(tableName).value;
              && r.value.Keys == db.Keys + {spec.name}
              && (spec.name in db ==> r.value == db)
              && (spec.name !in db ==> r.value[spec.name] == Container(spec.partitionPath, map[]))
              && forall t | t in db && t != spec.name :: r.value[t] == db[t]
  {
    var spec :- ParseTableName(tableName);
    if fault.Some? then Failure(fault.value)
    else if spec.name in db then Success(db)
    else Success(db[spec.name := Container(spec.partitionPath, map[])])
  }

  /** Creating a table that exists already leaves the database unchanged, so
      creating twice is the same as creating once. */
  lemma CreateTableIdempotent(db: Database, tableName: string)
    requires CreateTable(db, tableName, None).Success?
    ensures CreateTable(CreateTable(db, tableName, None).value, tableName, None) == CreateTable(db, tableName, None)
  {
  }

  /** `DeleteTable`: removes the container and its records; a missing
      container is the store's 404 (not caught). */
  function DeleteTable(db: Database, table: string, fault: Option<Exception>): (r: Result<Database, Exception>)
    ensures fault.None? ==> (r.Success? <==> table in db)
    ensures fault.None? && r.Failure? ==> r.error == NotFoundError
    ensures r.Success? ==> r.value.Keys == db.Keys - {table} && forall t | t in r.value :: r.value[t] == db[t]
  {
    if fault.Some? then Failure(fault.value)
    else if table !in db then Failure(NotFoundError)
    else Success(db - {table})
  }

  /** After a successful delete, every record of the table reads as missing. */
  lemma DeleteTableForgetsRecords(db: Database, table: string, ref: ItemRef)
    requires DeleteTable(db, table, None).Success?
    ensures Lookup(DeleteTable(db, table, None).value, table, ref).None?
  {
  }

  /** The distinct names a list holds. */
  function Names(xs: seq<string>): set<string> {
    set i | 0 <= i < |xs| :: xs[i]
  }

  /** `listing` is how the store pages through the database's containers:
      a complete run of pages that between them name every container and
      nothing else. */
  predicate Lists(db: Database, listing: seq<Page<string>>) {
    Complete(listing) && Names(Flatten(listing)) == db.Keys
  }

  /** `ListTableNames` as written: it reads one page of the container listing. */
  function ListTableNamesAsWritten(listing: seq<Page<string>>): (names: seq<string>)
    requires |listing| > 0
    ensures var full := Drain(ResumedIteratorPages(listing), FreshToken, map[], 0).emitted;
            |names| <= |full| && names == full[..|listing[0].items|]
  {
    DrainRuns(listing, FreshToken, map[], 0);
    var d := Drain(listing, FreshToken, map[], 0);
    assert d.fetches > 0;
    assert listing[0..d.fetches][1..] == listing[1..d.fetches];
    listing[0].items
  }

  /** `TableExists` as written: the name is among those `ListTableNames` returns. */
  predicate TableExistsAsWritten(listing: seq<Page<string>>, tableName: string)
    requires |listing| > 0
    ensures TableExistsAsWritten(listing, tableName) <==> tableName in listing[0].items
  {
    tableName in ListTableNamesAsWritten(listing)
  }

  /** `TableExists` as written never reports a missing table, but it
      reports an existing one as missing whenever the container listing
      names it on a later page. */
  lemma AsWrittenMissesLaterPages(db: Database, listing: seq<Page<string>>, tableName: string)
    requires Lists(db, listing)
    ensures TableExistsAsWritten(listing, tableName) ==> tableName in db
    ensures tableName in db && tableName !in listing[0].items ==> !TableExistsAsWritten(listing, tableName)
  {
    assert Flatten(listing) == listing[0].items + Flatten(listing[1..]);
    if TableExistsAsWritten(listing, tableName) {
      var i :| 0 <= i < |listing[0].items| && listing[0].items[i] == tableName;
      assert Flatten(listing)[i] == tableName;
    }
  }

  /** A database of two tables whose listing comes in two pages: `TableExists`
      as written says the second table does not exist. */
  lemma AsWrittenSecondPageCounterexample()
    ensures var db: Database := map["a" := Container(DefaultPartitionKeyPath, map[]), "b" := Container(DefaultPartitionKeyPath, map[])];
            var listing := [Page(["a"], true), Page(["b"], false)];
            Lists(db, listing) && "b" in db && !TableExistsAsWritten(listing, "b")
  {
    var listing := [Page(["a"], true), Page(["b"], false)];
    assert listing[1..] == [Page(["b"], false)];
    assert Flatten(listing) == ["a", "b"];
    var xs := ["a", "b"];
    var names := Names(xs);
    assert xs[0] == "a" && xs[1] == "b";
    assert "a" in names && "b" in names;
    assert names == {"a", "b"} by {
      forall x | x in names ensures x in {"a", "b"} {
      }
    }
    assert "b" != "a";
  }

  /** `ListTableNames` reading the whole listing, page by page, with one iterator. */
  function ListTableNamesAllPages(listing: seq<Page<string>>): (names: seq<string>)
    requires Complete(listing)
    ensures names == Flatten(listing)
  {
    ResumedEmitsAllOnce(listing, FreshToken, map[], 0);
    assert listing[0..] == listing;
    Drain(ResumedIteratorPages(listing), FreshToken, map[], 0).emitted
  }

  /** `TableExists` over the whole listing: exact, case-sensitive membership. */
  predicate TableExistsAllPages(listing: seq<Page<string>>, tableName: string)
    requires Complete(listing)
  {
    tableName in ListTableNamesAllPages(listing)
  }

  /** Reading the whole listing, `TableExists` answers exactly whether the
      database has a container of that name. */
  lemma TableExistsIffInDatabase(db: Database, listing: seq<Page<string>>, tableName: string)
    requires Lists(db, listing)
    ensures TableExistsAllPages(listing, tableName) <==> tableName in db
  {
    var names := ListTableNamesAllPages(listing);
    if tableName in db {
      assert tableName in Names(names);
    }
  }

  /** Once `CreateTable` succeeds, the table it names exists in every listing
      of the resulting database. */
  lemma CreateThenExists(db: Database, tableName: string, listing: seq<Page<string>>)
    requires CreateTable(db, tableName, None).Success?
    requires Lists(CreateTable(db, tableName, None).value, listing)
    ensures TableExistsAllPages(listing, ParseTableName(tableName).value.name)
  {
    TableExistsIffInDatabase(CreateTable(db, tableName, None).value, listing, ParseTableName(tableName).value.name);
  }

  /** Once `DeleteTable` succeeds, the table exists in no listing of the resulting database. */
  lemma DeleteThenNotExists(db: Database, tableName: string, listing: seq<Page<string>>)
    requires DeleteTable(db, tableName, None).Success?
    requires Lists(DeleteTable(db, tableName, None).value, listing)
    ensures !TableExistsAllPages(listing, tableName)
  {
    TableExistsIffInDatabase(DeleteTable(db, tableName, None).value, listing, tableName);
  }

  /** As written, a successfully created table is reported only when the
      first page of the listing names it. */
  lemma CreateThenExistsAsWritten(db: Database, tableName: string, listing: seq<Page<string>>)
    requires CreateTable(db, tableName, None).Success?
    requires Lists(CreateTable(db, tableName, None).value, listing)
    ensures var name := ParseTableName(tableName).value.name;
            TableExistsAsWritten(listing, name) <==> name in listing[0].items
  {
    var name := ParseTableName(tableName).value.name;
    AsWrittenMissesLaterPages(CreateTable(db, tableName, None).value, listing, name);
  }

  /** A database holding `a`, after `CreateTable("b")` succeeds, listed as
      the pages `[a]` (more follow) and `[b]`: as written, `TableExists("b")`
      is false although the creation succeeded. */
  lemma CreateThenMissingCounterexample()
    ensures var db: Database := map["a" := Container(DefaultPartitionKeyPath, map[])];
            var listing := [Page(["a"], true), Page(["b"], false)];
            && CreateTable(db, "b", None).Success?
            && Lists(CreateTable(db, "b", None).value, listing)
            && !TableExistsAsWritten(listing, "b")
  {
    var db: Database := map["a" := Container(DefaultPartitionKeyPath, map[])];
    assert ParseTableName("b") == Success(TableSpec("b", DefaultPartitionKeyPath)) by {
      assert '/' !in "b";
    }
    var created := CreateTable(db, "b", None).value;
    AsWrittenSecondPageCounterexample();
    assert created == map["a" := Container(DefaultPartitionKeyPath, map[]), "b" := Container(DefaultPartitionKeyPath, map[])];
  }

  /** As written, a deleted table is never reported either: the first page
      names only tables of the database. */
  lemma DeleteThenNotExistsAsWritten(db: Database, tableName: string, listing: seq<Page<string>>)
    requires DeleteTable(db, tableName, None).Success?
    requires Lists(DeleteTable(db, tableName, None).value, listing)
    ensures !TableExistsAsWritten(listing, tableName)
  {
    AsWrittenMissesLaterPages(DeleteTable(db, tableName, None).value, listing, tableName);
  }
}

=== FILE: wrappers.dfy ===
/** Optional values and success-or-error results, standing in for C#'s `null`
    and for thrown exceptions. */
module Wrappers {

  /** A value that may be absent (a C# `null` reference). */
  datatype Option<+T> = None | Some(value: T) {

    /** The value, or `default` when absent. */
    function GetOr(default: T): T {
      match this
      case Some(v) => v
      case None => default
    }
  }

  /** The outcome of a call that either returns a value or throws. */
  datatype Result<+R, +E> = Success(value: R) | Failure(error: E) {

    predicate IsFailure() {
      Failure?
    }

    function PropagateFailure<U>(): Result<U, E>
      requires Failure?
    {
      Failure(error)
    }

    function Extract(): R
      requires Success?
    {
      value
    }
  }
}
